=== FILE: README.md ===
# Checkpointing, recovery and validation scripts of ClaudeCode, in Dafny

This project models the project-management scripts of the ClaudeCode
repository (`project_management/scripts/`) and proves properties of the
model.

The centre is the checkpoint and recovery subsystem:

- the auto-checkpoint daemon (`auto_checkpoint.py`), a transition system over
  `{running, shutdown signalled, last checkpoint time, file-change count,
  last state hash}`;
- the recovery manager (`checkpoint_recovery.py`), as pure functions over an
  abstract filesystem `World`:
  - listing, validation, recovery and replay;
  - the emergency fallback chain;
  - the rebuild from project files;
- the manual `/checkpoint_save` slice of the progress manager
  (`resume_progress.py`):
  - loading and saving the progress state;
  - the default state;
  - `CP###` ids;
  - slugs;
  - task lookup and resumption.

Around it sit the smaller cores:

- the two configuration validators (`validate_config.py`,
  `config_validator.py`);
- the document categoriser and requirement classifiers
  (`integrate_documentation.py`);
- the health grading and monitor registry (`claude_code_manager.py`);
- the log rotation, statistics and session/task tracker
  (`logging_system.py`).

## Layout

| file | module | what it holds |
|---|---|---|
| common.dfy | `Common` | `Option`, Python string and slicing helpers, zero-padded sequence ids |
| sorting.dfy | `Sorting` | stable insertion sorts (by integer key; by text, newest first) |
| yaml.dfy | `Yaml` | parsed YAML values and Python's `in`/subscript on them |
| progress.dfy | `Progress` | the progress record and checkpoint record; the default state; task search |
| store.dfy | `Store` | the abstract filesystem `World` and the checkpoint directory |
| daemon.dfy | `AutoCheckpoint` | auto_checkpoint.py |
| recovery.dfy | `Recovery` | checkpoint_recovery.py |
| manual.dfy | `ProgressManager` | the manual checkpoint slice of resume_progress.py |
| depgraph.dfy | `DependencyGraph` | the `has_cycle` depth-first search of validate_config.py |
| validate_config.dfy | `ValidateConfig` | validate_config.py |
| config_validator.dfy | `ConfigValidator` | config_validator.py |
| documents.dfy | `Documents` | integrate_documentation.py |
| health.dfy | `Health` | claude_code_manager.py |
| logging.dfy | `Logging` | logging_system.py |

### Abstractions

- **Filesystem.** A `World` holds:
  - the project files, as path → content, mtime and readability;
  - the progress-state file (absent, malformed, or a parsed record);
  - the checkpoint directory in listing order;
  - the per-checkpoint file snapshots, the backups and the recovery log.
- **Parsed data.** JSON and YAML arrive parsed. A key a script tests for, or
  subscripts, is an `Option`, so a missing key behaves as the script's
  `KeyError` or `.get` default would.
- **Inputs.** Clock readings, generated ids, the directory walk order, the
  MD5 digest and every I/O failure are inputs. An I/O failure takes one of
  five shapes: a boolean, a set of paths, a `WriteEnd` for a JSON file
  write, a shortened `walk` for an interrupted scan, or a `pruneStopsAfter`
  count for an interrupted clean-up. "## Left out" says which operation
  uses which.

### Where the code and its documentation disagree

The model follows the code in each case:

- **`validate_checkpoint` (checkpoint_recovery.py).** It documents a
  "corrupted JSON" issue. `_find_checkpoint_file` already skips files that do
  not parse, so a corrupt checkpoint is reported as not found.
  `Recovery.Validate` states exactly that.
- **`recover_from_checkpoint`.** The recovery-log line is written while
  `success` still holds its initial `false`, so the log never records a
  success (`Recovery.LoggedSuccessIsAlwaysFalse`).
- **`end_session`.** It reports `decisions_made`, which is always 0:
  `log_decision` never adds to the session data
  (`Logging.DecisionsMadeAlwaysZero`).
- **Auto-checkpoint ids.** They are counted from the files on disk, so after
  pruning a new id can repeat an existing one (`AutoCheckpoint.AutoIdCanRepeat`).

## Model

| member | source | states |
|---|---|---|
| AutoCheckpoint.Init | project_management/scripts/auto_checkpoint.py:36-66 | a new daemon is stopped, has no shutdown signal, no change count and no state baseline, and counts its checkpoint interval from creation |
| AutoCheckpoint.StartAsWritten | project_management/scripts/auto_checkpoint.py:73-90 | `start` on a running daemon changes nothing; otherwise it sets running and the scan baseline but leaves the shutdown signal as it was |
| AutoCheckpoint.Start | project_management/scripts/auto_checkpoint.py:73-90 | corrected `start`: a stopped daemon becomes active (running, no shutdown signal) with its scan baseline `lastScanTime` moved to now, and nothing else changes; a running daemon is unchanged |
| AutoCheckpoint.Stop | project_management/scripts/auto_checkpoint.py:92-107 | `stop` on a stopped daemon is a no-op; on a running one it clears running and signals shutdown; afterwards no loop runs |
| AutoCheckpoint.StartStopIdempotent | project_management/scripts/auto_checkpoint.py:73-99 | starting twice is the same as starting once, and likewise stopping |
| AutoCheckpoint.RestartAsWrittenIsInert | project_management/scripts/auto_checkpoint.py:73-146 | after stop then start, the daemon reports running but both loops exit at once, because the shutdown signal is never cleared |
| AutoCheckpoint.RestartResumes | project_management/scripts/auto_checkpoint.py:73-111 | with the corrected start, stop then start leaves the loops active |
| AutoCheckpoint.StateChanged | project_management/scripts/auto_checkpoint.py:191-214 | a change is reported exactly when a baseline exists, the state file exists and its hash differs; the first observation only sets the baseline; an absent file keeps the baseline |
| AutoCheckpoint.StateChangeReportedOnce | project_management/scripts/auto_checkpoint.py:206-210 | once a new hash is reported it becomes the baseline, so the same hash is never reported twice in a row |
| AutoCheckpoint.ChooseTrigger | project_management/scripts/auto_checkpoint.py:113-128 | time-based fires when at least 1800 s have elapsed; else activity-based at 3 or more changes; else state change; the hash is consulted only when the first two fail |
| AutoCheckpoint.Excluded | project_management/scripts/auto_checkpoint.py:179-189 | a path is excluded iff some component is in the deny set or starts with '.' |
| AutoCheckpoint.Scan | project_management/scripts/auto_checkpoint.py:163-177 | the walked paths returned are exactly those with a monitored suffix, no excluded component, and an mtime after the given time, in walk order; `walk` ends where an exception ends the loop |
| AutoCheckpoint.InterruptedScanKeepsFound | project_management/scripts/auto_checkpoint.py:167-177 | a walk cut short by an exception returns a prefix of what the full walk returns: the paths found before the exception are kept |
| AutoCheckpoint.RecentFiles | project_management/scripts/auto_checkpoint.py:298-313 | exactly the first min(20, n) paths of the scan over the last hour, in walk order, where n is the number of scan hits |
| AutoCheckpoint.ScanCycle | project_management/scripts/auto_checkpoint.py:142-161 | an active daemon adds exactly the number of scanned changes to its counter and moves its scan baseline; an inactive one is unchanged |
| AutoCheckpoint.NextAutoId | project_management/scripts/auto_checkpoint.py:226-229 | the new id is AUTO_CP followed by the number of AUTO_CP files plus one |
| AutoCheckpoint.FilterOutCount | project_management/scripts/auto_checkpoint.py:318-325 | removing a set of names from a duplicate-free list removes exactly as many entries as the set shares with the list |
| AutoCheckpoint.RemoveNamed | project_management/scripts/auto_checkpoint.py:321-323 | unlinking a set of names keeps exactly the other entries, and the AUTO_CP names left are the old ones minus the deleted |
| AutoCheckpoint.Cleanup | project_management/scripts/auto_checkpoint.py:315-330 | with at most 50 AUTO_CP files nothing changes; otherwise the oldest are unlinked, leaving exactly 50, or more when an unlink raises partway (`Surviving`); other files are kept; every deleted file is no newer than every kept AUTO_CP file |
| AutoCheckpoint.Surviving | project_management/scripts/auto_checkpoint.py:320-327 | the number of AUTO_CP files left: all of them up to 50, else 50 when every unlink succeeds, else the count less the unlinks done before the raise, never below 50 |
| AutoCheckpoint.PruneOldest | project_management/scripts/auto_checkpoint.py:318-323 | unlinking the k oldest AUTO_CP files by mtime leaves k fewer, keeps every other file, and leaves no kept AUTO_CP file older than a deleted one |
| AutoCheckpoint.InterruptedCleanupKeepsMore | project_management/scripts/auto_checkpoint.py:320-330 | a clean-up stopped by a raising unlink keeps every file the complete clean-up keeps |
| AutoCheckpoint.CleanupIdempotent | project_management/scripts/auto_checkpoint.py:318-325 | a second clean-up is a no-op |
| AutoCheckpoint.AutoCapture | project_management/scripts/auto_checkpoint.py:231-247 | the captured record carries the id, AUTO kind, trigger name, phase, active task, progress, context, PENDING status, change count and recent files |
| AutoCheckpoint.RecordAutoCheckpoint | project_management/scripts/auto_checkpoint.py:264-288 | the state gains exactly the new checkpoint, points recovery at it, enables rollback and records the auto-checkpoint count and time; nothing else changes |
| AutoCheckpoint.CreateAutoCheckpoint | project_management/scripts/auto_checkpoint.py:216-296 | a missing or malformed state file writes nothing; a checkpoint write that fails at `open` writes nothing, one that fails in `json.dump` leaves a truncated checkpoint file and nothing else; otherwise the outcome is that of writing the checkpoint file, then the state, then the clean-up (`WriteAutoCheckpoint`) |
| AutoCheckpoint.WriteAutoCheckpoint | project_management/scripts/auto_checkpoint.py:250-292 | the checkpoint file is stored; a state write failing at `open` leaves the state, one failing in `json.dump` leaves it truncated (malformed), and either skips the clean-up; a complete write records the checkpoint in the state and cleans the directory up |
| AutoCheckpoint.TruncatedAutoCheckpointCounts | project_management/scripts/auto_checkpoint.py:250-264 | a checkpoint file cut short by a failed `json.dump` is left behind: it is an AUTO_CP file, so it counts towards the clean-up limit and the next sequence number, yet it does not parse; the state is untouched |
| AutoCheckpoint.AutoIdCanRepeat | project_management/scripts/auto_checkpoint.py:226-229 | there is a directory whose single AUTO_CP file already carries the id the next checkpoint would get |
| AutoCheckpoint.DecisionCycle | project_management/scripts/auto_checkpoint.py:109-140 | an inactive daemon does nothing; when a trigger fires a checkpoint is created and the clock and change count reset; otherwise only the hash baseline may move |
| AutoCheckpoint.FiringResetsEvenOnFailure | project_management/scripts/auto_checkpoint.py:130-133 | a firing cycle resets the change count and the checkpoint time even when the checkpoint write fails; the state is untouched, and a write failing at `open` changes nothing else |
| AutoCheckpoint.AutoCheckpointRecorded | project_management/scripts/auto_checkpoint.py:246-288 | after a successful creation the last checkpoint is PENDING with the new id, earlier ones are kept, recovery points at it, rollback is on, and the count equals the id's number |
| AutoCheckpoint.ForceCheckpoint | project_management/scripts/auto_checkpoint.py:332-336 | a forced checkpoint is an auto-checkpoint with the MANUAL_TRIGGER reason and the next AUTO_CP id |
| Recovery.ReadablePrefix | project_management/scripts/checkpoint_recovery.py:47-72 | only readable .json entries are listed, and when none is corrupt all of them are |
| Recovery.CorruptFileHidesLater | project_management/scripts/checkpoint_recovery.py:51-72 | a corrupt file ends the listing: nothing after it is listed |
| Recovery.ListCheckpoints | project_management/scripts/checkpoint_recovery.py:47-75 | the listing is a permutation of the readable rows, sorted newest timestamp first as text; the order among equal timestamps is not stated |
| Recovery.FindCheckpoint | project_management/scripts/checkpoint_recovery.py:365-375 | the first readable file whose checkpoint id matches, or none if there is no such file |
| Recovery.MissingFieldsOf | project_management/scripts/checkpoint_recovery.py:104-110 | no field is missing iff id, timestamp, description, phase and task are all present |
| Recovery.MissingSectionsOf | project_management/scripts/checkpoint_recovery.py:113-117 | no section is missing iff metadata, current_session and phases are all present |
| Recovery.Validate | project_management/scripts/checkpoint_recovery.py:77-147 | an unknown id yields only a not-found issue; integrity iff no required field is missing; valid iff no issues and integrity; feasible iff valid and every referenced file exists; missing sections only warn |
| Recovery.FeasibilityIgnoresReadability | project_management/scripts/checkpoint_recovery.py:120-137 | validity and feasibility depend only on which files exist, not on whether they are readable |
| Recovery.BackupState | project_management/scripts/checkpoint_recovery.py:377-392 | with no state file the backup succeeds without writing; otherwise it copies the state unless the copy fails |
| Recovery.RestoredState | project_management/scripts/checkpoint_recovery.py:186-204 | the restored state is the embedded state with fresh last_updated and last_activity, a recovery_ session id, and one recovery-history entry appended; nothing else differs |
| Recovery.ReplayFiles | project_management/scripts/checkpoint_recovery.py:212-229 | a file with a snapshot is restored unless its copy fails, and then it is listed as failed; files without a snapshot are untouched; no failures means no failed list |
| Recovery.LogRecovery | project_management/scripts/checkpoint_recovery.py:394-411 | the log gains exactly one line unless the write fails, and nothing else changes |
| Recovery.Recover | project_management/scripts/checkpoint_recovery.py:149-249 | an infeasible checkpoint changes nothing and reports the validator issues; a feasible one backs up first, restores the state iff it has metadata and a session and the write completes (a write failing at `open` leaves the state, one failing in `json.dump` leaves it malformed), replays the referenced files whatever became of the state (restored, failed and project as the replay gives them), and logs one line unless logging fails; success iff restored and no file failed |
| Recovery.FailedRestoreStillReplays | project_management/scripts/checkpoint_recovery.py:208-229 | when the state write fails, at `open` or in `json.dump`, and no copy fails, every referenced file with a snapshot is still restored, exactly those are listed, and only the verdict turns to failure |
| Recovery.LoggedSuccessIsAlwaysFalse | project_management/scripts/checkpoint_recovery.py:232-238 | the logged line always records success as false |
| Recovery.CleanRecoverySucceeds | project_management/scripts/checkpoint_recovery.py:179-238 | with no failures and a state holding metadata and a session, recovery succeeds, backs up, and restores every snapshotted file |
| Recovery.FirstFeasible | project_management/scripts/checkpoint_recovery.py:261-266 | the first listed checkpoint that is feasible, or none |
| Recovery.EmergencyRecover | project_management/scripts/checkpoint_recovery.py:251-271 | no checkpoints, or none feasible, changes nothing; otherwise it recovers through the id of the first feasible row of the newest-first listing, which is resolved to the first directory file carrying that id |
| Recovery.EmergencyRecoversFeasible | project_management/scripts/checkpoint_recovery.py:261-266 | the checkpoint emergency recovery uses always validates as feasible |
| Recovery.ConfidenceOf | project_management/scripts/checkpoint_recovery.py:286-315 | HIGH iff resume.py exists; MEDIUM iff not but config.yaml or a progress-state .md exists; LOW otherwise |
| Recovery.ProgressEstimate | project_management/scripts/checkpoint_recovery.py:304-315 | between 0 and 25; exactly min(25, 5n) for n ≥ 3 scripts, with or without resume.py; 15 when resume.py exists with fewer scripts, else 0 |
| Recovery.RebuiltState | project_management/scripts/checkpoint_recovery.py:317-346 | the rebuilt state is in phase 1 with the estimated progress, the probable task, FILE_ANALYSIS as its source, and a rebuild_info carrying the confidence, the script count and the reconstruction notes |
| Recovery.NotesOf | project_management/scripts/checkpoint_recovery.py:286-312 | a note for config.yaml iff it exists, for the progress documents iff there are any (with their count), for the scripts iff there are any (with their count), for resume.py iff it exists; in that order |
| Recovery.ConfidenceFromNotes | project_management/scripts/checkpoint_recovery.py:286-312 | HIGH iff there is a resume.py note; LOW iff there is none for resume.py, config.yaml or progress documents |
| Recovery.Rebuild | project_management/scripts/checkpoint_recovery.py:273-363 | any existing state is backed up as corrupted_state first; success iff the backup and the write succeed, and then the state is the rebuilt one; a failed backup or a write failing at `open` leaves the state, one failing in `json.dump` leaves it malformed; the result carries the reconstruction notes |
| Progress.DefaultState | project_management/scripts/resume_progress.py:243-287 | phase 1, progress 0.0, no checkpoints, no last good state, rollback off, active task P1.1.1 |
| Progress.FindTaskIsFirstInVisitOrder | project_management/scripts/resume_progress.py:289-305 | the lookup returns the first match when each task is visited before its subtasks, phase by phase |
| ProgressManager.LoadProgressState | project_management/scripts/resume_progress.py:35-45 | a parsed state file is returned as is; a missing or malformed one gives the default state |
| ProgressManager.SaveProgressState | project_management/scripts/resume_progress.py:47-58 | saving succeeds iff the state has metadata and the write completes, and then stores the state with a fresh last_updated; without metadata, or when `open` fails, nothing changes; when `json.dump` fails after `open` the file is left truncated (malformed) |
| ProgressManager.TruncatedSaveLoadsDefault | project_management/scripts/resume_progress.py:35-58 | after a save whose `json.dump` fails, the next load falls back to the default state |
| ProgressManager.SaveThenLoad | project_management/scripts/resume_progress.py:35-58 | loading after a successful save returns the saved state, differing only in last_updated |
| ProgressManager.Slugify | project_management/scripts/resume_progress.py:349-353 | a slug is at most 50 characters of lower-case letters, digits and '-', with no two '-' in a row |
| ProgressManager.SlugifyIdempotent | project_management/scripts/resume_progress.py:349-353 | slugifying a slug changes nothing |
| ProgressManager.NextActions | project_management/scripts/resume_progress.py:324-343 | the three actions each case gives: the generic list for an empty task, continue/update/checkpoint for IN_PROGRESS, begin/review/checkpoint for PENDING, review/determine/update for any other status |
| ProgressManager.ResumeSpecificTask | project_management/scripts/resume_progress.py:102-131 | an unknown or empty task yields the error answer for that id; otherwise, even for an entry holding only keys the script never reads, every field is the task's or its documented default |
| ProgressManager.ResumeUnreadKeysOnly | project_management/scripts/resume_progress.py:102-131 | an entry holding only keys the script never reads is truthy, so it resumes with every default |
| ProgressManager.ResumeFirstMatch | project_management/scripts/resume_progress.py:289-305 | when the first task with the id is not empty, resumption uses that task |
| ProgressManager.ManualId | project_management/scripts/resume_progress.py:156-157 | the manual id is CP followed by the number of checkpoints in the state plus one |
| ProgressManager.ManualCapture | project_management/scripts/resume_progress.py:160-170 | the record carries the id, time, description, phase, active task, progress and context taken from the state |
| ProgressManager.RecordManualCheckpoint | project_management/scripts/resume_progress.py:182-189 | the state gains exactly the checkpoint and points recovery at it; rollback_available is left untouched |
| ProgressManager.ContextDisplay | project_management/scripts/resume_progress.py:204 | a context of at most 100 characters is shown whole; a longer one is cut to 100 and followed by "..." |
| ProgressManager.CheckpointSave | project_management/scripts/resume_progress.py:151-217 | fails with a KeyError when metadata or the session is missing; a checkpoint write failing at `open` stores nothing, one failing in `json.dump` leaves a truncated checkpoint file; otherwise stores the capture with the pre-append state whatever happens next; a missing recovery section is an ERROR after that; the reply gives the id, phase, task, progress, file count and context; the state is updated when its write completes, kept when `open` fails and left malformed when `json.dump` fails |
| ProgressManager.ConsecutiveSavesNumberConsecutively | project_management/scripts/resume_progress.py:156-192 | two saves in a row get consecutive numbers |
| ProgressManager.ManualIdIgnoresDirectory | project_management/scripts/resume_progress.py:156-157 | the id does not depend on the checkpoint directory |
| ProgressManager.FailedStateSaveRepeatsId | project_management/scripts/resume_progress.py:156-192 | when the state file cannot be opened for writing, the next save, at any moment, reuses the same id |
| ProgressManager.TruncatedStateSaveRestartsNumbering | project_management/scripts/resume_progress.py:35-58 | when the state write of a save fails in `json.dump`, the next load gives the default state, and the next save succeeds and numbers its checkpoint 1 again |
| Common.SequenceIdInjective | project_management/scripts/auto_checkpoint.py:229 | distinct numbers give distinct zero-padded ids |
| Common.ZeroPad3RoundTrip | project_management/scripts/resume_progress.py:157 | the number can be read back from its zero-padded text |
| Store.PutCheckpoint | project_management/scripts/auto_checkpoint.py:250-264 | writing a checkpoint file replaces the entry of that name, or adds it at the end; names stay unique |
| DependencyGraph.FindCycle | project_management/scripts/validate_config.py:446-466 | a reported node is a key of the dependency map |
| DependencyGraph.FindCycleIsExact | project_management/scripts/validate_config.py:446-472 | the search reports a cycle iff the graph has a directed cycle; self-loops count, and names without an entry are leaves |
| DependencyGraph.TopologicalMeansAcyclic | project_management/scripts/validate_config.py:446-458 | a finishing order in which every edge points backwards rules out a cycle |
| DependencyGraph.Visit | project_management/scripts/validate_config.py:446-458 | a neighbour on the recursion stack means a real cycle; a search that finds none finishes the node after all its successors |
| ValidateConfig.ConfigFileFindings | project_management/scripts/validate_config.py:103-136 | a missing or unreadable config file gives exactly one critical finding |
| ValidateConfig.SyntaxFindings | project_management/scripts/validate_config.py:138-166 | a YAML error or a non-mapping root gives exactly one critical finding |
| ValidateConfig.RequiredDirFindings | project_management/scripts/validate_config.py:168-219 | no error iff every required directory exists |
| ValidateConfig.DirectoryStep | project_management/scripts/validate_config.py:168-219 | the step passes iff the required directories exist; missing optional ones only give info |
| ValidateConfig.RefFindings | project_management/scripts/validate_config.py:248-287 | no error iff every referenced file resolves to a readable file |
| ValidateConfig.ExpectedCategory | project_management/scripts/validate_config.py:330 | the expected category is the section name with all trailing 's' removed |
| ValidateConfig.MissingFieldFindings | project_management/scripts/validate_config.py:318-328 | one warning per frontmatter field that is missing |
| ValidateConfig.CheckComponent | project_management/scripts/validate_config.py:303-365 | a component passes iff its file is readable, any frontmatter parses, and an id used as a key is hashable; its findings are never critical, and a passing one has no error |
| ValidateConfig.ConflictsAreSharedPairs | project_management/scripts/validate_config.py:396-410 | a (category, priority) pair is reported iff more than one file uses it |
| ValidateConfig.EqualPrioritiesConflict | project_management/scripts/validate_config.py:400-410 | two files of one category whose priorities Python finds equal (`1`, `1.0`, `true`) are reported as a conflict |
| Yaml.KeyOfIsEquality | project_management/scripts/validate_config.py:402-405 | two scalars fall under the same dictionary key iff Python's `==` holds: numbers by value across bool, int and float, anything else only itself |
| ValidateConfig.PriorityStep | project_management/scripts/validate_config.py:367-414 | the priority check never fails the run; an empty priority map gives a single no_priorities warning |
| ValidateConfig.DependencyStep | project_management/scripts/validate_config.py:416-472 | the step passes iff the dependency graph has no cycle, and otherwise reports exactly one circular-dependency error |
| ValidateConfig.BestPracticeFindings | project_management/scripts/validate_config.py:474-501 | best-practice checks only ever give info |
| ValidateConfig.ValidateAll | project_management/scripts/validate_config.py:71-101 | a missing, unreadable, unparsable or non-mapping config stops at once with a failure; otherwise the result is that of the checks |
| ValidateConfig.RunChecks | project_management/scripts/validate_config.py:78-101 | the run passes iff every step passes; a passing run holds only warnings and info |
| ValidateConfig.Report | project_management/scripts/validate_config.py:533-558 | the total is the number of findings and each count is the number of findings of that severity; validation passed iff there is no critical and no error finding |
| Severities.SeveritiesPartition | project_management/scripts/validate_config.py:535-548 | the four severity counts add up to the number of graded findings |
| Severities.CountSeverity | project_management/scripts/config_validator.py:62-66 | the count of a severity is its multiplicity among the graded findings, and 0 iff none has it |
| ValidateConfig.ReportAgreesWithRun | project_management/scripts/validate_config.py:533-558 | a passing run gives a passing report, and the only failing run with a passing report is an empty config mapping |
| ValidateConfig.FailingChecksReportAnError | project_management/scripts/validate_config.py:78-101 | a failing run over a non-empty config always reports an error |
| ValidateConfig.AutoFix | project_management/scripts/validate_config.py:507-531 | counts exactly the findings whose mkdir -p suggestion names a directory whose creation succeeds; keeps files and directories |
| ValidateConfig.AutoFixCreatesTargets | project_management/scripts/validate_config.py:514-527 | after the auto-fix, the directory of every finding whose creation succeeds exists |
| ValidateConfig.AutoFixRepairsDirectories | project_management/scripts/validate_config.py:507-531 | auto-fixing the directory findings, with no mkdir failing, makes the directory step pass |
| ConfigValidator.PutCheck | project_management/scripts/config_validator.py:243-262 | a file check replaces the one under the same path, and paths stay unique |
| ConfigValidator.StructureIssues | project_management/scripts/config_validator.py:189-218 | a non-mapping root is critical; otherwise one error per missing required section and one warning per missing recommended section |
| ConfigValidator.FileList | project_management/scripts/config_validator.py:234-262 | a missing file is a warning and a non-string entry is an error |
| ConfigValidator.ListedFilesChecked | project_management/scripts/config_validator.py:234-262 | every listed file gets a file check |
| ConfigValidator.FileDict | project_management/scripts/config_validator.py:263-283 | only string values ending in .md or .json are checked, and a missing one is a warning |
| ConfigValidator.FileReferences | project_management/scripts/config_validator.py:220-233 | the step raises iff the root is not a mapping and some section test is not a plain false |
| ConfigValidator.SystemIssuesOfMapping | project_management/scripts/config_validator.py:285-312 | one error for a missing version, one for a missing mode, and one for a mode outside lite, standard and pro |
| ConfigValidator.FrequencyRule | project_management/scripts/config_validator.py:314-348 | an error iff checkpoint_frequency is not an integer of at least 1; info iff the state file is missing |
| ConfigValidator.Integrations | project_management/scripts/config_validator.py:350-367 | the GitHub warning is added iff GitHub is enabled and no repository pattern is set, and no other issue is added |
| ConfigValidator.BestPractices | project_management/scripts/config_validator.py:369-391 | the monitoring info is added iff `monitoring.session_tracking` is not truthy; the security warning is added iff `security.api_key_protection` is not truthy and the monitoring check did not raise (monitoring absent or a mapping) |
| ConfigValidator.Summarize | project_management/scripts/config_validator.py:60-69 | each severity count is the number of issues of that severity, and they add up to the issues; the files checked are the file checks, and the missing count is the number of checks that did not find their file |
| ConfigValidator.CountMissing | project_management/scripts/config_validator.py:67-68 | the number of checks whose file is absent, at most the number of checks, 0 iff every check found its file |
| ConfigValidator.Validate | project_management/scripts/config_validator.py:101-165 | a missing, unparsable or unreadable config gives one critical issue and no summary; otherwise the summary is computed and validity means no critical or error issue |
| ConfigValidator.ValidateKeepsRuleIssues | project_management/scripts/config_validator.py:101-165 | the report keeps every issue the structure, file reference and (on a mapping) system rules add |
| ConfigValidator.ValidateRejects | project_management/scripts/config_validator.py:189-312 | a configuration that is no mapping, lacks a required section or names a mode other than lite, standard or pro is invalid |
| ConfigValidator.LaterStepsKeep | project_management/scripts/config_validator.py:131-144 | the issues of the file reference and system steps survive the later steps |
| ConfigValidator.MildIssuesKeepVerdict | project_management/scripts/config_validator.py:161-163 | warnings and info never change validity |
| ConfigValidator.EngineErrorIffRaises | project_management/scripts/config_validator.py:155-159 | the engine error is reported iff some rule step raises, and then the config is invalid |
| ConfigValidator.MappingStepsRaise | project_management/scripts/config_validator.py:285-391 | on a mapping root, each rule step raises exactly when the value it subscripts is not indexable |
| Documents.CanProcessIff | project_management/scripts/integrate_documentation.py:67-69 | a file is accepted iff the lower-cased suffix of its last path component, without the dot, is a supported format; a dot in a directory name is no suffix |
| Documents.ProcessDocument | project_management/scripts/integrate_documentation.py:71-109 | a read counts as processed, with the character count and the whitespace-split word count; a failure counts as an error and gives an error document with empty content |
| Documents.CountersTally | project_management/scripts/integrate_documentation.py:71-109 | over a batch, every file adds to exactly one counter, and the error counter equals the number of error documents |
| Documents.Pick | project_management/scripts/integrate_documentation.py:261-264 | no pick iff every score is 0; otherwise the first index holding the maximum |
| Documents.Categorize | project_management/scripts/integrate_documentation.py:234-264 | an error document is other; otherwise other iff no score is positive, else the first best category |
| Documents.OtherIffNothingMatches | project_management/scripts/integrate_documentation.py:157-264 | a document is other iff no category has a matching filename pattern or a keyword in the content |
| Documents.ScoresZeroIff | project_management/scripts/integrate_documentation.py:243-261 | every category scores 0 iff no category has a matching filename pattern or a keyword in the content |
| Documents.StrictWinnerChosen | project_management/scripts/integrate_documentation.py:234-264 | a category scoring strictly higher than every other is the one chosen |
| Documents.PriorityOf | project_management/scripts/integrate_documentation.py:336-344 | high iff a high indicator appears; low iff no high or medium indicator does but a low one does; medium otherwise |
| Documents.KindOf | project_management/scripts/integrate_documentation.py:346-359 | performance, then security, then interface, then data, by first match, each stated as an iff; functional when none matches |
| Documents.ClassifiersIgnoreCase | project_management/scripts/integrate_documentation.py:336-359 | priority and kind do not depend on letter case |
| Documents.CollapseKeepsWords | project_management/scripts/integrate_documentation.py:312-315 | collapsing whitespace keeps the same words |
| Documents.Clean | project_management/scripts/integrate_documentation.py:312-316 | a cleaned requirement never ends in trailing punctuation |
| Documents.ExtractedAreKeptMatches | project_management/scripts/integrate_documentation.py:304-334 | the extracted requirements are exactly the cleaned matches of at least 10 characters, each with its priority and kind |
| Documents.GroupsGatherByCategory | project_management/scripts/integrate_documentation.py:286-302 | each category's group holds the requirements of its processed documents, in order; error documents are skipped; a missing category is other |
| Documents.NameFrom | project_management/scripts/integrate_documentation.py:527-537 | the name is the first alphabetic word longer than 3 letters, in reading order over the requirements and their words, plus "-feature", or general-feature when no word qualifies |
| Documents.CandidateFirst | project_management/scripts/integrate_documentation.py:527-537 | the first candidate word is the first name-worthy word in reading order |
| Documents.FirstWorthyExists | project_management/scripts/integrate_documentation.py:527-537 | when some word qualifies, a first one in reading order exists |
| Documents.FeatureName | project_management/scripts/integrate_documentation.py:523-537 | a category other than other gives its name with '_' replaced by '-'; other takes a word from the first 5 words of the first 3 requirements |
| Health.IssuesAreProblems | project_management/scripts/claude_code_manager.py:257-279 | one issue per missing critical component, per unavailable tool, and per reading strictly above its limit (CPU and memory 90, disk 95) |
| Health.OverallHealth | project_management/scripts/claude_code_manager.py:252-287 | healthy iff no issue; warning iff one or two; critical iff three or more |
| Health.HealthCheck | project_management/scripts/claude_code_manager.py:391-431 | the check passes iff there are at most two issues |
| Health.NoToolsIsCritical | project_management/scripts/claude_code_manager.py:265-287 | missing all three tools is critical, and the check fails |
| Health.HealthyWhenAllPresent | project_management/scripts/claude_code_manager.py:257-287 | all components, all tools, and readings within limits or unavailable give healthy |
| Health.StartMonitoringAsWritten | project_management/scripts/claude_code_manager.py:347-368 | a started monitor runs and is stored under the name, defaulting to claude_code_system, replacing the old entry; other names keep theirs; every monitor that ran still runs; a failure changes nothing |
| Health.StartMonitoring | project_management/scripts/claude_code_manager.py:347-368 | corrected start: the same, but a monitor already under the name is stopped first, so it is no longer running, while every other running monitor keeps running |
| Health.StopMonitoring | project_management/scripts/claude_code_manager.py:370-389 | a registered name stops and removes only its monitor; otherwise every registered monitor stops and the registry is cleared |
| Health.StartKeepsAccounted | project_management/scripts/claude_code_manager.py:347-368 | the corrected start keeps every running monitor reachable through the registry |
| Health.StopKeepsAccounted | project_management/scripts/claude_code_manager.py:370-389 | stopping keeps the registry accurate, and stopping all leaves nothing running |
| Health.RestartOrphansMonitor | project_management/scripts/claude_code_manager.py:355-383 | starting twice under one name leaves the first monitor running where no stop can reach it |
| Logging.Newest | project_management/scripts/logging_system.py:157-158 | the log files reordered newest first |
| Logging.Retain | project_management/scripts/logging_system.py:155-176 | retention keeps min(max_files, count) of the files |
| Logging.RetainKeepsNewest | project_management/scripts/logging_system.py:157-176 | every file retention drops is no newer than every file it keeps |
| Logging.RetainAllWhenFew | project_management/scripts/logging_system.py:160-161 | with no more files than max_files, all are kept |
| Logging.Rotate | project_management/scripts/logging_system.py:134-153 | a new file opens iff there is none or the size reached the limit; the size restarts at 0, and the files left are what retention keeps of the old files plus the new one, so at most max_files remain |
| Logging.NewStorage | project_management/scripts/logging_system.py:107-121 | a new storage opens a file at size 0 with the limit in bytes (megabytes × 1 MiB) |
| Logging.WriteEntry | project_management/scripts/logging_system.py:123-132 | after a rotation the size is the entry's length; otherwise it grows by that length in the same file |
| Logging.FileSizeBound | project_management/scripts/logging_system.py:123-153 | a file never grows past the limit plus one entry |
| Logging.Close | project_management/scripts/logging_system.py:178-183 | after closing, the next write opens a new file |
| Logging.Log | project_management/scripts/logging_system.py:211-243 | a log call appends one entry labelled with the session, and raises events_ and level_ counters by one each, leaving all others |
| Logging.LogWritesEntry | project_management/scripts/logging_system.py:236-238 | the logger's storage after a log call is its storage with the entry written |
| Logging.StatsCountCalls | project_management/scripts/logging_system.py:239-240 | after any sequence of log calls each counter equals its old value plus the calls of that event or level |
| Logging.SessionLabel | project_management/scripts/logging_system.py:226 | an entry outside any session is labelled no_session |
| Logging.StartSession | project_management/scripts/logging_system.py:291-317 | a new session becomes current, with empty planned, completed and decision lists |
| Logging.EndSession | project_management/scripts/logging_system.py:319-352 | ValueError iff no session is active; KeyError iff it has no data; otherwise the counts are returned and the session cleared |
| Logging.StartTask | project_management/scripts/logging_system.py:354-378 | the task is pushed on the stack and, in a session, appended to its planned tasks |
| Logging.Completed | project_management/scripts/logging_system.py:396-414 | removing a found task removes exactly that stack entry and, in a session, files it as completed with its duration |
| Logging.CompleteTaskAsWritten | project_management/scripts/logging_system.py:380-414 | completing an unknown task raises, because EventType.ERROR does not exist |
| Logging.UnknownTaskRaises | project_management/scripts/logging_system.py:390-392 | completing a task on an empty stack raises AttributeError as written, while the corrected version returns with the stack unchanged |
| Logging.CompleteTask | project_management/scripts/logging_system.py:380-414 | corrected: an unknown task logs ERROR_OCCURRED and changes nothing else; a known one leaves the stack one shorter |
| Logging.CompleteTaskAgrees | project_management/scripts/logging_system.py:380-414 | the corrected version agrees with the original whenever the original does not raise |
| Logging.StartThenComplete | project_management/scripts/logging_system.py:354-414 | starting then completing a fresh task restores the stack and records it as planned and completed |
| Logging.LogDecision | project_management/scripts/logging_system.py:440-473 | the decision is appended and its id returned; session data are untouched |
| Logging.ReviseDecisionAsWritten | project_management/scripts/logging_system.py:475-508 | revising an unknown decision raises |
| Logging.ReviseDecision | project_management/scripts/logging_system.py:475-508 | corrected: an unknown id logs ERROR_OCCURRED and returns the id unchanged; a known one adds one decision under the new id |
| Logging.RevisionKeepsImpact | project_management/scripts/logging_system.py:492-504 | a revision inherits the impact of the decision it revises |
| Logging.RecordMetric | project_management/scripts/logging_system.py:517-560 | the value is appended to its series, and the metric is logged at WARNING iff it has a threshold and exceeds it, else INFO |
| Logging.ThresholdIsStrict | project_management/scripts/logging_system.py:517-541 | for every metric and value: equal to the threshold is INFO, above it WARNING, a metric without a threshold always INFO, and a warning value stays a warning when larger |
| Logging.SessionsKeepConsistent | project_management/scripts/logging_system.py:291-352 | starting and ending sessions keep the current session's data present |
| Logging.TasksKeepConsistent | project_management/scripts/logging_system.py:354-414 | task operations keep the suite consistent and never raise KeyError on a consistent suite |
| Logging.DecisionsKeepConsistent | project_management/scripts/logging_system.py:440-560 | decisions, revisions and metrics keep the suite consistent |
| Logging.DecisionsMadeAlwaysZero | project_management/scripts/logging_system.py:462-464 | on a consistent suite, ending a session always reports 0 decisions |
| Logging.StartThenEnd | project_management/scripts/logging_system.py:291-352 | ending a session right after starting it reports zero tasks and decisions, and clears the session |

## Left out

- Threads, `shutdown_event.wait`, join timeouts and signal handlers:
  - each daemon loop body is one atomic step;
  - the unsynchronised `file_change_count` is a plain field.
- `get_status`, `run_daemon`, every `main()` and the command-line front ends: they only print or dispatch.
- The clock, `strftime` formatting, uuids and session ids: they are inputs.
- MD5 is the function parameter `hash`; the digest is never computed.
- Real filesystem I/O (`rglob`, `stat`, `shutil.copy2`, `unlink`, `mkdir`) becomes a map update, and its failure an input:
  - a failed copy or mkdir is a set of paths, and a failed recovery-log append a boolean;
  - a JSON file write (`open(..., 'w')` then `json.dump`) ends in one of three ways: it completes, `open` raises and the file is untouched, or `json.dump` raises after `open` has truncated it and the file holds unparsable partial text. The partial text is an input, and a checkpoint file left that way is `Corrupt`;
  - an `rglob` or `stat` exception that ends a scan is a shorter `walk`: the paths the loop yielded before it;
  - an `unlink` exception that stops the clean-up is `pruneStopsAfter`, the number of unlinks that succeeded before it; a `stat` exception while sorting is `pruneStopsAfter = Some(0)`.
- Scan: the state file `progress-state/PROGRESS_STATE.json` and its backups are kept outside the scanned `project` map, so a scan never counts the daemon's or the recovery's own writes to them. In the source both are monitored `.json` paths under the root that the deny set does not exclude, so each state write counts as one change at the next scan.
- Paths are strings joined by concatenation: `pathlib` normalisation (repeated slashes, `.` segments, trailing slashes) is not modelled.
- ValidateConfig.AutoFix: `mkdir(parents=True)` is one tree entry for the target; the parent directories it would also create are not added, and a file in the way of a parent rather than of the target is not a failure.
- ValidateConfig.FileReferences: the source keeps each section's paths in a `set`; the model lists them in order of first mention, and no contract depends on the order.
- Checkpoint file sizes: the entries the manual and automatic checkpoints write completely carry size 0, since the length of the JSON text is not modelled; `ListCheckpoints` therefore reports `fileSize` 0 for them. A checkpoint cut short by a failed `json.dump` carries the length of its partial text.
- JSON and YAML text: documents arrive parsed. A JSON decode error of the state file is the `Malformed` case.
- Yaml: PyYAML's dates and timestamps, the floats `.nan` and `.inf`, and mappings with non-string keys have no constructor, so a configuration holding them is outside the model. Other floats are exact reals.
- Regular expressions:
  - the requirement patterns: matches are an input;
  - the filename patterns of the categoriser: a search function is a parameter;
  - `depends_on:` extraction: the dependency names are an input;
  - the `\w` class of `_slugify`: ASCII only.
- Unicode case folding: `lower()`, `isalpha()` and whitespace are ASCII.
- PDF, DOCX and HTML readers: a reader's output is an input.
- psutil and `subprocess` probes: the readings and tool availability are inputs.
- `PerformanceMonitor` is an opaque number in the registry.
- gzip compression of old logs: it rewrites files and so changes which count as newest.
- Console logging, `LogAnalyzer` and the JSON text of log entries.
- `update_progress` and `get_metric_summary`: they change no state the model keeps.
- The placeholder helpers of resume_progress.py: constant session hours and task counts, and the blocker-analysis text.
- Logging.StartTask: when the current session id has no data, the source pushes the task before raising KeyError; the model returns the error without the push.
- Logging.Completed: when the session data are missing, the source pops the task before raising KeyError; the model returns the error without the pop.
- Health.StopMonitoring: an exception from a monitor's own `stop_monitoring` is not modelled.
- performance_monitor.py, init_project.py and claudecode_commands.py are not part of this model.

## Findings

| source | as written | input that shows it | evidently intended | confidence | as-written member | corrected member |
|---|---|---|---|---|---|---|
| project_management/scripts/auto_checkpoint.py:73-90 | `start` sets `running` but never clears `shutdown_event`, which `stop` set | start, stop, start: both loops test `shutdown_event.is_set()` and exit at once, while the daemon reports running | `start` clears the shutdown event so a restarted daemon checkpoints again | not executed | AutoCheckpoint.RestartAsWrittenIsInert | AutoCheckpoint.RestartResumes |
| project_management/scripts/claude_code_manager.py:347-368 | `start_monitoring` overwrites `active_monitors[name]` without stopping the monitor stored there | two `start_monitoring()` calls with no name: the first monitor keeps running and even `stop_monitoring()` cannot reach it | the previous monitor under the name is stopped before it is replaced | not executed | Health.RestartOrphansMonitor | Health.StartKeepsAccounted |
| project_management/scripts/logging_system.py:391 | `complete_task` logs `EventType.ERROR`, which is not a member of `EventType` | `complete_task("missing")` with an empty task stack raises AttributeError instead of logging and returning | log `EventType.ERROR_OCCURRED` and return | not executed | Logging.UnknownTaskRaises | Logging.CompleteTaskAgrees |
| project_management/scripts/logging_system.py:486 | `revise_decision` logs `EventType.ERROR` for an unknown decision | `revise_decision("missing", ...)` with no decisions raises AttributeError | log `EventType.ERROR_OCCURRED` and return the id | not executed | Logging.ReviseDecisionAsWritten | Logging.ReviseDecision |

=== FILE: common.dfy ===
/** Shared vocabulary: optional values and the handful of Python `str`
    operations the scripts rely on (split, strip, lower, `in`, `count`,
    zero-padded formatting), restricted to ASCII characters. */
module Common {

  datatype Option<T> = None | Some(value: T) {
    /** `dict.get(key, default)` on an optional value */
    function GetOr(default: T): T {
      match this
      case Some(v) => v
      case None => default
    }
  }

  function Min(a: int, b: int): int { if a <= b then a else b }
  function Max(a: int, b: int): int { if a >= b then a else b }

  /** Python slice `s[:n]` for a non-negative `n` */
  function Take<T>(s: seq<T>, n: nat): (r: seq<T>)
    ensures |r| == Min(n, |s|)
    ensures r == s[..|r|]
  {
    if n <= |s| then s[..n] else s
  }

  /** how many elements of `s` satisfy `p` */
  function CountIf<T>(s: seq<T>, p: T -> bool): (n: nat)
    ensures n <= |s|
    ensures n == 0 <==> forall i :: 0 <= i < |s| ==> !p(s[i])
  {
    if s == [] then 0 else (if p(s[0]) then 1 else 0) + CountIf(s[1..], p)
  }

  /** predicates that agree everywhere count alike */
  lemma {:induction false} CountIfAgree<T>(s: seq<T>, p: T -> bool, q: T -> bool)
    requires forall x :: p(x) == q(x)
    ensures CountIf(s, p) == CountIf(s, q)
  {
    if s != [] {
      CountIfAgree(s[1..], p, q);
    }
  }

  /** no element occurs twice */
  ghost predicate Distinct<T>(s: seq<T>) {
    forall i, j :: 0 <= i < j < |s| ==> s[i] != s[j]
  }

  /** `s` without any occurrence of `x` */
  function Without<T(==,!new)>(s: seq<T>, x: T): (r: seq<T>)
    ensures |r| <= |s|
    ensures forall y :: y in r <==> y in s && y != x
  {
    if s == [] then []
    else
      assert s == [s[0]] + s[1..];
      (if s[0] == x then [] else [s[0]]) + Without(s[1..], x)
  }

  /** the elements of `s` once each, in order of first occurrence: the
      keys of a `defaultdict` filled from `s` */
  function Unique<T(==,!new)>(s: seq<T>): (r: seq<T>)
    ensures |r| <= |s|
    ensures forall y :: y in r <==> y in s
    ensures Distinct(r)
    decreases |s|
  {
    if s == [] then []
    else
      assert s == [s[0]] + s[1..];
      var rest := Unique(Without(s[1..], s[0]));
      assert forall j :: 0 <= j < |rest| ==> rest[j] != s[0] by {
        forall j | 0 <= j < |rest| ensures rest[j] != s[0] {
          assert rest[j] in rest;
        }
      }
      [s[0]] + rest
  }

  // ---------------------------------------------------------------- chars

  /** `str.isspace()` restricted to ASCII: space, \t \n \v \f \r and the
      four information separators 0x1c..0x1f. */
  predicate IsWhitespace(c: char) {
    var n := c as int;
    n == 32 || (9 <= n <= 13) || (28 <= n <= 31)
  }

  predicate IsUpper(c: char) { 'A' <= c <= 'Z' }
  predicate IsLower(c: char) { 'a' <= c <= 'z' }
  predicate IsDigit(c: char) { '0' <= c <= '9' }
  predicate IsLetter(c: char) { IsUpper(c) || IsLower(c) }
  /** regex `\w` restricted to ASCII */
  predicate IsWordChar(c: char) { IsLetter(c) || IsDigit(c) || c == '_' }

  function LowerChar(c: char): (r: char)
    ensures !IsUpper(r)
    ensures IsUpper(c) ==> IsLower(r)
    ensures !IsUpper(c) ==> r == c
  {
    if IsUpper(c) then (c as int + 32) as char else c
  }

  /** `str.lower()` restricted to ASCII */
  function Lower(s: string): (r: string)
    ensures |r| == |s|
    ensures forall i :: 0 <= i < |s| ==> r[i] == LowerChar(s[i])
  {
    if s == [] then [] else [LowerChar(s[0])] + Lower(s[1..])
  }

  /** `str.isalpha()` restricted to ASCII: non-empty and all letters */
  predicate IsAlpha(s: string) {
    |s| > 0 && forall i :: 0 <= i < |s| ==> IsLetter(s[i])
  }

  // ------------------------------------------------------------- searching

  predicate StartsWith(s: string, p: string) {
    |p| <= |s| && s[..|p|] == p
  }

  predicate EndsWith(s: string, p: string) {
    |p| <= |s| && s[|s| - |p|..] == p
  }

  /** Python's `needle in hay` */
  predicate Contains(hay: string, needle: string)
    decreases |hay|
  {
    StartsWith(hay, needle) || (|hay| > 0 && Contains(hay[1..], needle))
  }

  /** Python's `hay.count(needle)`: non-overlapping occurrences, left to right */
  function CountOccurrences(hay: string, needle: string): nat
    requires |needle| > 0
    decreases |hay|
  {
    if |hay| < |needle| then 0
    else if StartsWith(hay, needle) then 1 + CountOccurrences(hay[|needle|..], needle)
    else CountOccurrences(hay[1..], needle)
  }

  lemma {:induction false} ContainsNeedsRoom(hay: string, needle: string)
    requires Contains(hay, needle)
    ensures |needle| <= |hay|
    decreases |hay|
  {
    if !StartsWith(hay, needle) {
      ContainsNeedsRoom(hay[1..], needle);
    }
  }

  /** `count` is positive exactly when `in` holds: the categoriser's
      `if kw in content: score += content.count(kw)` adds `count` alone. */
  lemma {:induction false} CountPositiveIffContains(hay: string, needle: string)
    requires |needle| > 0
    ensures CountOccurrences(hay, needle) > 0 <==> Contains(hay, needle)
    decreases |hay|
  {
    if |hay| < |needle| {
      if Contains(hay, needle) { ContainsNeedsRoom(hay, needle); }
    } else if !StartsWith(hay, needle) {
      CountPositiveIffContains(hay[1..], needle);
    }
  }

  /** the first index of `c` in `s`, or -1 */
  function IndexOf(s: string, c: char): (r: int)
    ensures -1 <= r < |s|
    ensures r >= 0 ==> s[r] == c
    ensures forall i :: 0 <= i < |s| && (r < 0 || i < r) ==> s[i] != c
  {
    if s == [] then -1
    else if s[0] == c then 0
    else var k := IndexOf(s[1..], c); if k < 0 then -1 else k + 1
  }

  /** Python's `s.rfind(c)` */
  function LastIndexOf(s: string, c: char): (r: int)
    ensures -1 <= r < |s|
    ensures r >= 0 ==> s[r] == c
    ensures forall i :: r < i < |s| ==> s[i] != c
  {
    if s == [] then -1
    else if s[|s| - 1] == c then |s| - 1
    else LastIndexOf(s[..|s| - 1], c)
  }

  /** the first index at which `needle` starts in `hay`, or -1 */
  function Find(hay: string, needle: string): (r: int)
    ensures -1 <= r <= |hay|
    ensures r >= 0 ==> StartsWith(hay[r..], needle)
    ensures r < 0 <==> !Contains(hay, needle)
    decreases |hay|
  {
    if StartsWith(hay, needle) then 0
    else if |hay| == 0 then -1
    else var k := Find(hay[1..], needle); if k < 0 then -1 else k + 1
  }

  // ------------------------------------------------------- split and strip

  /** `s.split(sep)` for a one-character separator */
  function SplitOn(s: string, sep: char): (r: seq<string>)
    ensures |r| > 0
    ensures forall i :: 0 <= i < |r| ==> sep !in r[i]
    decreases |s|
  {
    var i := IndexOf(s, sep);
    if i < 0 then [s]
    else
      var rest := SplitOn(s[i + 1..], sep);
      assert sep !in s[..i];
      [s[..i]] + rest
  }

  /** `sep.join(parts)` for a one-character separator */
  function Join(parts: seq<string>, sep: char): string {
    if parts == [] then []
    else if |parts| == 1 then parts[0]
    else parts[0] + [sep] + Join(parts[1..], sep)
  }

  /** splitting and re-joining gives the original text back */
  lemma {:induction false} SplitJoinRoundTrip(s: string, sep: char)
    ensures Join(SplitOn(s, sep), sep) == s
    decreases |s|
  {
    var i := IndexOf(s, sep);
    if i >= 0 {
      SplitJoinRoundTrip(s[i + 1..], sep);
      assert s == s[..i] + [sep] + s[i + 1..];
    }
  }

  function StripLeft(s: string): (r: string)
    ensures |r| <= |s| && r == s[|s| - |r|..]
    ensures r == [] || !IsWhitespace(r[0])
    ensures forall i :: 0 <= i < |s| - |r| ==> IsWhitespace(s[i])
    decreases |s|
  {
    if s != [] && IsWhitespace(s[0]) then StripLeft(s[1..]) else s
  }

  function StripRight(s: string): (r: string)
    ensures |r| <= |s| && r == s[..|r|]
    ensures r == [] || !IsWhitespace(r[|r| - 1])
    ensures forall i :: |r| <= i < |s| ==> IsWhitespace(s[i])
    decreases |s|
  {
    if s != [] && IsWhitespace(s[|s| - 1]) then StripRight(s[..|s| - 1]) else s
  }

  /** `str.strip()` */
  function Strip(s: string): string {
    StripRight(StripLeft(s))
  }

  /** `s.rstrip(chars)` */
  function RStripChars(s: string, chars: set<char>): (r: string)
    ensures |r| <= |s| && r == s[..|r|]
    ensures r == [] || r[|r| - 1] !in chars
    ensures forall i :: |r| <= i < |s| ==> s[i] in chars
    decreases |s|
  {
    if s != [] && s[|s| - 1] in chars then RStripChars(s[..|s| - 1], chars) else s
  }

  /** the number of leading non-whitespace characters */
  function TokenLength(s: string): (k: nat)
    ensures k <= |s|
    ensures forall i :: 0 <= i < k ==> !IsWhitespace(s[i])
    ensures k == |s| || IsWhitespace(s[k])
  {
    if s == [] || IsWhitespace(s[0]) then 0 else 1 + TokenLength(s[1..])
  }

  /** a non-empty run without whitespace */
  predicate IsWord(w: string) {
    |w| > 0 && forall j :: 0 <= j < |w| ==> !IsWhitespace(w[j])
  }

  /** `str.split()` with no argument: the maximal whitespace-free runs */
  function Words(s: string): seq<string>
    decreases |s|
  {
    var t := StripLeft(s);
    if t == [] then []
    else
      var k := TokenLength(t);
      [t[..k]] + Words(t[k..])
  }

  /** every piece `split()` returns is a word */
  lemma {:induction false} WordsAreWords(s: string)
    ensures forall i :: 0 <= i < |Words(s)| ==> IsWord(Words(s)[i])
    decreases |s|
  {
    var t := StripLeft(s);
    if t != [] {
      var k := TokenLength(t);
      WordsAreWords(t[k..]);
      var rest := Words(t[k..]);
      assert Words(s) == [t[..k]] + rest;
      assert IsWord(t[..k]);
      forall i | 0 <= i < |Words(s)| ensures IsWord(Words(s)[i]) {
        if i > 0 {
          assert Words(s)[i] == rest[i - 1];
        }
      }
    }
  }

  // ---------------------------------------------------------------- numbers

  function DigitChar(d: nat): (c: char)
    requires d < 10
    ensures IsDigit(c)
  {
    ('0' as int + d) as char
  }

  function DigitValue(c: char): (d: nat)
    requires IsDigit(c)
    ensures d < 10
  {
    c as int - '0' as int
  }

  predicate AllDigits(s: string) {
    forall i :: 0 <= i < |s| ==> IsDigit(s[i])
  }

  /** `str(n)` for a natural number */
  function Decimal(n: nat): (s: string)
    ensures |s| > 0 && AllDigits(s)
    decreases n
  {
    if n < 10 then [DigitChar(n)] else Decimal(n / 10) + [DigitChar(n % 10)]
  }

  /** the value of a string of decimal digits (leading zeros allowed) */
  function DecimalValue(s: string): nat
    requires AllDigits(s)
  {
    if s == [] then 0 else DecimalValue(s[..|s| - 1]) * 10 + DigitValue(s[|s| - 1])
  }

  lemma {:induction false} DecimalRoundTrip(n: nat)
    ensures DecimalValue(Decimal(n)) == n
    decreases n
  {
    if n >= 10 {
      DecimalRoundTrip(n / 10);
      var s := Decimal(n);
      assert s[..|s| - 1] == Decimal(n / 10);
    }
  }

  lemma {:induction false} LeadingZerosIgnored(k: nat, s: string)
    requires AllDigits(s)
    ensures AllDigits(seq(k, _ => '0') + s)
    ensures DecimalValue(seq(k, _ => '0') + s) == DecimalValue(s)
    decreases |s|
  {
    var z := seq(k, _ => '0');
    if s == [] {
      assert z + s == z;
      ZerosAreZero(k);
    } else {
      var t := z + s;
      assert t[..|t| - 1] == z + s[..|s| - 1];
      LeadingZerosIgnored(k, s[..|s| - 1]);
    }
  }

  lemma {:induction false} ZerosAreZero(k: nat)
    ensures AllDigits(seq(k, _ => '0'))
    ensures DecimalValue(seq(k, _ => '0')) == 0
  {
    if k > 0 {
      var z := seq(k, _ => '0');
      assert z[..k - 1] == seq(k - 1, _ => '0');
      ZerosAreZero(k - 1);
    }
  }

  /** Python's `f"{n:03d}"`: at least three digits, left-padded with zeros */
  function ZeroPad3(n: nat): (s: string)
    ensures |s| >= 3 && AllDigits(s)
  {
    var d := Decimal(n);
    if |d| >= 3 then d else seq(3 - |d|, _ => '0') + d
  }

  /** the padded number reads back as the number */
  lemma ZeroPad3RoundTrip(n: nat)
    ensures DecimalValue(ZeroPad3(n)) == n
  {
    DecimalRoundTrip(n);
    var d := Decimal(n);
    if |d| < 3 {
      LeadingZerosIgnored(3 - |d|, d);
    }
  }

  /** Reads back the number of an identifier `prefix + digits`. */
  function SequenceNumber(prefix: string, id: string): (r: Option<nat>)
    ensures r.Some? ==> StartsWith(id, prefix)
  {
    if StartsWith(id, prefix) && |id| > |prefix| && AllDigits(id[|prefix|..])
    then Some(DecimalValue(id[|prefix|..]))
    else None
  }

  /** The identifier for sequence number `n`, e.g. `CP007` or `AUTO_CP012`. */
  function SequenceId(prefix: string, n: nat): (id: string)
    ensures SequenceNumber(prefix, id) == Some(n)
  {
    var id := prefix + ZeroPad3(n);
    assert id[|prefix|..] == ZeroPad3(n);
    ZeroPad3RoundTrip(n);
    id
  }

  /** distinct numbers give distinct identifiers */
  lemma SequenceIdInjective(prefix: string, m: nat, n: nat)
    requires SequenceId(prefix, m) == SequenceId(prefix, n)
    ensures m == n
  {
  }

  // ------------------------------------------------------------ file names

  /** `PurePath(name).suffix`: from the last dot, unless the dot is the
      first or the last character of the name */
  function Suffix(name: string): (r: string)
    ensures r == [] || (r[0] == '.' && EndsWith(name, r) && |r| >= 2 && |r| < |name|)
    ensures r != [] ==> '.' !in r[1..]
  {
    var i := LastIndexOf(name, '.');
    if 0 < i < |name| - 1 then
      name[i..]
    else []
  }

  /** the last component of a '/'-separated path */
  function BaseName(path: string): string {
    var parts := SplitOn(path, '/');
    parts[|parts| - 1]
  }
}

=== FILE: config_validator.dfy ===
/** The startup configuration validator of config_validator.py
    (`ConfigValidator.validate_config`): the early exits, the nine rule
    steps, the exception handler that turns any raised error into a critical
    engine issue, the summary and the validity verdict.

    config.yaml arrives parsed (a `Yaml` value); the project tree is a map
    from path to what `exists`, `os.access` and `stat` report.  Python's
    `in`, subscript and `.get` on YAML values are modelled with their
    `TypeError`/`AttributeError` cases, because those decide whether a step
    raises. */
module ConfigValidator {
  import opened Common
  import opened Yaml
  import opened Severities

  /** a `ValidationIssue` without its message and suggestion text */
  datatype Issue = Issue(severity: Severity, section: string, filePath: Option<string>)

  /** what `exists`, `os.access(R_OK)` and `stat().st_size` say of a path */
  datatype Entry = Entry(readable: bool, size: nat)

  type Tree = map<string, Entry>

  /** one `file_checks` record */
  datatype FileCheck = FileCheck(present: bool, readable: bool, size: nat, section: string, key: Option<string>)

  /** `file_checks`: a dictionary, kept in insertion order */
  type FileChecks = seq<(string, FileCheck)>

  /** config.yaml as the first two steps find it */
  datatype Source = Missing | SyntaxError | Unreadable | Parsed(doc: Yaml)

  datatype Summary = Summary(critical: nat, errors: nat, warnings: nat, info: nat,
                             totalFilesChecked: nat, missingFiles: nat)

  datatype ValidationReport = ValidationReport(isValid: bool, issues: seq<Issue>, fileChecks: FileChecks,
                                               summary: Option<Summary>)

  /** the issues one step appended, the file checks after it, and whether it
      raised part-way (the issues appended before the raise stay) */
  datatype Step = Step(added: seq<Issue>, checks: FileChecks, raised: bool)

  const RequiredSections: seq<string> := ["persona", "prompts", "workflows", "system", "progress_state"]

  const RecommendedSections: seq<string> :=
    ["guardrails", "behaviors", "templates", "tasks", "features", "monitoring", "security"]

  const ReferenceSections: seq<string> :=
    ["persona", "prompts", "guardrails", "behaviors", "workflows", "templates", "command_templates"]

  const ValidModes: seq<Yaml> := [YStr("lite"), YStr("standard"), YStr("pro")]

  // ------------------------------------------------------- Python on YAML

  /** `y[key]` after `key in y` held: only a mapping can be indexed by a
      string; `None` is the `TypeError` */
  function Subscript(y: Yaml, key: string): (r: Option<Yaml>)
    ensures r.Some? <==> y.YMap? && HasKey(y.entries, key)
  {
    if y.YMap? then Lookup(y.entries, key) else None
  }

  /** `y.get(key, False)`; `None` is the `AttributeError` of a non-mapping */
  function GetOrFalse(y: Yaml, key: string): (r: Option<Yaml>)
    ensures r.Some? <==> y.YMap?
  {
    if y.YMap? then Some(Lookup(y.entries, key).GetOr(YBool(false))) else None
  }

  /** `project_root / p` */
  function Join(root: string, p: string): string {
    if StartsWith(p, "/") then p else if p == [] then root else root + "/" + p
  }

  // ------------------------------------------------------------ file checks

  function Check(root: string, files: Tree, p: string, section: string, key: Option<string>): (c: FileCheck)
    ensures c.present <==> Join(root, p) in files
    ensures c.readable ==> c.present
    ensures !c.present ==> c.size == 0
  {
    var full := Join(root, p);
    if full in files then FileCheck(true, files[full].readable, files[full].size, section, key)
    else FileCheck(false, false, 0, section, key)
  }

  ghost predicate DistinctKeys(checks: FileChecks) {
    forall i, j :: 0 <= i < j < |checks| ==> checks[i].0 != checks[j].0
  }

  /** the keys after the first of distinct-keyed checks differ from it and
      from each other */
  lemma DistinctKeysTail(checks: FileChecks)
    requires checks != [] && DistinctKeys(checks)
    ensures DistinctKeys(checks[1..])
    ensures forall e :: e in checks[1..] ==> e.0 != checks[0].0
  {
    var t := checks[1..];
    forall i, j | 0 <= i < j < |t| ensures t[i].0 != t[j].0 {
      assert t[i] == checks[i + 1] && t[j] == checks[j + 1];
    }
    forall e | e in t ensures e.0 != checks[0].0 {
      var k :| 0 <= k < |t| && t[k] == e;
      assert checks[k + 1] == e;
    }
  }

  /** a check whose key none of distinct-keyed checks has can go in front */
  lemma DistinctKeysCons(x: (string, FileCheck), rest: FileChecks)
    requires DistinctKeys(rest)
    requires forall e :: e in rest ==> e.0 != x.0
    ensures DistinctKeys([x] + rest)
  {
    var r := [x] + rest;
    forall i, j | 0 <= i < j < |r| ensures r[i].0 != r[j].0 {
      assert r[j] == rest[j - 1] && r[j] in rest;
      if i > 0 {
        assert r[i] == rest[i - 1];
      }
    }
  }

  /** `file_checks[key] = c`: replaces in place or appends */
  function PutCheck(checks: FileChecks, key: string, c: FileCheck): (r: FileChecks)
    ensures DistinctKeys(checks) ==> DistinctKeys(r)
    ensures (key, c) in r
    ensures forall e :: e in checks && e.0 != key ==> e in r
    ensures forall e :: e in r ==> e == (key, c) || e in checks
  {
    if checks == [] then [(key, c)]
    else if checks[0].0 == key then
      assert forall e :: e in checks[1..] ==> e in checks;
      assert DistinctKeys(checks) ==> DistinctKeys([(key, c)] + checks[1..]) by {
        if DistinctKeys(checks) {
          DistinctKeysTail(checks);
          DistinctKeysCons((key, c), checks[1..]);
        }
      }
      [(key, c)] + checks[1..]
    else
      var rest := PutCheck(checks[1..], key, c);
      assert forall e :: e in checks <==> e == checks[0] || e in checks[1..];
      assert DistinctKeys(checks) ==> DistinctKeys([checks[0]] + rest) by {
        if DistinctKeys(checks) {
          DistinctKeysTail(checks);
          DistinctKeysCons(checks[0], rest);
        }
      }
      [checks[0]] + rest
  }

  // ----------------------------------------------------------- step 4

  /** one issue of `severity` per section of `sections` the mapping lacks */
  function MissingSections(entries: seq<(string, Yaml)>, sections: seq<string>, severity: Severity): (r: seq<Issue>)
    ensures forall i :: i in r <==> i.severity == severity && i.filePath.None? && i.section in sections && !HasKey(entries, i.section)
  {
    if sections == [] then []
    else
      assert forall s :: s in sections <==> s == sections[0] || s in sections[1..];
      (if HasKey(entries, sections[0]) then [] else [Issue(severity, sections[0], None)])
      + MissingSections(entries, sections[1..], severity)
  }

  /** `_validate_structure`: never raises */
  function StructureIssues(cfg: Yaml): (r: seq<Issue>)
    ensures !cfg.YMap? ==> r == [Issue(Critical, "structure", None)]
    ensures cfg.YMap? ==> forall s :: (Issue(Error, s, None) in r <==> s in RequiredSections && !HasKey(cfg.entries, s))
    ensures cfg.YMap? ==> forall s :: (Issue(Warning, s, None) in r <==> s in RecommendedSections && !HasKey(cfg.entries, s))
    ensures cfg.YMap? ==> forall i :: i in r ==> i.severity == Error || i.severity == Warning
  {
    if !cfg.YMap? then [Issue(Critical, "structure", None)]
    else MissingSections(cfg.entries, RequiredSections, Error) + MissingSections(cfg.entries, RecommendedSections, Warning)
  }

  // ----------------------------------------------------------- step 5

  /** the issues of a file reference step: an error without a path, or a
      warning about a referenced path that does not exist */
  ghost predicate ReferenceIssue(root: string, files: Tree, i: Issue) {
    || (i.severity == Error && i.filePath.None?)
    || (i.severity == Warning && i.filePath.Some? && Join(root, i.filePath.value) !in files)
  }

  /** `_validate_file_list` */
  function FileList(items: seq<Yaml>, section: string, root: string, files: Tree, checks: FileChecks): (r: (seq<Issue>, FileChecks))
    ensures forall i :: i in r.0 ==> ReferenceIssue(root, files, i) && i.section == section
    ensures forall p :: YStr(p) in items && Join(root, p) !in files ==> Issue(Warning, section, Some(p)) in r.0
    ensures (exists k :: 0 <= k < |items| && !items[k].YStr?) ==> Issue(Error, section, None) in r.0
    ensures DistinctKeys(checks) ==> DistinctKeys(r.1)
    decreases |items|
  {
    if items == [] then ([], checks)
    else
      var head := items[0];
      var here := if !head.YStr? then ([Issue(Error, section, None)], checks)
                  else
                    var c := Check(root, files, head.s, section, None);
                    ((if c.present then [] else [Issue(Warning, section, Some(head.s))]), PutCheck(checks, head.s, c));
      var rest := FileList(items[1..], section, root, files, here.1);
      assert forall y :: y in items <==> y == head || y in items[1..];
      assert forall k :: 1 <= k < |items| ==> items[k] == items[1..][k - 1];
      (here.0 + rest.0, rest.1)
  }

  /** a key checked earlier is still in `file_checks` after more checks */
  lemma {:induction false} LaterChecksKeep(items: seq<Yaml>, section: string, root: string, files: Tree, checks: FileChecks)
    ensures forall p, c :: (p, c) in checks ==> exists c' :: (p, c') in FileList(items, section, root, files, checks).1
    decreases |items|
  {
    if items != [] {
      var head := items[0];
      var next := if !head.YStr? then checks else PutCheck(checks, head.s, Check(root, files, head.s, section, None));
      LaterChecksKeep(items[1..], section, root, files, next);
      forall p, c | (p, c) in checks ensures exists c' :: (p, c') in next {
        if head.YStr? && p == head.s {
          assert (p, Check(root, files, head.s, section, None)) in next;
        }
      }
    }
  }

  /** Every string a list section names gets a `file_checks` entry. */
  lemma {:induction false} ListedFilesChecked(items: seq<Yaml>, section: string, root: string, files: Tree, checks: FileChecks)
    ensures forall p :: YStr(p) in items ==> exists c :: (p, c) in FileList(items, section, root, files, checks).1
    decreases |items|
  {
    if items != [] {
      var head := items[0];
      var next := if !head.YStr? then checks else PutCheck(checks, head.s, Check(root, files, head.s, section, None));
      ListedFilesChecked(items[1..], section, root, files, next);
      LaterChecksKeep(items[1..], section, root, files, next);
      assert forall y :: y in items <==> y == head || y in items[1..];
      if head.YStr? {
        assert (head.s, Check(root, files, head.s, section, None)) in next;
      }
    }
  }

  /** a `.md` or `.json` reference in a dictionary section */
  predicate DocumentRef(v: Yaml) {
    v.YStr? && (EndsWith(v.s, ".md") || EndsWith(v.s, ".json"))
  }

  /** `_validate_file_dict` */
  function FileDict(entries: seq<(string, Yaml)>, section: string, root: string, files: Tree, checks: FileChecks): (r: (seq<Issue>, FileChecks))
    ensures forall i :: i in r.0 ==> i.severity == Warning && ReferenceIssue(root, files, i) && i.section == section
    ensures forall k, v :: (k, v) in entries && DocumentRef(v) && Join(root, v.s) !in files ==> Issue(Warning, section, Some(v.s)) in r.0
    ensures forall i :: i in r.0 ==> exists k, v :: (k, v) in entries && DocumentRef(v) && i.filePath == Some(v.s)
    ensures DistinctKeys(checks) ==> DistinctKeys(r.1)
    decreases |entries|
  {
    if entries == [] then ([], checks)
    else
      var (key, value) := entries[0];
      var here := if !DocumentRef(value) then ([], checks)
                  else
                    var c := Check(root, files, value.s, section, Some(key));
                    ((if c.present then [] else [Issue(Warning, section, Some(value.s))]), PutCheck(checks, value.s, c));
      var rest := FileDict(entries[1..], section, root, files, here.1);
      assert forall e :: e in entries <==> e == entries[0] || e in entries[1..];
      (here.0 + rest.0, rest.1)
  }

  /** `_validate_file_references`: a non-mapping configuration raises at
      the first section name `in` does not rule out */
  function FileReferences(cfg: Yaml, sections: seq<string>, root: string, files: Tree, checks: FileChecks): (r: Step)
    ensures r.raised <==> !cfg.YMap? && exists s :: s in sections && ContainsKey(cfg, s) != Some(false)
    ensures forall i :: i in r.added ==> ReferenceIssue(root, files, i)
    ensures DistinctKeys(checks) ==> DistinctKeys(r.checks)
  {
    if sections == [] then Step([], checks, false)
    else
      var s := sections[0];
      assert forall x :: x in sections <==> x == s || x in sections[1..];
      match ContainsKey(cfg, s)
      case None => Step([], checks, true)
      case Some(present) =>
        if !present then FileReferences(cfg, sections[1..], root, files, checks)
        else
          match Subscript(cfg, s)
          case None => Step([], checks, true)
          case Some(data) =>
            var here := match data
                        case YList(items) => FileList(items, s, root, files, checks)
                        case YMap(entries) => FileDict(entries, s, root, files, checks)
                        case _ => ([], checks);
            var rest := FileReferences(cfg, sections[1..], root, files, here.1);
            Step(here.0 + rest.added, rest.checks, rest.raised)
  }

  // ----------------------------------------------------------- step 6

  /** `_validate_system_config` */
  function SystemConfig(cfg: Yaml): (r: Step)
    ensures r.checks == []
    ensures !cfg.YMap? ==> (r.raised <==> ContainsKey(cfg, "system") != Some(false))
    ensures forall i :: i in r.added ==> i.severity == Error && i.section == "system"
  {
    match ContainsKey(cfg, "system")
    case None => Step([], [], true)
    case Some(false) => Step([], [], false)
    case Some(true) =>
      match Subscript(cfg, "system")
      case None => Step([], [], true)
      case Some(system) =>
        match ContainsKey(system, "version")
        case None => Step([], [], true)
        case Some(hasVersion) =>
          var missing := (if hasVersion then [] else [Issue(Error, "system", None)])
            + (if ContainsKey(system, "mode") == Some(true) then [] else [Issue(Error, "system", None)]);
          if ContainsKey(system, "mode") == Some(false) then Step(missing, [], false)
          else
            match Subscript(system, "mode")
            case None => Step(missing, [], true)
            case Some(mode) =>
              Step(missing + (if mode in ValidModes then [] else [Issue(Error, "system", None)]), [], false)
  }

  /** the number of issues the system rules find in a `system` mapping */
  lemma SystemIssuesOfMapping(entries: seq<(string, Yaml)>)
    ensures var r := SystemConfig(YMap([("system", YMap(entries))]));
            && !r.raised
            && |r.added| == (if HasKey(entries, "version") then 0 else 1)
                            + (if HasKey(entries, "mode") then 0 else 1)
                            + (if HasKey(entries, "mode") && Lookup(entries, "mode").value !in ValidModes then 1 else 0)
  {
    assert Lookup([("system", YMap(entries))], "system") == Some(YMap(entries));
  }

  // ----------------------------------------------------------- step 7

  /** `not isinstance(freq, int) or freq < 1` */
  predicate BadFrequency(freq: Yaml) {
    !IsInt(freq) || IntValue(freq) < 1
  }

  /** `_validate_progress_state` */
  function ProgressState(cfg: Yaml, root: string, files: Tree, checks: FileChecks): (r: Step)
    ensures forall i :: i in r.added ==> i.section == "progress_state" && (i.severity == Info || i.severity == Error)
    ensures DistinctKeys(checks) ==> DistinctKeys(r.checks)
    ensures !cfg.YMap? ==> (r.raised <==> ContainsKey(cfg, "progress_state") != Some(false))
  {
    match ContainsKey(cfg, "progress_state")
    case None => Step([], checks, true)
    case Some(false) => Step([], checks, false)
    case Some(true) =>
      match Subscript(cfg, "progress_state")
      case None => Step([], checks, true)
      case Some(pc) =>
        match ContainsKey(pc, "state_file")
        case None => Step([], checks, true)
        case Some(hasStateFile) =>
          var stateFile := if hasStateFile then Subscript(pc, "state_file") else None;
          if hasStateFile && (stateFile.None? || !stateFile.value.YStr?) then Step([], checks, true)
          else
            var first := if !hasStateFile then ([], checks)
                         else
                           var p := stateFile.value.s;
                           var c := Check(root, files, p, "progress_state", None);
                           ((if c.present then [] else [Issue(Info, "progress_state", None)]), PutCheck(checks, p, c));
            if ContainsKey(pc, "checkpoint_frequency") != Some(true) then Step(first.0, first.1, false)
            else
              match Subscript(pc, "checkpoint_frequency")
              case None => Step(first.0, first.1, true)
              case Some(freq) =>
                Step(first.0 + (if BadFrequency(freq) then [Issue(Error, "progress_state", None)] else []), first.1, false)
  }

  /** In a well-formed `progress_state` mapping, the frequency draws an error
      exactly when it is not a positive integer, and a missing state file is
      information only. */
  lemma FrequencyRule(entries: seq<(string, Yaml)>, root: string, files: Tree, checks: FileChecks)
    requires HasKey(entries, "state_file") ==> Lookup(entries, "state_file").value.YStr?
    ensures var r := ProgressState(YMap([("progress_state", YMap(entries))]), root, files, checks);
            && !r.raised
            && (Issue(Error, "progress_state", None) in r.added
                <==> HasKey(entries, "checkpoint_frequency") && BadFrequency(Lookup(entries, "checkpoint_frequency").value))
            && (Issue(Info, "progress_state", None) in r.added
                <==> HasKey(entries, "state_file") && Join(root, Lookup(entries, "state_file").value.s) !in files)
  {
    assert Lookup([("progress_state", YMap(entries))], "progress_state") == Some(YMap(entries));
  }

  // ----------------------------------------------------------- step 8

  /** the section under `key`, when the configuration is a mapping and has it */
  function SectionOf(cfg: Yaml, key: string): Option<Yaml> {
    if cfg.YMap? then Lookup(cfg.entries, key) else None
  }

  /** the configuration enables GitHub in an `integrations.github` mapping
      that has no `repository_pattern` */
  predicate GithubUnpatterned(cfg: Yaml) {
    var integrations := SectionOf(cfg, "integrations");
    && integrations.Some? && integrations.value.YMap?
    && HasKey(integrations.value.entries, "github")
    && var github := Lookup(integrations.value.entries, "github").value;
    && github.YMap?
    && Truthy(Lookup(github.entries, "enabled").GetOr(YBool(false)))
    && !HasKey(github.entries, "repository_pattern")
  }

  /** `_validate_integrations` */
  function Integrations(cfg: Yaml): (r: Step)
    ensures r.checks == []
    ensures forall i :: i in r.added ==> i == Issue(Warning, "integrations.github", None)
    ensures |r.added| <= 1
    ensures Issue(Warning, "integrations.github", None) in r.added <==> GithubUnpatterned(cfg)
    ensures !cfg.YMap? ==> (r.raised <==> ContainsKey(cfg, "integrations") != Some(false))
  {
    match ContainsKey(cfg, "integrations")
    case None => Step([], [], true)
    case Some(false) => Step([], [], false)
    case Some(true) =>
      match Subscript(cfg, "integrations")
      case None => Step([], [], true)
      case Some(integrations) =>
        match ContainsKey(integrations, "github")
        case None => Step([], [], true)
        case Some(false) => Step([], [], false)
        case Some(true) =>
          match Subscript(integrations, "github")
          case None => Step([], [], true)
          case Some(github) =>
            match GetOrFalse(github, "enabled")
            case None => Step([], [], true)
            case Some(enabled) =>
              if Truthy(enabled) && !HasKey(github.entries, "repository_pattern")
              then Step([Issue(Warning, "integrations.github", None)], [], false)
              else Step([], [], false)
  }

  // ----------------------------------------------------------- step 9

  /** a `monitoring` mapping whose `session_tracking` is missing or falsy */
  predicate TrackingOff(cfg: Yaml) {
    var monitoring := SectionOf(cfg, "monitoring");
    && monitoring.Some? && monitoring.value.YMap?
    && !Truthy(Lookup(monitoring.value.entries, "session_tracking").GetOr(YBool(false)))
  }

  /** a `security` mapping whose `api_key_protection` is missing or falsy */
  predicate ProtectionOff(cfg: Yaml) {
    var security := SectionOf(cfg, "security");
    && security.Some? && security.value.YMap?
    && !Truthy(Lookup(security.value.entries, "api_key_protection").GetOr(YBool(false)))
  }

  /** `_validate_best_practices`: the security rule is reached only when the
      monitoring rule did not raise */
  function BestPractices(cfg: Yaml): (r: Step)
    ensures r.checks == []
    ensures forall i :: i in r.added ==> i == Issue(Info, "monitoring", None) || i == Issue(Warning, "security", None)
    ensures Issue(Info, "monitoring", None) in r.added <==> TrackingOff(cfg)
    ensures Issue(Warning, "security", None) in r.added <==>
              ProtectionOff(cfg) && (SectionOf(cfg, "monitoring").None? || SectionOf(cfg, "monitoring").value.YMap?)
    ensures !cfg.YMap? ==> (r.raised <==> ContainsKey(cfg, "monitoring") != Some(false) || ContainsKey(cfg, "security") != Some(false))
  {
    match ContainsKey(cfg, "monitoring")
    case None => Step([], [], true)
    case Some(hasMonitoring) =>
      var monitoring := if hasMonitoring then Subscript(cfg, "monitoring") else None;
      var tracking := if monitoring.Some? then GetOrFalse(monitoring.value, "session_tracking") else None;
      if hasMonitoring && tracking.None? then Step([], [], true)
      else
        var first := if hasMonitoring && !Truthy(tracking.value) then [Issue(Info, "monitoring", None)] else [];
        match ContainsKey(cfg, "security")
        case None => Step(first, [], true)
        case Some(false) => Step(first, [], false)
        case Some(true) =>
          var security := Subscript(cfg, "security");
          var protection := if security.Some? then GetOrFalse(security.value, "api_key_protection") else None;
          if protection.None? then Step(first, [], true)
          else Step(first + (if Truthy(protection.value) then [] else [Issue(Warning, "security", None)]), [], false)
  }

  // ------------------------------------------------------------ the run

  const EngineError := Issue(Critical, "validation_engine", None)

  /** steps 5 to 9 in order, stopping at the first that raises */
  function LaterSteps(cfg: Yaml, root: string, files: Tree): (r: Step)
    ensures DistinctKeys(r.checks)
    ensures EngineError !in r.added
  {
    var s5 := FileReferences(cfg, ReferenceSections, root, files, []);
    if s5.raised then s5
    else
      var s6 := SystemConfig(cfg);
      if s6.raised then Step(s5.added + s6.added, s5.checks, true)
      else
        var s7 := ProgressState(cfg, root, files, s5.checks);
        var a7 := s5.added + s6.added + s7.added;
        if s7.raised then Step(a7, s7.checks, true)
        else
          var s8 := Integrations(cfg);
          if s8.raised then Step(a7 + s8.added, s7.checks, true)
          else
            var s9 := BestPractices(cfg);
            Step(a7 + s8.added + s9.added, s7.checks, s9.raised)
  }

  function SeverityOf(i: Issue): Severity { i.severity }

  /** whether each checked file is present, in check order */
  function Presence(checks: FileChecks): (r: seq<bool>)
    ensures |r| == |checks|
    ensures forall i :: 0 <= i < |checks| ==> r[i] == checks[i].1.present
  {
    if checks == [] then [] else [checks[0].1.present] + Presence(checks[1..])
  }

  function CountMissing(checks: FileChecks): (n: nat)
    ensures n == multiset(Presence(checks))[false]
    ensures n <= |checks|
    ensures n == 0 <==> forall e :: e in checks ==> e.1.present
  {
    if checks == [] then 0
    else
      assert checks == [checks[0]] + checks[1..];
      assert Presence(checks) == [checks[0].1.present] + Presence(checks[1..]);
      (if checks[0].1.present then 0 else 1) + CountMissing(checks[1..])
  }

  /** `calculate_summary`: each count is the number of issues of that
      severity, and the missing files are the checked files found absent */
  function Summarize(issues: seq<Issue>, checks: FileChecks): (s: Summary)
    ensures s.critical == multiset(Graded(issues, SeverityOf))[Critical]
    ensures s.errors == multiset(Graded(issues, SeverityOf))[Error]
    ensures s.warnings == multiset(Graded(issues, SeverityOf))[Warning]
    ensures s.info == multiset(Graded(issues, SeverityOf))[Info]
    ensures s.critical + s.errors + s.warnings + s.info == |issues|
    ensures s.missingFiles <= s.totalFilesChecked == |checks|
    ensures s.missingFiles == multiset(Presence(checks))[false]
    ensures s.missingFiles == 0 <==> forall e :: e in checks ==> e.1.present
  {
    var sevs := Graded(issues, SeverityOf);
    SeveritiesPartition(sevs);
    Summary(CountSeverity(sevs, Critical), CountSeverity(sevs, Error), CountSeverity(sevs, Warning),
            CountSeverity(sevs, Info), |checks|, CountMissing(checks))
  }

  /** no issue is critical or an error */
  predicate Clean(issues: seq<Issue>) {
    forall i :: i in issues ==> i.severity != Critical && i.severity != Error
  }

  /** The summary has no critical issue and no error exactly when the
      issues are clean. */
  lemma SummaryVerdict(issues: seq<Issue>, checks: FileChecks)
    ensures Summarize(issues, checks).critical == 0 && Summarize(issues, checks).errors == 0 <==> Clean(issues)
  {
    GradedHas(issues, SeverityOf, Critical);
    GradedHas(issues, SeverityOf, Error);
  }

  /** `validate_config` */
  function Validate(source: Source, root: string, files: Tree): (r: ValidationReport)
    ensures source.Missing? ==> r == ValidationReport(false, [Issue(Critical, "file_system", None)], [], None)
    ensures source.SyntaxError? ==> r == ValidationReport(false, [Issue(Critical, "yaml_syntax", None)], [], None)
    ensures source.Unreadable? ==> r == ValidationReport(false, [Issue(Critical, "file_access", None)], [], None)
    ensures source.Parsed? ==> r.summary == Some(Summarize(r.issues, r.fileChecks)) && (r.isValid <==> Clean(r.issues))
    ensures DistinctKeys(r.fileChecks)
    ensures source.Parsed? ==> r.summary.value.totalFilesChecked == |r.fileChecks|
  {
    match source
    case Missing => ValidationReport(false, [Issue(Critical, "file_system", None)], [], None)
    case SyntaxError => ValidationReport(false, [Issue(Critical, "yaml_syntax", None)], [], None)
    case Unreadable => ValidationReport(false, [Issue(Critical, "file_access", None)], [], None)
    case Parsed(cfg) =>
      var later := LaterSteps(cfg, root, files);
      var issues := StructureIssues(cfg) + later.added + (if later.raised then [EngineError] else []);
      var summary := Summarize(issues, later.checks);
      SummaryVerdict(issues, later.checks);
      ValidationReport(summary.critical == 0 && summary.errors == 0, issues, later.checks, Some(summary))
  }

  /** a `system` mapping whose `mode` is present but not lite, standard or pro */
  predicate BadMode(cfg: Yaml) {
    var system := SectionOf(cfg, "system");
    && system.Some? && system.value.YMap?
    && HasKey(system.value.entries, "mode")
    && Lookup(system.value.entries, "mode").value !in ValidModes
  }

  /** The later steps keep what the file reference step added and, on a
      mapping, what the system step added. */
  lemma LaterStepsKeep(cfg: Yaml, root: string, files: Tree)
    ensures forall i :: i in FileReferences(cfg, ReferenceSections, root, files, []).added ==> i in LaterSteps(cfg, root, files).added
    ensures cfg.YMap? ==> forall i :: i in SystemConfig(cfg).added ==> i in LaterSteps(cfg, root, files).added
  {
    var s5 := FileReferences(cfg, ReferenceSections, root, files, []);
    var s6 := SystemConfig(cfg);
    var later := LaterSteps(cfg, root, files);
    if !s5.raised {
      assert later.added[..|s5.added| + |s6.added|] == s5.added + s6.added;
      assert forall i :: i in s5.added + s6.added ==> i in later.added;
    }
  }

  /** a mapping that lacks a required section gets an error for it */
  lemma MissingRequiredIsError(cfg: Yaml, s: string)
    requires cfg.YMap? && s in RequiredSections && !HasKey(cfg.entries, s)
    ensures Issue(Error, s, None) in StructureIssues(cfg)
  {
  }

  /** an invalid mode is a system error */
  lemma BadModeIsError(cfg: Yaml)
    requires BadMode(cfg)
    ensures cfg.YMap?
    ensures Issue(Error, "system", None) in SystemConfig(cfg).added
  {
    assert cfg.YMap?;
    assert Subscript(cfg, "system") == SectionOf(cfg, "system");
  }

  /** The report keeps the issues of the structure, file reference and
      system rules. */
  lemma ValidateKeepsRuleIssues(cfg: Yaml, root: string, files: Tree)
    ensures var r := Validate(Parsed(cfg), root, files);
            && (forall i :: i in StructureIssues(cfg) ==> i in r.issues)
            && (forall i :: i in FileReferences(cfg, ReferenceSections, root, files, []).added ==> i in r.issues)
            && (cfg.YMap? ==> forall i :: i in SystemConfig(cfg).added ==> i in r.issues)
  {
    var later := LaterSteps(cfg, root, files);
    var head := StructureIssues(cfg) + later.added;
    assert Validate(Parsed(cfg), root, files).issues == head + (if later.raised then [EngineError] else []);
    LaterStepsKeep(cfg, root, files);
  }

  /** A configuration that is no mapping, lacks a required section or
      names an invalid mode is reported invalid. */
  lemma ValidateRejects(cfg: Yaml, root: string, files: Tree)
    ensures !cfg.YMap? ==> !Validate(Parsed(cfg), root, files).isValid
    ensures cfg.YMap? && (exists s :: s in RequiredSections && !HasKey(cfg.entries, s)) ==>
              !Validate(Parsed(cfg), root, files).isValid
    ensures BadMode(cfg) ==> !Validate(Parsed(cfg), root, files).isValid
  {
    var r := Validate(Parsed(cfg), root, files);
    ValidateKeepsRuleIssues(cfg, root, files);
    if cfg.YMap? && exists s :: s in RequiredSections && !HasKey(cfg.entries, s) {
      var s :| s in RequiredSections && !HasKey(cfg.entries, s);
      MissingRequiredIsError(cfg, s);
      assert Issue(Error, s, None) in r.issues;
    }
    if BadMode(cfg) {
      BadModeIsError(cfg);
      assert Issue(Error, "system", None) in r.issues;
    }
    if !cfg.YMap? {
      assert Issue(Critical, "structure", None) in StructureIssues(cfg);
    }
  }

  /** Warnings and information never change the verdict. */
  lemma MildIssuesKeepVerdict(issues: seq<Issue>, extra: seq<Issue>)
    requires forall i :: i in extra ==> i.severity == Warning || i.severity == Info
    ensures Clean(issues + extra) <==> Clean(issues)
  {
    assert forall i :: i in issues + extra <==> i in issues || i in extra;
  }

  // ----------------------------------------------- when the rules raise

  /** a step of the rules meets a value Python cannot index by that name:
      `in` raises, or `in` holds of a list or string that cannot be indexed */
  predicate Unindexable(y: Yaml, key: string) {
    ContainsKey(y, key).None? || (!y.YMap? && ContainsKey(y, key) == Some(true))
  }


  /** When `validate_config`'s rules raise, stated from the configuration
      alone: a configuration that is not a mapping raises at the first
      section name it cannot rule out; a mapping raises where `system`,
      `progress_state`, `integrations`, `monitoring` or `security` is
      shaped so that a membership test, an index or `.get` fails. */
  ghost predicate Raises(cfg: Yaml) {
    if !cfg.YMap? then
      || (exists s :: s in ReferenceSections && ContainsKey(cfg, s) != Some(false))
      || (exists s :: s in ["system", "progress_state", "integrations", "monitoring", "security"] && ContainsKey(cfg, s) != Some(false))
    else
      var system := SectionOf(cfg, "system");
      var progress := SectionOf(cfg, "progress_state");
      var integrations := SectionOf(cfg, "integrations");
      var monitoring := SectionOf(cfg, "monitoring");
      var security := SectionOf(cfg, "security");
      || (system.Some? && Unindexable(system.value, "mode"))
      || (progress.Some? && (Unindexable(progress.value, "state_file")
                             || (progress.value.YMap? && HasKey(progress.value.entries, "state_file")
                                 && !Lookup(progress.value.entries, "state_file").value.YStr?)
                             || Unindexable(progress.value, "checkpoint_frequency")))
      || (integrations.Some? && (Unindexable(integrations.value, "github")
                                 || (integrations.value.YMap? && HasKey(integrations.value.entries, "github")
                                     && !Lookup(integrations.value.entries, "github").value.YMap?)))
      || (monitoring.Some? && !monitoring.value.YMap?)
      || (security.Some? && !security.value.YMap?)
  }

  /** The report carries the engine error exactly when the rules raise, and
      a raised rule always makes the configuration invalid. */
  lemma EngineErrorIffRaises(cfg: Yaml, root: string, files: Tree)
    ensures EngineError in Validate(Parsed(cfg), root, files).issues <==> Raises(cfg)
    ensures Raises(cfg) ==> !Validate(Parsed(cfg), root, files).isValid
  {
    var later := LaterSteps(cfg, root, files);
    var r := Validate(Parsed(cfg), root, files);
    assert EngineError !in StructureIssues(cfg);
    assert EngineError in r.issues <==> later.raised;
    LaterStepsRaise(cfg, root, files);
    if later.raised {
      assert EngineError in r.issues;
    }
  }

  lemma LaterStepsRaise(cfg: Yaml, root: string, files: Tree)
    ensures LaterSteps(cfg, root, files).raised <==> Raises(cfg)
  {
    var s5 := FileReferences(cfg, ReferenceSections, root, files, []);
    if !cfg.YMap? {
      NonMappingRaises(cfg, root, files);
    } else {
      assert !s5.raised;
      MappingStepsRaise(cfg, root, files, s5.checks);
    }
  }

  lemma NonMappingRaises(cfg: Yaml, root: string, files: Tree)
    requires !cfg.YMap?
    ensures LaterSteps(cfg, root, files).raised <==> Raises(cfg)
  {
    var others := ["system", "progress_state", "integrations", "monitoring", "security"];
    assert (exists s :: s in others && ContainsKey(cfg, s) != Some(false)) <==>
      ContainsKey(cfg, "system") != Some(false) || ContainsKey(cfg, "progress_state") != Some(false)
      || ContainsKey(cfg, "integrations") != Some(false) || ContainsKey(cfg, "monitoring") != Some(false)
      || ContainsKey(cfg, "security") != Some(false);
  }

  lemma MappingStepsRaise(cfg: Yaml, root: string, files: Tree, checks: FileChecks)
    requires cfg.YMap?
    ensures SystemConfig(cfg).raised <==> SectionOf(cfg, "system").Some? && Unindexable(SectionOf(cfg, "system").value, "mode")
    ensures ProgressState(cfg, root, files, checks).raised <==>
            var progress := SectionOf(cfg, "progress_state");
            progress.Some? && (Unindexable(progress.value, "state_file")
                               || (progress.value.YMap? && HasKey(progress.value.entries, "state_file")
                                   && !Lookup(progress.value.entries, "state_file").value.YStr?)
                               || Unindexable(progress.value, "checkpoint_frequency"))
    ensures Integrations(cfg).raised <==>
            var integrations := SectionOf(cfg, "integrations");
            integrations.Some? && (Unindexable(integrations.value, "github")
                                   || (integrations.value.YMap? && HasKey(integrations.value.entries, "github")
                                       && !Lookup(integrations.value.entries, "github").value.YMap?))
    ensures BestPractices(cfg).raised <==>
            (SectionOf(cfg, "monitoring").Some? && !SectionOf(cfg, "monitoring").value.YMap?)
            || (SectionOf(cfg, "security").Some? && !SectionOf(cfg, "security").value.YMap?)
  {
  }
}

=== FILE: daemon.dfy ===
/** The auto-checkpoint daemon (auto_checkpoint.py) as a transition system.

    The decision loop and the monitor loop are each one atomic step,
    `DecisionCycle` and `ScanCycle`; the one-minute sleeps, the threads and
    the signal handlers are not modelled.  The monitor thread's local
    `last_check` is the field `lastScanTime`.  MD5 is the parameter `hash`,
    applied to the state file as it is on disk. */
module AutoCheckpoint {
  import opened Common
  import opened Sorting
  import opened Progress
  import opened Store

  const CheckpointInterval: int := 1800
  const ActivityThreshold: nat := 3
  const MaxCheckpoints: nat := 50
  /** `_get_recently_modified_files` looks back one hour and keeps 20 paths */
  const RecentWindow: int := 3600
  const RecentLimit: nat := 20

  const MonitoredExtensions: set<string> :=
    {".py", ".md", ".json", ".yaml", ".yml", ".txt", ".js", ".ts", ".go", ".rs"}
  const ExcludedNames: set<string> :=
    {".git", "__pycache__", ".pytest_cache", "node_modules", ".venv", "venv", "env", ".env",
     "checkpoints", "snapshots"}

  // =========================================================== daemon state

  datatype Daemon = Daemon(
    running: bool,
    shutdownSignalled: bool,      // the `shutdown_event` flag
    lastCheckpointTime: int,
    fileChangeCount: nat,
    lastStateHash: Option<string>,
    lastScanTime: int)            // the monitor thread's `last_check`

  /** the daemon as constructed at time `now` */
  function Init(now: int): (d: Daemon)
    ensures !d.running && !d.shutdownSignalled
    ensures d.fileChangeCount == 0 && d.lastStateHash.None? && d.lastCheckpointTime == now
  {
    Daemon(false, false, now, 0, None, now)
  }

  /** both loops keep going only while this holds */
  predicate Active(d: Daemon) {
    d.running && !d.shutdownSignalled
  }

  /** `start` as written: a second start is ignored; a first one sets
      `running` and starts a monitor thread whose `last_check` is `now`.
      The shutdown event is left as it is. */
  function StartAsWritten(d: Daemon, now: int): (r: Daemon)
    ensures d.running ==> r == d
    ensures !d.running ==> r.running && r.lastScanTime == now
    ensures r.shutdownSignalled == d.shutdownSignalled
    ensures r.(running := d.running, lastScanTime := d.lastScanTime) == d
  {
    if d.running then d else d.(running := true, lastScanTime := now)
  }

  /** `start` with the shutdown event cleared, so a stopped daemon can run
      again (see the findings in the README). */
  function Start(d: Daemon, now: int): (r: Daemon)
    ensures d.running ==> r == d
    ensures !d.running ==> Active(r) && r.lastScanTime == now
    ensures !d.running ==> r.(running := d.running, shutdownSignalled := d.shutdownSignalled, lastScanTime := d.lastScanTime) == d
  {
    if d.running then d else d.(running := true, shutdownSignalled := false, lastScanTime := now)
  }

  /** `stop`: ignored unless running; clears `running` and signals shutdown */
  function Stop(d: Daemon): (r: Daemon)
    ensures !d.running ==> r == d
    ensures d.running ==> !r.running && r.shutdownSignalled
    ensures r.(running := d.running, shutdownSignalled := d.shutdownSignalled) == d
    ensures !Active(r)
  {
    if d.running then d.(running := false, shutdownSignalled := true) else d
  }

  lemma StartStopIdempotent(d: Daemon, now: int, later: int)
    ensures Start(Start(d, now), later) == Start(d, now)
    ensures StartAsWritten(StartAsWritten(d, now), later) == StartAsWritten(d, now)
    ensures Stop(Stop(d)) == Stop(d)
  {
  }

  /** With `start` as written, a daemon that has been stopped once reports
      itself running but never acts again: both loops exit at once. */
  lemma RestartAsWrittenIsInert(d: Daemon, now: int)
    requires d.running
    ensures StartAsWritten(Stop(d), now).running
    ensures !Active(StartAsWritten(Stop(d), now))
  {
  }

  /** With the shutdown event cleared on start, stop-then-start resumes. */
  lemma RestartResumes(d: Daemon, now: int)
    requires d.running
    ensures Active(Start(Stop(d), now))
  {
  }

  // ========================================================= trigger rule

  datatype Trigger = TimeBased | ActivityBased | StateChange | ManualTrigger
  {
    function Name(): string {
      match this
      case TimeBased => "TIME_BASED"
      case ActivityBased => "ACTIVITY_BASED"
      case StateChange => "STATE_CHANGE"
      case ManualTrigger => "MANUAL_TRIGGER"
    }
  }

  function ReplaceChar(s: string, a: char, b: char): (r: string)
    ensures |r| == |s|
    ensures forall i :: 0 <= i < |s| ==> r[i] == if s[i] == a then b else s[i]
  {
    if s == [] then [] else [if s[0] == a then b else s[0]] + ReplaceChar(s[1..], a, b)
  }

  /** `_state_changed` given the hash of the state file (`None` when it is
      absent): the first observation only records a baseline; a new hash
      is reported once and becomes the baseline.  Result: (changed, baseline). */
  function StateChanged(baseline: Option<string>, current: Option<string>): (r: (bool, Option<string>))
    ensures r.0 <==> baseline.Some? && current.Some? && current != baseline
    ensures r.1 == if current.Some? then current else baseline
  {
    if current.None? then (false, baseline)
    else if baseline.None? then (false, current)
    else if current.value != baseline.value then (true, current)
    else (false, baseline)
  }

  /** a change is reported once: observing the same hash again is quiet */
  lemma StateChangeReportedOnce(baseline: Option<string>, current: Option<string>)
    ensures !StateChanged(StateChanged(baseline, current).1, current).0
  {
  }

  /** Which trigger fires at `now`, and the hash baseline afterwards.  The
      hash is consulted only when neither the time nor the activity rule
      fires, so only then can the baseline move. */
  function ChooseTrigger(d: Daemon, now: int, current: Option<string>): (r: (Option<Trigger>, Option<string>))
    ensures r.0.None? || r.0.value in {TimeBased, ActivityBased, StateChange}
    ensures now - d.lastCheckpointTime >= CheckpointInterval ==> r == (Some(TimeBased), d.lastStateHash)
    ensures now - d.lastCheckpointTime < CheckpointInterval && d.fileChangeCount >= ActivityThreshold
            ==> r == (Some(ActivityBased), d.lastStateHash)
    ensures now - d.lastCheckpointTime < CheckpointInterval && d.fileChangeCount < ActivityThreshold
            ==> (r.0 == Some(StateChange) <==> d.lastStateHash.Some? && current.Some? && current != d.lastStateHash)
                && r.1 == (if current.Some? then current else d.lastStateHash)
  {
    if now - d.lastCheckpointTime >= CheckpointInterval then (Some(TimeBased), d.lastStateHash)
    else if d.fileChangeCount >= ActivityThreshold then (Some(ActivityBased), d.lastStateHash)
    else
      var (changed, baseline) := StateChanged(d.lastStateHash, current);
      (if changed then Some(StateChange) else None, baseline)
  }

  // ============================================================ file scan

  /** `_is_excluded_path` over the components of the absolute path */
  function Excluded(parts: seq<string>): (b: bool)
    ensures b <==> exists i :: 0 <= i < |parts| && (parts[i] in ExcludedNames || StartsWith(parts[i], "."))
  {
    if parts == [] then false
    else if parts[0] in ExcludedNames || StartsWith(parts[0], ".") then true
    else
      assert forall i :: 1 <= i < |parts| ==> parts[i] == parts[1..][i - 1];
      Excluded(parts[1..])
  }

  /** A path (relative to the root, whose own components are `rootParts`)
      counts as a change since `since`. */
  predicate Counted(project: map<string, FileEntry>, rootParts: seq<string>, p: string, since: int) {
    p in project
    && Suffix(BaseName(p)) in MonitoredExtensions
    && !Excluded(rootParts + SplitOn(p, '/'))
    && project[p].mtime > since
  }

  /** `_scan_for_changes`: the counted paths of the walk, in walk order.
      `walk` is the sequence of paths `rglob` yields before it finishes or
      before a `stat` or `rglob` exception ends the loop; the paths found
      until then are returned (see `InterruptedScanKeepsFound`). */
  function Scan(project: map<string, FileEntry>, rootParts: seq<string>, walk: seq<string>, since: int): (r: seq<string>)
    ensures |r| <= |walk|
    ensures forall p :: p in r <==> p in walk && Counted(project, rootParts, p, since)
  {
    if walk == [] then []
    else
      var rest := Scan(project, rootParts, walk[1..], since);
      assert walk == [walk[0]] + walk[1..];
      if Counted(project, rootParts, walk[0], since) then [walk[0]] + rest else rest
  }

  /** A walk that an exception ends after `k` paths reports a prefix of
      what the whole walk would have reported: nothing found is lost, and
      nothing is reported out of order. */
  lemma {:induction false} InterruptedScanKeepsFound(project: map<string, FileEntry>, rootParts: seq<string>, walk: seq<string>, since: int, k: nat)
    requires k <= |walk|
    ensures Scan(project, rootParts, walk[..k], since) <= Scan(project, rootParts, walk, since)
  {
    if k > 0 {
      assert walk[..k][0] == walk[0];
      assert walk[..k][1..] == walk[1..][..k - 1];
      InterruptedScanKeepsFound(project, rootParts, walk[1..], since, k - 1);
    }
  }

  /** `_get_recently_modified_files`: the first 20 paths changed in the
      last hour, in walk order */
  function RecentFiles(project: map<string, FileEntry>, rootParts: seq<string>, walk: seq<string>, now: int): (r: seq<string>)
    ensures |r| <= RecentLimit
    ensures forall p :: p in r ==> p in walk && Counted(project, rootParts, p, now - RecentWindow)
    ensures |r| == if |Scan(project, rootParts, walk, now - RecentWindow)| < RecentLimit
                   then |Scan(project, rootParts, walk, now - RecentWindow)| else RecentLimit
    ensures r == Scan(project, rootParts, walk, now - RecentWindow)[..|r|]
  {
    var all := Scan(project, rootParts, walk, now - RecentWindow);
    var r := Take(all, RecentLimit);
    assert forall p :: p in r ==> p in all;
    r
  }

  /** One pass of `_monitor_loop`: the counter grows by the number of
      changed paths, and the next scan starts from `now`. */
  function ScanCycle(d: Daemon, now: int, project: map<string, FileEntry>, rootParts: seq<string>, walk: seq<string>): (r: Daemon)
    ensures !Active(d) ==> r == d
    ensures Active(d) ==> r.fileChangeCount == d.fileChangeCount + |Scan(project, rootParts, walk, d.lastScanTime)|
    ensures Active(d) ==> r.lastScanTime == now
    ensures r.(fileChangeCount := d.fileChangeCount, lastScanTime := d.lastScanTime) == d
  {
    if !Active(d) then d
    else
      var changes := Scan(project, rootParts, walk, d.lastScanTime);
      d.(fileChangeCount := d.fileChangeCount + |changes|, lastScanTime := now)
  }

  // ======================================================= id allocation

  /** matches the glob `AUTO_CP*.json` */
  predicate IsAutoName(n: string) {
    |n| >= 12 && StartsWith(n, "AUTO_CP") && EndsWith(n, ".json")
  }

  /** names of the automatic checkpoint files, in listing order */
  function AutoNames(dir: seq<CheckpointEntry>): (r: seq<string>)
    ensures |r| <= |dir|
    ensures forall n :: n in r <==> exists e :: e in dir && e.name == n && IsAutoName(n)
  {
    if dir == [] then []
    else
      var rest := AutoNames(dir[1..]);
      assert dir == [dir[0]] + dir[1..];
      if IsAutoName(dir[0].name) then [dir[0].name] + rest else rest
  }

  /** the id of the next automatic checkpoint: one more than the number of
      automatic checkpoint files present, whatever their own ids are */
  function NextAutoId(dir: seq<CheckpointEntry>): (id: string)
    ensures SequenceNumber("AUTO_CP", id) == Some(|AutoNames(dir)| + 1)
  {
    SequenceId("AUTO_CP", |AutoNames(dir)| + 1)
  }

  // ============================================================ retention

  function FilterOut(s: seq<string>, x: set<string>): (r: seq<string>)
    ensures |r| <= |s|
    ensures forall n :: n in r <==> n in s && n !in x
  {
    if s == [] then []
    else
      assert s == [s[0]] + s[1..];
      if s[0] in x then FilterOut(s[1..], x) else [s[0]] + FilterOut(s[1..], x)
  }

  lemma {:induction false} DistinctMultiplicity(s: seq<string>)
    requires Distinct(s)
    ensures forall n :: multiset(s)[n] <= 1
  {
    if s != [] {
      DistinctMultiplicity(s[1..]);
      assert s == [s[0]] + s[1..];
      assert s[0] !in s[1..];
    }
  }

  lemma MultiplicityDistinct(s: seq<string>)
    requires forall n :: multiset(s)[n] <= 1
    ensures Distinct(s)
  {
    forall i, j | 0 <= i < j < |s| ensures s[i] != s[j] {
      assert s == s[..j] + s[j..];
      assert s[..j][i] == s[i];
      assert s[j..][0] == s[j];
      assert multiset(s) == multiset(s[..j]) + multiset(s[j..]);
      assert multiset(s[..j])[s[i]] >= 1 && multiset(s[j..])[s[j]] >= 1;
      assert multiset(s)[s[i]] <= 1;
    }
  }

  lemma {:induction false} DistinctSetSize(s: seq<string>)
    requires Distinct(s)
    ensures |set n | n in s| == |s|
  {
    if s != [] {
      DistinctSetSize(s[1..]);
      assert (set n | n in s) == (set n | n in s[1..]) + {s[0]};
    }
  }

  lemma AddOneMore(x: set<string>, t: set<string>, a: string)
    requires a !in t
    ensures |x * (t + {a})| == |x * t| + (if a in x then 1 else 0)
  {
    if a in x {
      assert x * (t + {a}) == (x * t) + {a};
    } else {
      assert x * (t + {a}) == x * t;
    }
  }

  lemma {:induction false} FilterOutCount(s: seq<string>, x: set<string>)
    requires Distinct(s)
    ensures |FilterOut(s, x)| == |s| - |x * set n | n in s|
  {
    if s != [] {
      var t := set n | n in s[1..];
      assert Distinct(s[1..]) by {
        forall i, j | 0 <= i < j < |s[1..]| ensures s[1..][i] != s[1..][j] {
          assert s[1..][i] == s[i + 1] && s[1..][j] == s[j + 1];
        }
      }
      assert s[0] !in t by {
        forall k | 0 <= k < |s[1..]| ensures s[1..][k] != s[0] {
          assert s[1..][k] == s[k + 1];
        }
      }
      FilterOutCount(s[1..], x);
      assert (set n | n in s) == t + {s[0]};
      AddOneMore(x, t, s[0]);
    }
  }

  lemma {:induction false} AutoNamesDistinct(dir: seq<CheckpointEntry>)
    requires DistinctNames(dir)
    ensures Distinct(AutoNames(dir))
  {
    if dir != [] {
      AutoNamesDistinct(dir[1..]);
      forall e | e in dir[1..] ensures e.name != dir[0].name {
        var k :| 0 <= k < |dir[1..]| && dir[1..][k] == e;
        assert dir[k + 1] == e;
      }
    }
  }

  /** the modification time of the entry called `n` */
  function MtimeOf(dir: seq<CheckpointEntry>, n: string): int {
    if dir == [] then 0 else if dir[0].name == n then dir[0].mtime else MtimeOf(dir[1..], n)
  }

  lemma {:induction false} MtimeOfEntry(dir: seq<CheckpointEntry>, e: CheckpointEntry)
    requires DistinctNames(dir) && e in dir
    ensures MtimeOf(dir, e.name) == e.mtime
  {
    if dir[0] != e {
      var k :| 0 <= k < |dir| && dir[k] == e;
      assert 0 < k && dir[0].name != e.name;
      assert dir[1..][k - 1] == e;
      MtimeOfEntry(dir[1..], e);
    }
  }

  /** unlink every file whose name is in `doomed` */
  function RemoveNamed(dir: seq<CheckpointEntry>, doomed: set<string>): (r: seq<CheckpointEntry>)
    ensures forall e :: e in r <==> e in dir && e.name !in doomed
    ensures DistinctNames(dir) ==> DistinctNames(r)
    ensures AutoNames(r) == FilterOut(AutoNames(dir), doomed)
  {
    if dir == [] then []
    else
      assert dir == [dir[0]] + dir[1..];
      var rest := RemoveNamed(dir[1..], doomed);
      if dir[0].name in doomed then rest else [dir[0]] + rest
  }

  /** how many of the `excess` oldest files are unlinked when the unlink
      after `stopsAfter` successful ones raises (`None`: none raises) */
  function Unlinked(excess: nat, stopsAfter: Option<nat>): (n: nat)
    ensures n <= excess
  {
    if stopsAfter.Some? && stopsAfter.value < excess then stopsAfter.value else excess
  }

  /** how many of `n` automatic checkpoint files survive the prune: 50
      when nothing raises, more when an unlink raises early, and all of
      them when there are no more than 50 */
  function Surviving(n: nat, stopsAfter: Option<nat>): (k: nat)
    ensures n <= MaxCheckpoints ==> k == n
    ensures n > MaxCheckpoints && stopsAfter.None? ==> k == MaxCheckpoints
    ensures n > MaxCheckpoints && stopsAfter.Some? ==> k == Max(MaxCheckpoints, n - stopsAfter.value)
  {
    if n <= MaxCheckpoints then n else n - Unlinked(n - MaxCheckpoints, stopsAfter)
  }

  /** `_cleanup_old_checkpoints`: when there are more than 50 automatic
      checkpoint files, the oldest by mtime are unlinked until 50 remain;
      files of equal age go in listing order.  `stopsAfter` is the number
      of unlinks that succeed before one raises (`Some(0)` also stands for
      a `stat` error while sorting); the exception ends the pruning and the
      files already unlinked stay unlinked. */
  function Cleanup(dir: seq<CheckpointEntry>, stopsAfter: Option<nat>): (r: seq<CheckpointEntry>)
    requires DistinctNames(dir)
    ensures DistinctNames(r)
    ensures |AutoNames(dir)| <= MaxCheckpoints ==> r == dir
    ensures |AutoNames(r)| == Surviving(|AutoNames(dir)|, stopsAfter)
    ensures forall e :: e in r ==> e in dir
    ensures forall e :: e in dir && !IsAutoName(e.name) ==> e in r
    ensures forall e, f :: e in r && IsAutoName(e.name) && f in dir && f !in r ==> f.mtime <= e.mtime
  {
    var autos := AutoNames(dir);
    if |autos| <= MaxCheckpoints then dir
    else
      PruneOldest(dir, Unlinked(|autos| - MaxCheckpoints, stopsAfter))
  }

  /** unlink the `k` oldest automatic checkpoint files */
  function PruneOldest(dir: seq<CheckpointEntry>, k: nat): (r: seq<CheckpointEntry>)
    requires DistinctNames(dir) && k <= |AutoNames(dir)|
    ensures DistinctNames(r)
    ensures |AutoNames(r)| == |AutoNames(dir)| - k
    ensures forall e :: e in r ==> e in dir
    ensures forall e :: e in dir && !IsAutoName(e.name) ==> e in r
    ensures forall e, f :: e in r && IsAutoName(e.name) && f in dir && f !in r ==> f.mtime <= e.mtime
  {
    var sorted := SortByKey(AutoNames(dir), MtimeKey(dir));
    PruneFacts(dir, MtimeKey(dir), sorted, k, Doomed(dir, k));
    RemoveNamed(dir, Doomed(dir, k))
  }

  /** the sort key of `_cleanup_old_checkpoints`: the file's mtime */
  function MtimeKey(dir: seq<CheckpointEntry>): string -> int {
    n => MtimeOf(dir, n)
  }

  /** the names of the `k` oldest automatic checkpoint files */
  function Doomed(dir: seq<CheckpointEntry>, k: nat): set<string>
    requires k <= |AutoNames(dir)|
  {
    var sorted := SortByKey(AutoNames(dir), MtimeKey(dir));
    set n | n in sorted[..k]
  }

  lemma PruneFacts(dir: seq<CheckpointEntry>, key: string -> int, sorted: seq<string>, k: nat, doomed: set<string>)
    requires DistinctNames(dir)
    requires forall n :: key(n) == MtimeOf(dir, n)
    requires multiset(sorted) == multiset(AutoNames(dir))
    requires SortedByKey(sorted, key)
    requires k <= |sorted|
    requires doomed == set n | n in sorted[..k]
    ensures |AutoNames(RemoveNamed(dir, doomed))| == |sorted| - k
    ensures forall e :: e in dir && !IsAutoName(e.name) ==> e in RemoveNamed(dir, doomed)
    ensures forall e, f :: e in RemoveNamed(dir, doomed) && IsAutoName(e.name) && f in dir && f !in RemoveNamed(dir, doomed)
              ==> f.mtime <= e.mtime
  {
    var r := RemoveNamed(dir, doomed);
    PrunedCount(dir, sorted, k, doomed);
    forall e, f | e in r && IsAutoName(e.name) && f in dir && f !in r ensures f.mtime <= e.mtime {
      PrunedAreOlder(dir, key, sorted, k, doomed, e, f);
    }
  }

  /** removing the `k` first names of a permutation of the automatic
      checkpoint names leaves the rest */
  lemma PrunedCount(dir: seq<CheckpointEntry>, sorted: seq<string>, k: nat, doomed: set<string>)
    requires DistinctNames(dir)
    requires multiset(sorted) == multiset(AutoNames(dir))
    requires k <= |sorted|
    requires doomed == set n | n in sorted[..k]
    ensures |AutoNames(RemoveNamed(dir, doomed))| == |sorted| - k
    ensures forall n :: n in doomed ==> IsAutoName(n)
  {
    var autos := AutoNames(dir);
    AutoNamesDistinct(dir);
    DistinctMultiplicity(autos);
    MultiplicityDistinct(sorted);
    assert Distinct(sorted[..k]);
    DistinctSetSize(sorted[..k]);
    forall n | n in doomed ensures n in autos {
      assert n in sorted;
      assert n in multiset(sorted);
    }
    assert doomed * (set n | n in autos) == doomed;
    FilterOutCount(autos, doomed);
  }

  /** an unlinked file is no newer than a kept automatic checkpoint */
  lemma PrunedAreOlder(dir: seq<CheckpointEntry>, key: string -> int, sorted: seq<string>, k: nat,
                       doomed: set<string>, e: CheckpointEntry, f: CheckpointEntry)
    requires DistinctNames(dir)
    requires forall n :: key(n) == MtimeOf(dir, n)
    requires multiset(sorted) == multiset(AutoNames(dir))
    requires SortedByKey(sorted, key)
    requires k <= |sorted|
    requires doomed == set n | n in sorted[..k]
    requires e in dir && IsAutoName(e.name) && e.name !in doomed
    requires f in dir && f.name in doomed
    ensures f.mtime <= e.mtime
  {
    var j :| 0 <= j < k && sorted[..k][j] == f.name;
    assert e.name in AutoNames(dir);
    assert e.name in multiset(sorted);
    var i :| 0 <= i < |sorted| && sorted[i] == e.name;
    assert i >= k by {
      forall m | 0 <= m < k ensures sorted[m] in doomed {
        assert sorted[..k][m] == sorted[m];
      }
    }
    assert key(sorted[j]) <= key(sorted[i]);
    MtimeOfEntry(dir, e);
    MtimeOfEntry(dir, f);
  }

  /** pruning twice prunes nothing more */
  lemma CleanupIdempotent(dir: seq<CheckpointEntry>)
    requires DistinctNames(dir)
    ensures Cleanup(Cleanup(dir, None), None) == Cleanup(dir, None)
  {
  }

  /** An interrupted prune unlinks a subset of what a full prune would:
      every file the full prune keeps is kept. */
  lemma InterruptedCleanupKeepsMore(dir: seq<CheckpointEntry>, stopsAfter: nat)
    requires DistinctNames(dir)
    ensures forall e :: e in Cleanup(dir, None) ==> e in Cleanup(dir, Some(stopsAfter))
  {
    var autos := AutoNames(dir);
    if |autos| > MaxCheckpoints {
      var sorted := SortByKey(autos, MtimeKey(dir));
      var k := |autos| - MaxCheckpoints;
      var j := Unlinked(k, Some(stopsAfter));
      assert Doomed(dir, j) <= Doomed(dir, k) by {
        forall n | n in Doomed(dir, j) ensures n in Doomed(dir, k) {
          var i :| 0 <= i < j && sorted[..j][i] == n;
          assert sorted[..k][i] == n;
        }
      }
    }
  }

  // =========================================================== creation

  /** what a checkpoint step observes of the environment */
  datatype Env = Env(
    now: int,                  // time.time(); also the new file's mtime
    isoTime: string,           // the UTC ISO timestamp of the checkpoint
    stamp: string,             // local time as %Y%m%d_%H%M, for the file name
    rootParts: seq<string>,    // components of the absolute project root
    walk: seq<string>,         // rglob order of the project tree
    checkpointWrite: WriteEnd, // how writing the checkpoint file ends
    stateWrite: WriteEnd,      // how writing the state file ends
    pruneStopsAfter: Option<nat>)  // unlinks that succeed before one raises

  /** the `checkpoint` object `_create_auto_checkpoint` captures */
  function AutoCapture(s: ProgressRecord, t: Trigger, id: string, changeCount: nat, files: seq<string>, isoTime: string): (cp: CheckpointRecord)
    ensures cp.checkpointId == Some(id) && cp.kind == Some("AUTO") && cp.trigger == Some(t.Name())
    ensures cp.phase == Some(PhaseOf(s)) && cp.task == Some(ActiveTaskOr(s, "UNKNOWN"))
    ensures cp.completionPercentage == Some(OverallProgressOf(s))
    ensures cp.contextSnapshot == Some(ContextOf(s))
    ensures cp.validationStatus == Some("PENDING") && cp.autoGenerated == Some(true)
    ensures cp.fileChangeCount == Some(changeCount) && cp.filesModified == Some(files)
  {
    CheckpointRecord(
      Some(id), Some(isoTime), Some("AUTO"), Some(t.Name()),
      Some("Automatic checkpoint (" + ReplaceChar(Lower(t.Name()), '_', ' ') + ")"),
      Some(PhaseOf(s)), Some(ActiveTaskOr(s, "UNKNOWN")), Some(OverallProgressOf(s)),
      Some(files), None, Some(ContextOf(s)), Some(["Continue with current task"]),
      Some(true), Some(changeCount), Some("PENDING"))
  }

  /** The progress record after an automatic checkpoint numbered `n`: the
      checkpoint appended, the recovery pointer set, rollback enabled and
      the automation counters stamped; nothing else changes. */
  function RecordAutoCheckpoint(s: ProgressRecord, cp: CheckpointRecord, n: nat): (r: ProgressRecord)
    requires cp.checkpointId.Some?
    ensures CheckpointsOf(r) == CheckpointsOf(s) + [cp]
    ensures r.recovery.Some? && r.recovery.value.lastKnownGoodState == cp.checkpointId
    ensures r.recovery.value.rollbackAvailable == Some(true)
    ensures s.recovery.Some? ==> r.recovery.value.recoveryInstructions == s.recovery.value.recoveryInstructions
    ensures r.automation.Some? && r.automation.value.autoCheckpoint.Some?
    ensures r.automation.value.autoCheckpoint.value.totalAutoCheckpoints == Some(n)
    ensures r.automation.value.autoCheckpoint.value.lastAutoCheckpoint == cp.timestamp
    ensures r.(checkpoints := s.checkpoints, recovery := s.recovery, automation := s.automation) == s
  {
    var recovery := s.recovery.GetOr(Recovery(None, None, None));
    s.(checkpoints := Some(CheckpointsOf(s) + [cp]),
       automation := Some(Automation(Some(AutoCheckpointInfo(cp.timestamp, Some(n))))),
       recovery := Some(recovery.(lastKnownGoodState := cp.checkpointId, rollbackAvailable := Some(true))))
  }

  /** the checkpoint file name: id, local minute stamp and trigger */
  function AutoFileName(id: string, stamp: string, t: Trigger): string {
    id + "_" + stamp + "_" + Lower(t.Name()) + ".json"
  }

  /** the checkpoint `_create_auto_checkpoint` captures from state `s` */
  function AutoCheckpointOf(w: World, s: ProgressRecord, t: Trigger, changeCount: nat, env: Env): CheckpointRecord {
    AutoCapture(s, t, NextAutoId(w.checkpoints), changeCount,
                RecentFiles(w.project, env.rootParts, env.walk, env.now), env.isoTime)
  }

  /** the file `_create_auto_checkpoint` writes for state `s`; its size on
      disk, the length of the JSON text, is not modelled and is 0 */
  function AutoEntry(w: World, s: ProgressRecord, t: Trigger, changeCount: nat, env: Env): CheckpointEntry {
    CheckpointEntry(AutoFileName(NextAutoId(w.checkpoints), env.stamp, t), env.now, 0,
                    Readable(CheckpointFile(AutoCheckpointOf(w, s, t, changeCount, env), s)))
  }

  /** `_create_auto_checkpoint`.  Nothing happens when the state file is
      missing or does not parse.  Otherwise the checkpoint file (holding the
      state as it was) is written; a write that fails stops there, leaving
      a cut-short file behind when `json.dump` raised.  After a good write
      the updated state is saved and old checkpoints are pruned.  Every
      failure is swallowed. */
  function CreateAutoCheckpoint(w: World, t: Trigger, changeCount: nat, env: Env): (r: World)
    requires w.Valid()
    ensures r.Valid()
    ensures r.project == w.project && r.snapshots == w.snapshots
    ensures r.backups == w.backups && r.recoveryLog == w.recoveryLog
    ensures (w.state.None? || w.state.value.Malformed?) ==> r == w
    ensures w.state.Some? && w.state.value.Parsed? && env.checkpointWrite.Fails() ==>
              r == w.(checkpoints := WriteCheckpoint(w.checkpoints, AutoEntry(w, w.state.value.record, t, changeCount, env),
                                                     env.checkpointWrite))
    ensures w.state.Some? && w.state.value.Parsed? && env.checkpointWrite.Written? ==>
              r == WriteAutoCheckpoint(w, w.state.value.record, t, changeCount, env)
  {
    if w.state.None? || w.state.value.Malformed? then w
    else if env.checkpointWrite.Fails() then
      w.(checkpoints := WriteCheckpoint(w.checkpoints, AutoEntry(w, w.state.value.record, t, changeCount, env), env.checkpointWrite))
    else WriteAutoCheckpoint(w, w.state.value.record, t, changeCount, env)
  }

  /** the part of `_create_auto_checkpoint` after the state `s` was read
      and the checkpoint file written: the state is saved and, unless saving
      raised, old checkpoints are pruned; a save that raised inside
      `json.dump` leaves a state file that no longer parses */
  function WriteAutoCheckpoint(w: World, s: ProgressRecord, t: Trigger, changeCount: nat, env: Env): (r: World)
    requires w.Valid() && w.state == Some(Parsed(s))
    ensures r.Valid()
    ensures r.project == w.project && r.snapshots == w.snapshots
    ensures r.backups == w.backups && r.recoveryLog == w.recoveryLog
    ensures env.stateWrite.Fails() ==>
              r.checkpoints == PutCheckpoint(w.checkpoints, AutoEntry(w, s, t, changeCount, env))
    ensures env.stateWrite.OpenRaised? ==> r.state == w.state
    ensures env.stateWrite.DumpRaised? ==> r.state == Some(Malformed(env.stateWrite.partial))
    ensures env.stateWrite.Written? ==>
              r.checkpoints == Cleanup(PutCheckpoint(w.checkpoints, AutoEntry(w, s, t, changeCount, env)), env.pruneStopsAfter)
              && r.state == Some(Parsed(RecordAutoCheckpoint(s, AutoCheckpointOf(w, s, t, changeCount, env),
                                                             |AutoNames(w.checkpoints)| + 1)))
  {
    var written := PutCheckpoint(w.checkpoints, AutoEntry(w, s, t, changeCount, env));
    var cp := AutoCheckpointOf(w, s, t, changeCount, env);
    var saved := StateAfter(env.stateWrite, w.state, RecordAutoCheckpoint(s, cp, |AutoNames(w.checkpoints)| + 1));
    if env.stateWrite.Fails() then w.(checkpoints := written, state := saved)
    else w.(checkpoints := Cleanup(written, env.pruneStopsAfter), state := saved)
  }

  /** an automatic checkpoint file holding the id `AUTO_CP002` */
  const SecondAuto := CheckpointEntry("AUTO_CP" + "002_20250101_1200_time_based" + ".json", 0, 0,
                        Readable(CheckpointFile(EmptyCheckpoint.(checkpointId := Some("AUTO_CP002")), EmptyRecord)))

  lemma SecondAutoIsAuto()
    ensures IsAutoName(SecondAuto.name) && AutoNames([SecondAuto]) == [SecondAuto.name]
  {
    var prefix, mid, ext := "AUTO_CP", "002_20250101_1200_time_based", ".json";
    var name := SecondAuto.name;
    assert name == prefix + (mid + ext);
    assert name[..|prefix|] == prefix;
    assert name == (prefix + mid) + ext;
    assert name[|name| - |ext|..] == ext;
    assert [SecondAuto][1..] == [];
  }

  lemma SecondId()
    ensures SequenceId("AUTO_CP", 2) == "AUTO_CP002"
  {
    assert Decimal(2) == "2";
    assert ZeroPad3(2) == "002";
  }

  /** Ids come from a file count, not from the ids already used: after a
      file has been pruned, the next id can be one a surviving file holds. */
  lemma AutoIdCanRepeat()
    ensures exists dir: seq<CheckpointEntry> :: DistinctNames(dir) && |dir| == 1 && IsAutoName(dir[0].name)
              && dir[0].stored.Readable? && dir[0].stored.data.checkpoint.checkpointId == Some(NextAutoId(dir))
  {
    SecondAutoIsAuto();
    SecondId();
    var dir := [SecondAuto];
    assert NextAutoId(dir) == "AUTO_CP002";
    assert dir[0] == SecondAuto;
  }

  // ====================================================== the two loops

  /** the hash the daemon would read now */
  function ObservedHash(w: World, hash: StateFile -> string): Option<string> {
    if w.state.Some? then Some(hash(w.state.value)) else None
  }

  /** One pass of `_checkpoint_loop`.  When a trigger fires, a checkpoint
      is attempted and, whatever came of it, the clock and the change
      counter are reset. */
  function DecisionCycle(d: Daemon, w: World, env: Env, hash: StateFile -> string): (r: (Daemon, World))
    requires w.Valid()
    ensures r.1.Valid()
    ensures !Active(d) ==> r == (d, w)
    ensures Active(d) ==>
              var (t, baseline) := ChooseTrigger(d, env.now, ObservedHash(w, hash));
              r.0.lastStateHash == baseline
              && r.0.(lastStateHash := d.lastStateHash, lastCheckpointTime := d.lastCheckpointTime,
                      fileChangeCount := d.fileChangeCount) == d
              && (t.Some? ==> r.0.lastCheckpointTime == env.now && r.0.fileChangeCount == 0
                              && r.1 == CreateAutoCheckpoint(w, t.value, d.fileChangeCount, env))
              && (t.None? ==> r.0.lastCheckpointTime == d.lastCheckpointTime
                              && r.0.fileChangeCount == d.fileChangeCount && r.1 == w)
  {
    if !Active(d) then (d, w)
    else
      var (t, baseline) := ChooseTrigger(d, env.now, ObservedHash(w, hash));
      if t.Some? then
        (d.(lastStateHash := baseline, lastCheckpointTime := env.now, fileChangeCount := 0),
         CreateAutoCheckpoint(w, t.value, d.fileChangeCount, env))
      else (d.(lastStateHash := baseline), w)
  }

  /** a firing cycle resets the clock and counter even when the checkpoint
      could not be written; the state is untouched, and so is the directory
      unless `json.dump` left a cut-short file */
  lemma FiringResetsEvenOnFailure(d: Daemon, w: World, env: Env, hash: StateFile -> string)
    requires w.Valid() && Active(d) && env.checkpointWrite.Fails()
    requires env.now - d.lastCheckpointTime >= CheckpointInterval
    ensures DecisionCycle(d, w, env, hash).0.fileChangeCount == 0
    ensures DecisionCycle(d, w, env, hash).0.lastCheckpointTime == env.now
    ensures DecisionCycle(d, w, env, hash).1.state == w.state
    ensures env.checkpointWrite.OpenRaised? ==> DecisionCycle(d, w, env, hash).1 == w
  {
  }

  /** A checkpoint file cut short by `json.dump` stays in the directory
      under its `AUTO_CP` name and does not parse, so it counts toward the
      next id and toward the clean-up. */
  lemma TruncatedAutoCheckpointCounts(w: World, t: Trigger, changeCount: nat, env: Env)
    requires w.Valid() && w.state.Some? && w.state.value.Parsed? && env.checkpointWrite.DumpRaised?
    ensures var r := CreateAutoCheckpoint(w, t, changeCount, env);
            var name := AutoEntry(w, w.state.value.record, t, changeCount, env).name;
            && r.state == w.state
            && name in AutoNames(r.checkpoints)
            && (forall e :: e in r.checkpoints && e.name == name ==> e.stored.Corrupt?)
  {
    var e := AutoEntry(w, w.state.value.record, t, changeCount, env);
    AutoFileNameIsAuto(NextAutoId(w.checkpoints), env.stamp, t);
    var cut := e.(size := |env.checkpointWrite.partial|, stored := Corrupt);
    var dir := PutCheckpoint(w.checkpoints, cut);
    assert CreateAutoCheckpoint(w, t, changeCount, env).checkpoints == dir;
    assert cut in dir && cut.name == e.name;
  }

  /** an `AUTO_CP` id followed by anything ending in `.json` is an
      automatic checkpoint name */
  lemma AutoShaped(id: string, mid: string)
    requires |id| >= 8 && StartsWith(id, "AUTO_CP")
    ensures IsAutoName(id + mid + ".json")
  {
    var n := id + mid + ".json";
    assert n[..7] == id[..7];
    assert n[|n| - 5..] == ".json";
  }

  /** every automatic checkpoint file name is an `AUTO_CP` name */
  lemma AutoFileNameIsAuto(id: string, stamp: string, t: Trigger)
    requires SequenceNumber("AUTO_CP", id).Some?
    ensures IsAutoName(AutoFileName(id, stamp, t))
  {
    var mid := "_" + stamp + "_" + Lower(t.Name());
    assert AutoFileName(id, stamp, t) == id + mid + ".json";
    AutoShaped(id, mid);
  }

  /** After an automatic checkpoint that hit no write fault, the saved state
      ends with the new PENDING checkpoint, points recovery at it with
      rollback enabled, and records its number as the checkpoint total. */
  lemma AutoCheckpointRecorded(w: World, t: Trigger, changeCount: nat, env: Env)
    requires w.Valid() && w.state.Some? && w.state.value.Parsed?
    requires env.checkpointWrite.Written? && env.stateWrite.Written?
    ensures var r := CreateAutoCheckpoint(w, t, changeCount, env);
            var id := NextAutoId(w.checkpoints);
            LastCheckpointIs(r, id, t)
            && var s' := r.state.value.record;
               var cps := CheckpointsOf(s');
               cps[..|cps| - 1] == CheckpointsOf(w.state.value.record)
               && cps[|cps| - 1].validationStatus == Some("PENDING")
               && s'.recovery.value.lastKnownGoodState == Some(id)
               && s'.recovery.value.rollbackAvailable == Some(true)
               && s'.automation.value.autoCheckpoint.value.totalAutoCheckpoints == SequenceNumber("AUTO_CP", id)
  {
    var s := w.state.value.record;
    var cp := AutoCheckpointOf(w, s, t, changeCount, env);
    var cps := CheckpointsOf(RecordAutoCheckpoint(s, cp, |AutoNames(w.checkpoints)| + 1));
    assert cps == CheckpointsOf(s) + [cp];
    assert cps[..|cps| - 1] == CheckpointsOf(s);
  }

  /** the condition `ForceCheckpoint` promises: the state's last checkpoint
      is the one just taken, with the given id and trigger */
  predicate LastCheckpointIs(w: World, id: string, t: Trigger) {
    w.state.Some? && w.state.value.Parsed?
    && var cps := CheckpointsOf(w.state.value.record);
       |cps| > 0 && cps[|cps| - 1].trigger == Some(t.Name()) && cps[|cps| - 1].checkpointId == Some(id)
  }

  /** `force_checkpoint`: the same creation path with MANUAL_TRIGGER,
      whether or not the daemon is running; the daemon's own clock and
      counter are not reset. */
  function ForceCheckpoint(d: Daemon, w: World, env: Env): (r: World)
    requires w.Valid()
    ensures r.Valid()
    ensures w.state.Some? && w.state.value.Parsed? && env.checkpointWrite.Written? && env.stateWrite.Written? ==>
              LastCheckpointIs(r, NextAutoId(w.checkpoints), ManualTrigger)
  {
    var r := CreateAutoCheckpoint(w, ManualTrigger, d.fileChangeCount, env);
    if w.state.Some? && w.state.value.Parsed? && env.checkpointWrite.Written? && env.stateWrite.Written? then
      ForceRecorded(w, d.fileChangeCount, env);
      r
    else r
  }

  lemma ForceRecorded(w: World, changeCount: nat, env: Env)
    requires w.Valid() && w.state.Some? && w.state.value.Parsed? && env.checkpointWrite.Written? && env.stateWrite.Written?
    ensures LastCheckpointIs(CreateAutoCheckpoint(w, ManualTrigger, changeCount, env), NextAutoId(w.checkpoints), ManualTrigger)
  {
    AutoCheckpointRecorded(w, ManualTrigger, changeCount, env);
  }
}

=== FILE: depgraph.dfy ===
/** The circular-dependency check of validate_config.py: a depth-first
    search over the `depends_on` graph, in which a neighbour already on the
    recursion stack means a cycle.

    The graph is the `dependencies` dictionary as an association list in
    insertion order; a name with no entry of its own has no dependencies.
    Besides `visited` and the recursion stack, the model keeps the order in
    which nodes leave the stack (`finished`): it is what shows that a
    search which finds nothing has seen an acyclic graph. */
module DependencyGraph {
  import opened Common

  type Graph = seq<(string, seq<string>)>

  /** `dependencies.get(node, [])` */
  function Successors(g: Graph, n: string): seq<string> {
    if g == [] then [] else if g[0].0 == n then g[0].1 else Successors(g[1..], n)
  }

  /** every name the graph mentions, as a key or as a dependency */
  function Nodes(g: Graph): (r: set<string>)
    ensures forall i :: 0 <= i < |g| ==> g[i].0 in r
  {
    if g == [] then {} else {g[0].0} + (set x | x in g[0].1) + Nodes(g[1..])
  }

  lemma {:induction false} SuccessorsAreNodes(g: Graph, n: string)
    ensures forall x :: x in Successors(g, n) ==> x in Nodes(g)
  {
    if g != [] && g[0].0 != n {
      SuccessorsAreNodes(g[1..], n);
    }
  }

  /** a name with dependencies has an entry of its own */
  lemma {:induction false} SuccessorsNeedEntry(g: Graph, n: string)
    requires Successors(g, n) != []
    ensures exists i :: 0 <= i < |g| && g[i].0 == n
  {
    if g[0].0 != n {
      SuccessorsNeedEntry(g[1..], n);
      var i :| 0 <= i < |g[1..]| && g[1..][i].0 == n;
      assert g[i + 1].0 == n;
    }
  }

  // ------------------------------------------------------------ the property

  /** `p` follows dependency edges */
  ghost predicate IsPath(g: Graph, p: seq<string>) {
    forall i :: 0 <= i < |p| - 1 ==> p[i + 1] in Successors(g, p[i])
  }

  /** a walk of at least one edge that ends where it starts; a self-loop
      `a -> a` is one */
  ghost predicate IsCycle(g: Graph, p: seq<string>) {
    |p| >= 2 && IsPath(g, p) && p[0] == p[|p| - 1]
  }

  ghost predicate HasCycle(g: Graph) {
    exists p :: IsCycle(g, p)
  }

  /** every dependency of a node in `order` comes earlier in `order` */
  ghost predicate Topological(g: Graph, order: seq<string>) {
    forall i :: 0 <= i < |order| ==> forall x :: x in Successors(g, order[i]) ==> x in order[..i]
  }

  function FirstIndex(s: seq<string>, x: string): (i: nat)
    requires x in s
    ensures i < |s| && s[i] == x && x !in s[..i]
  {
    if s[0] == x then 0 else 1 + FirstIndex(s[1..], x)
  }

  /** along a path out of `order[i]`, a topological order only goes back */
  lemma {:induction false} PathGoesBack(g: Graph, order: seq<string>, p: seq<string>, i: nat)
    requires Topological(g, order) && IsPath(g, p) && |p| >= 2
    requires i < |order| && order[i] == p[0]
    ensures p[|p| - 1] in order[..i]
    decreases |p|
  {
    assert p[1] in Successors(g, order[i]);
    assert p[1] in order[..i];
    var j := FirstIndex(order[..i], p[1]);
    if |p| > 2 {
      assert IsPath(g, p[1..]) by {
        forall k | 0 <= k < |p[1..]| - 1 ensures p[1..][k + 1] in Successors(g, p[1..][k]) {
          assert p[1..][k + 1] == p[k + 2] && p[1..][k] == p[k + 1];
        }
      }
      PathGoesBack(g, order, p[1..], j);
      assert order[..j] == order[..i][..j];
    }
  }

  /** A topological order that holds every name with dependencies rules out
      every cycle. */
  lemma TopologicalMeansAcyclic(g: Graph, order: seq<string>)
    requires Topological(g, order)
    requires forall k :: 0 <= k < |g| ==> g[k].0 in order
    ensures !HasCycle(g)
  {
    forall p | IsCycle(g, p) ensures false {
      assert p[1] in Successors(g, p[0]);
      SuccessorsNeedEntry(g, p[0]);
      var i := FirstIndex(order, p[0]);
      PathGoesBack(g, order, p, i);
    }
  }

  // ---------------------------------------------------------------- the DFS

  lemma {:induction false} SubsetNoLarger(a: set<string>, b: set<string>)
    requires a <= b
    ensures |a| <= |b|
    decreases |a|
  {
    if a != {} {
      var x :| x in a;
      SubsetNoLarger(a - {x}, b - {x});
    }
  }

  lemma PrefixKeeps(a: seq<string>, b: seq<string>, x: string)
    requires a <= b && x in a
    ensures x in b
  {
    var k := FirstIndex(a, x);
    assert b[k] == x;
  }

  /** an edge back to a name on the stack closes a cycle */
  lemma BackEdgeMeansCycle(g: Graph, path: seq<string>, n: string)
    requires path != [] && IsPath(g, path)
    requires n in path && n in Successors(g, path[|path| - 1])
    ensures HasCycle(g)
  {
    var j := FirstIndex(path, n);
    var cycle := path[j..] + [n];
    forall k | 0 <= k < |cycle| - 1 ensures cycle[k + 1] in Successors(g, cycle[k]) {
      if k < |path[j..]| - 1 {
        assert cycle[k] == path[j + k] && cycle[k + 1] == path[j + k + 1];
      } else {
        assert cycle[k] == path[|path| - 1] && cycle[k + 1] == n;
      }
    }
    assert IsCycle(g, cycle);
  }

  datatype Search = Search(found: bool, visited: set<string>, finished: seq<string>)

  /** what holds between the calls of one search: the stack is a path, the
      visited names are exactly those on the stack or finished, and the
      finished ones are in topological order */
  ghost predicate Between(g: Graph, stack: seq<string>, visited: set<string>, finished: seq<string>) {
    && visited <= Nodes(g)
    && IsPath(g, stack)
    && (forall x :: x in visited <==> x in stack || x in finished)
    && (forall x :: x in stack ==> x !in finished)
    && Topological(g, finished)
  }

  /** a node whose dependencies have all finished can finish next */
  lemma FinishKeepsOrder(g: Graph, finished: seq<string>, node: string)
    requires Topological(g, finished)
    requires forall x :: x in Successors(g, node) ==> x in finished
    ensures Topological(g, finished + [node])
  {
    var done := finished + [node];
    forall i | 0 <= i < |done| ensures forall x :: x in Successors(g, done[i]) ==> x in done[..i] {
      if i < |finished| {
        assert done[..i] == finished[..i];
      } else {
        assert done[..i] == finished;
      }
    }
  }

  /** `has_cycle(node, visited, rec_stack)`: `stack` is the recursion stack
      in the order the names were pushed. */
  function Visit(g: Graph, node: string, stack: seq<string>, visited: set<string>, finished: seq<string>): (r: Search)
    requires node in Nodes(g) && node !in visited
    requires Between(g, stack, visited, finished)
    requires stack != [] ==> node in Successors(g, stack[|stack| - 1])
    ensures r.found ==> HasCycle(g)
    ensures !r.found ==> && visited + {node} <= r.visited
                         && Between(g, stack, r.visited, r.finished)
                         && node in r.finished
                         && finished <= r.finished
    decreases |Nodes(g) - visited|, 0, 0
  {
    assert Nodes(g) - (visited + {node}) < Nodes(g) - visited;
    var path := stack + [node];
    assert IsPath(g, path);
    SuccessorsAreNodes(g, node);
    var r := VisitNeighbours(g, Successors(g, node), path, visited + {node}, finished);
    if r.found then r
    else
      FinishKeepsOrder(g, r.finished, node);
      Search(false, r.visited, r.finished + [node])
  }

  /** the `for neighbor in dependencies.get(node, [])` loop of `has_cycle`,
      over the neighbours not yet looked at; `path` ends with the node */
  function VisitNeighbours(g: Graph, todo: seq<string>, path: seq<string>, visited: set<string>, finished: seq<string>): (r: Search)
    requires path != [] && Between(g, path, visited, finished)
    requires forall x :: x in todo ==> x in Successors(g, path[|path| - 1])
    requires forall x :: x in Successors(g, path[|path| - 1]) ==> x in Nodes(g)
    ensures r.found ==> HasCycle(g)
    ensures !r.found ==> && visited <= r.visited
                         && Between(g, path, r.visited, r.finished)
                         && (forall x :: x in todo ==> x in r.finished)
                         && finished <= r.finished
    decreases |Nodes(g) - visited|, 2, |todo|
  {
    if todo == [] then Search(false, visited, finished)
    else
      assert todo[0] in todo && forall x :: x in todo[1..] ==> x in todo;
      var v := VisitNeighbour(g, todo[0], path, visited, finished);
      if v.found then v
      else
        SubsetNoLarger(Nodes(g) - v.visited, Nodes(g) - visited);
        var r := VisitNeighbours(g, todo[1..], path, v.visited, v.finished);
        if r.found then r
        else
          assert forall x :: x in todo ==> x == todo[0] || x in todo[1..];
          PrefixKeeps(v.finished, r.finished, todo[0]);
          r
  }

  /** one round of that loop: descend into an unvisited neighbour, report
      one on the stack, pass over a finished one */
  function VisitNeighbour(g: Graph, n: string, path: seq<string>, visited: set<string>, finished: seq<string>): (r: Search)
    requires path != [] && Between(g, path, visited, finished)
    requires n in Successors(g, path[|path| - 1]) && n in Nodes(g)
    ensures r.found ==> HasCycle(g)
    ensures !r.found ==> && visited <= r.visited
                         && Between(g, path, r.visited, r.finished)
                         && n in r.finished
                         && finished <= r.finished
    decreases |Nodes(g) - visited|, 1, 0
  {
    if n !in visited then Visit(g, n, path, visited, finished)
    else if n in path then
      BackEdgeMeansCycle(g, path, n);
      Search(true, visited, finished)
    else Search(false, visited, finished)
  }

  /** the outer `for node in dependencies` loop, over the entries not yet
      looked at; the answer is the name whose search found a cycle */
  function SearchFrom(g: Graph, todo: seq<(string, seq<string>)>, visited: set<string>, finished: seq<string>): (r: (Option<string>, seq<string>))
    requires Between(g, [], visited, finished)
    requires forall k :: 0 <= k < |todo| ==> todo[k].0 in Nodes(g)
    ensures r.0.Some? ==> HasCycle(g)
    ensures r.0.None? ==> Topological(g, r.1) && finished <= r.1
                          && (forall k :: 0 <= k < |todo| ==> todo[k].0 in r.1)
                          && (forall x :: x in visited ==> x in r.1)
    ensures r.0.Some? ==> exists k :: 0 <= k < |todo| && todo[k].0 == r.0.value
    decreases |todo|
  {
    if todo == [] then (None, finished)
    else
      var n := todo[0].0;
      if n in visited then
        var r := SearchFrom(g, todo[1..], visited, finished);
        assert r.0.None? ==> n in r.1 by {
          if r.0.None? {
            PrefixKeeps(finished, r.1, n);
          }
        }
        r
      else
        var v := Visit(g, n, [], visited, finished);
        if v.found then (Some(n), finished)
        else
          var r := SearchFrom(g, todo[1..], v.visited, v.finished);
          assert r.0.None? ==> n in r.1 by {
            if r.0.None? {
              PrefixKeeps(v.finished, r.1, n);
            }
          }
          r
  }

  /** `_validate_dependencies`'s verdict: the name whose search met a
      cycle, or nothing. */
  function FindCycle(g: Graph): (r: Option<string>)
    ensures r.Some? ==> exists k :: 0 <= k < |g| && g[k].0 == r.value
  {
    SearchFrom(g, g, {}, []).0
  }

  /** The check reports a cycle exactly when the graph has one. */
  lemma FindCycleIsExact(g: Graph)
    ensures FindCycle(g).Some? <==> HasCycle(g)
  {
    var r := SearchFrom(g, g, {}, []);
    if r.0.None? {
      TopologicalMeansAcyclic(g, r.1);
    }
  }
}

=== FILE: documents.dfy ===
/** The document pipeline of integrate_documentation.py: which files the
    processor accepts, its success and error counters, the keyword-scoring
    categoriser, the requirement priority and kind classifiers, the
    grouping of extracted requirements by document category, and the
    feature name a specification file is given.

    File readers (PDF, DOCX, HTML, plain text), the filename regular
    expressions and the requirement regular expressions are not modelled:
    what a reader produced is an input, the filename search is a function
    parameter, and the requirement matches of a document are an input. */
module Documents {
  import opened Common

  // ------------------------------------------------------------- processor

  const DefaultFormats: seq<string> := ["pdf", "docx", "md", "html", "txt"]

  /** `s.lstrip(chars)` */
  function LStripChars(s: string, chars: set<char>): (r: string)
    ensures |r| <= |s| && r == s[|s| - |r|..]
    ensures r == [] || r[0] !in chars
    ensures forall i :: 0 <= i < |s| - |r| ==> s[i] in chars
    decreases |s|
  {
    if s != [] && s[0] in chars then LStripChars(s[1..], chars) else s
  }

  /** the `format` of a file: the lower-cased suffix of its last path
      component, without the dot */
  function Format(name: string): string {
    LStripChars(Lower(Suffix(BaseName(name))), {'.'})
  }

  /** `can_process` */
  predicate CanProcess(formats: seq<string>, name: string) {
    Format(name) in formats
  }

  /** With a suffix, the format is the lower-cased suffix after its dot. */
  lemma FormatOfSuffix(name: string)
    requires Suffix(BaseName(name)) != []
    ensures Lower(Suffix(BaseName(name))) == "." + Format(name)
  {
    var s := Suffix(BaseName(name));
    var l := Lower(s);
    assert l[0] == '.';
    assert l[1] != '.' by {
      assert s[1] in s[1..];
    }
    assert Format(name) == l[1..];
  }

  /** A file is accepted exactly when the suffix of its last path
      component, lower-cased, is a dot followed by a listed format; a file
      without a suffix only when the empty string is listed.  A dot in a
      directory name is no suffix. */
  lemma CanProcessIff(formats: seq<string>, name: string)
    ensures Suffix(BaseName(name)) == [] ==> (CanProcess(formats, name) <==> "" in formats)
    ensures Suffix(BaseName(name)) != [] ==>
              (CanProcess(formats, name) <==> exists f :: f in formats && Lower(Suffix(BaseName(name))) == "." + f)
  {
    if Suffix(BaseName(name)) != [] {
      FormatOfSuffix(name);
      var l := Lower(Suffix(BaseName(name)));
      forall f | f in formats && l == "." + f ensures Format(name) in formats {
        assert f == l[1..];
      }
    }
  }

  /** what reading a file produced: its size, modification time and the
      text its format's reader extracted, or the message of the exception
      raised on the way */
  datatype Reading =
    | Read(size: nat, modified: string, text: string)
    | Failed(message: string)

  datatype Document =
    | Processed(file: string, size: nat, modified: string, format: string,
                content: string, wordCount: nat, charCount: nat)
    | Errored(file: string, error: string)
  {
    /** the document's `content`: empty for an error document */
    function Content(): string {
      if Processed? then content else ""
    }
  }

  datatype Processor = Processor(formats: seq<string>, processed: nat, errors: nat)

  /** `DocumentProcessor(supported_formats)`: an empty or absent list means
      the default formats */
  function NewProcessor(formats: seq<string>): (r: Processor)
    ensures r.processed == 0 && r.errors == 0
    ensures r.formats != []
    ensures formats != [] ==> r.formats == formats
  {
    Processor(if formats == [] then DefaultFormats else formats, 0, 0)
  }

  /** there are never more words than characters */
  lemma {:induction false} FewerWordsThanChars(s: string)
    ensures |Words(s)| <= |s|
    decreases |s|
  {
    var t := StripLeft(s);
    if t != [] {
      var k := TokenLength(t);
      assert k > 0;
      FewerWordsThanChars(t[k..]);
    }
  }

  /** `process_document`: a reading that succeeds counts as processed and
      yields its text with its word and character counts; one that fails
      counts as an error and yields an error document. */
  function ProcessDocument(p: Processor, name: string, reading: Reading): (r: (Processor, Document))
    ensures r.0.formats == p.formats
    ensures reading.Read? ==> r.0.processed == p.processed + 1 && r.0.errors == p.errors
    ensures reading.Failed? ==> r.0.errors == p.errors + 1 && r.0.processed == p.processed
    ensures reading.Failed? <==> r.1.Errored?
    ensures r.1.file == name
    ensures r.1.Errored? ==> r.1.error == reading.message && r.1.Content() == ""
    ensures r.1.Processed? ==> && r.1.content == reading.text
                               && r.1.charCount == |reading.text|
                               && r.1.wordCount == |Words(reading.text)|
                               && r.1.wordCount <= r.1.charCount
                               && r.1.format == Format(name)
  {
    match reading
    case Read(size, modified, text) =>
      FewerWordsThanChars(text);
      (p.(processed := p.processed + 1),
       Processed(name, size, modified, Format(name), text, |Words(text)|, |text|))
    case Failed(message) =>
      (p.(errors := p.errors + 1), Errored(name, message))
  }

  function ErrorCount(docs: seq<Document>): nat {
    if docs == [] then 0 else (if docs[0].Errored? then 1 else 0) + ErrorCount(docs[1..])
  }

  /** processing files one after another */
  function ProcessAll(p: Processor, files: seq<(string, Reading)>): (r: (Processor, seq<Document>))
    ensures |r.1| == |files|
    decreases |files|
  {
    if files == [] then (p, [])
    else
      var (q, d) := ProcessDocument(p, files[0].0, files[0].1);
      var (q', ds) := ProcessAll(q, files[1..]);
      (q', [d] + ds)
  }

  /** The counters tally the documents: every file adds one to exactly one
      counter, and the error counter grows by the number of error
      documents. */
  lemma {:induction false} CountersTally(p: Processor, files: seq<(string, Reading)>)
    ensures ProcessAll(p, files).0.processed + ProcessAll(p, files).0.errors == p.processed + p.errors + |files|
    ensures ProcessAll(p, files).0.errors == p.errors + ErrorCount(ProcessAll(p, files).1)
    decreases |files|
  {
    if files != [] {
      var q := ProcessDocument(p, files[0].0, files[0].1).0;
      CountersTally(q, files[1..]);
      var ds := ProcessAll(p, files).1;
      assert ds[1..] == ProcessAll(q, files[1..]).1;
    }
  }

  // ------------------------------------------------------------ categoriser

  datatype Category = Category(name: string, patterns: seq<string>, keywords: seq<string>)

  const RequirementsCategory := Category("requirements",
    ["requirement[s]?", "spec[s]?", "functional", "non-functional", "user.stor[yi]",
     "acceptance.criteria", "business.rule[s]?"],
    ["shall", "must", "should", "requirement", "functional", "non-functional",
     "user story", "acceptance criteria", "business rule", "constraint", "assumption"])

  const SpecificationsCategory := Category("specifications",
    ["design", "architecture", "technical.spec", "system.design", "detailed.design"],
    ["architecture", "design", "technical specification", "system design", "component",
     "interface", "algorithm", "data structure", "class diagram", "sequence diagram"])

  const GuidesCategory := Category("guides",
    ["guide", "manual", "tutorial", "how.to", "walkthrough", "readme"],
    ["guide", "manual", "tutorial", "how to", "walkthrough", "getting started",
     "quick start", "installation", "configuration", "setup"])

  const ApiDocsCategory := Category("api_docs",
    ["api", "endpoint[s]?", "rest", "swagger", "openapi"],
    ["api", "endpoint", "rest", "http", "request", "response", "swagger", "openapi",
     "json", "xml", "parameter"])

  const ArchitectureCategory := Category("architecture",
    ["architecture", "system.overview", "high.level", "component[s]?", "deployment"],
    ["architecture", "system overview", "high level", "component", "deployment",
     "infrastructure", "scalability", "performance", "security"])

  /** the categories in declaration order */
  const Categories: seq<Category> :=
    [RequirementsCategory, SpecificationsCategory, GuidesCategory, ApiDocsCategory, ArchitectureCategory]

  const Other := "other"

  /** a regular-expression search: does the pattern occur in the text */
  type Search = (string, string) -> bool

  /** ten points per filename pattern that matches */
  function PatternScore(search: Search, filename: string, patterns: seq<string>): nat {
    if patterns == [] then 0
    else (if search(patterns[0], filename) then 10 else 0) + PatternScore(search, filename, patterns[1..])
  }

  /** `if kw in content: score += content.count(kw)`; the empty keyword
      occurs `len(content) + 1` times */
  function KeywordHits(content: string, kw: string): nat {
    if kw == [] then |content| + 1
    else if Contains(content, kw) then CountOccurrences(content, kw) else 0
  }

  function KeywordScore(content: string, keywords: seq<string>): nat {
    if keywords == [] then 0
    else KeywordHits(content, Lower(keywords[0])) + KeywordScore(content, keywords[1..])
  }

  /** a category's score for a file name and a content, both lower-cased */
  function Score(search: Search, filename: string, content: string, c: Category): nat {
    PatternScore(search, filename, c.patterns) + KeywordScore(content, c.keywords)
  }

  function Scores(search: Search, filename: string, content: string, cs: seq<Category>): (r: seq<nat>)
    ensures |r| == |cs|
    ensures forall i :: 0 <= i < |cs| ==> r[i] == Score(search, filename, content, cs[i])
  {
    if cs == [] then [] else [Score(search, filename, content, cs[0])] + Scores(search, filename, content, cs[1..])
  }

  /** `max(scores.values())` */
  function MaxOf(s: seq<nat>): (m: nat)
    ensures forall i :: 0 <= i < |s| ==> s[i] <= m
    ensures s != [] ==> exists i :: 0 <= i < |s| && s[i] == m
    ensures s == [] ==> m == 0
  {
    if s == [] then 0 else Max(s[0], MaxOf(s[1..]))
  }

  /** `max(scores, key=scores.get)`: the first position holding the maximum */
  function FirstMax(s: seq<nat>): (i: nat)
    requires s != []
    ensures i < |s| && s[i] == MaxOf(s)
    ensures forall j :: 0 <= j < i ==> s[j] < s[i]
  {
    if s[0] >= MaxOf(s[1..]) then 0
    else
      var k := FirstMax(s[1..]);
      1 + k
  }

  /** the position `max(scores, key=scores.get)` picks when the highest
      score is positive: the first one holding it */
  function Pick(s: seq<nat>): (r: Option<nat>)
    ensures r.None? <==> forall i :: 0 <= i < |s| ==> s[i] == 0
    ensures r.Some? ==> && r.value < |s| && s[r.value] > 0
                        && (forall j :: 0 <= j < |s| ==> s[j] <= s[r.value])
                        && (forall j :: 0 <= j < r.value ==> s[j] < s[r.value])
  {
    if MaxOf(s) > 0 then Some(FirstMax(s)) else None
  }

  lemma NamesAreNotOther()
    ensures forall i :: 0 <= i < |Categories| ==> Categories[i].name != Other
  {
  }

  /** the scores of the categories for a document, from its lower-cased
      file name and content */
  function CategoryScores(search: Search, d: Document): (r: seq<nat>)
    requires d.Processed?
    ensures |r| == |Categories|
  {
    Scores(search, Lower(BaseName(d.file)), Lower(d.content), Categories)
  }

  /** `categorize_document`: an error document is 'other'; otherwise the
      first category with the highest score, or 'other' when every score
      is zero. */
  function Categorize(search: Search, d: Document): (r: string)
    ensures d.Errored? ==> r == Other
    ensures d.Processed? ==> (r == Other <==> Pick(CategoryScores(search, d)).None?)
    ensures d.Processed? && r != Other ==> r == Categories[Pick(CategoryScores(search, d)).value].name
  {
    if d.Errored? then Other
    else
      match Pick(CategoryScores(search, d))
      case None => Other
      case Some(i) =>
        NamesAreNotOther();
        Categories[i].name
  }

  lemma {:induction false} PatternScoreZero(search: Search, filename: string, patterns: seq<string>)
    ensures PatternScore(search, filename, patterns) == 0 <==>
            forall p :: p in patterns ==> !search(p, filename)
    decreases |patterns|
  {
    if patterns != [] {
      PatternScoreZero(search, filename, patterns[1..]);
      assert forall p :: p in patterns <==> p == patterns[0] || p in patterns[1..];
    }
  }

  lemma {:induction false} KeywordScoreZero(content: string, keywords: seq<string>)
    ensures KeywordScore(content, keywords) == 0 <==>
            forall k :: k in keywords ==> k != [] && !Contains(content, Lower(k))
    decreases |keywords|
  {
    if keywords != [] {
      KeywordScoreZero(content, keywords[1..]);
      var k := Lower(keywords[0]);
      assert KeywordScore(content, keywords) == KeywordHits(content, k) + KeywordScore(content, keywords[1..]);
      assert k == [] <==> keywords[0] == [];
      if k != [] && Contains(content, k) {
        CountPositiveIffContains(content, k);
      }
      assert KeywordHits(content, k) == 0 <==> keywords[0] != [] && !Contains(content, k);
      if KeywordScore(content, keywords) == 0 {
        forall x | x in keywords ensures x != [] && !Contains(content, Lower(x)) {
          if x != keywords[0] {
            assert x in keywords[1..];
          }
        }
      } else {
        assert keywords[0] in keywords;
        assert forall x :: x in keywords[1..] ==> x in keywords;
      }
    }
  }

  /** no filename pattern and no keyword of the category hits */
  predicate Silent(search: Search, filename: string, content: string, c: Category) {
    && (forall p :: p in c.patterns ==> !search(p, filename))
    && (forall k :: k in c.keywords ==> !Contains(content, Lower(k)))
  }

  lemma ScoreZeroIffSilent(search: Search, filename: string, content: string, c: Category)
    requires forall k :: k in c.keywords ==> k != []
    ensures Score(search, filename, content, c) == 0 <==> Silent(search, filename, content, c)
  {
    PatternScoreZero(search, filename, c.patterns);
    KeywordScoreZero(content, c.keywords);
  }

  /** every category of `cs` is silent */
  predicate AllSilent(search: Search, filename: string, content: string, cs: seq<Category>) {
    forall i :: 0 <= i < |cs| ==> Silent(search, filename, content, cs[i])
  }

  /** every score is zero */
  predicate AllZero(s: seq<nat>) {
    forall i :: 0 <= i < |s| ==> s[i] == 0
  }

  /** Scores that are all zero come from categories that are all silent. */
  lemma {:induction false} ZeroScoresSilent(search: Search, filename: string, content: string, cs: seq<Category>)
    requires forall i, k :: 0 <= i < |cs| && k in cs[i].keywords ==> k != []
    requires AllZero(Scores(search, filename, content, cs))
    ensures AllSilent(search, filename, content, cs)
  {
    var r := Scores(search, filename, content, cs);
    forall i | 0 <= i < |cs| ensures Silent(search, filename, content, cs[i]) {
      assert r[i] == Score(search, filename, content, cs[i]) == 0;
      ScoreZeroIffSilent(search, filename, content, cs[i]);
    }
  }

  /** Silent categories all score zero. */
  lemma {:induction false} SilentScoresZero(search: Search, filename: string, content: string, cs: seq<Category>)
    requires forall i, k :: 0 <= i < |cs| && k in cs[i].keywords ==> k != []
    requires AllSilent(search, filename, content, cs)
    ensures AllZero(Scores(search, filename, content, cs))
  {
    var r := Scores(search, filename, content, cs);
    forall i | 0 <= i < |cs| ensures r[i] == 0 {
      ScoreZeroIffSilent(search, filename, content, cs[i]);
      assert r[i] == Score(search, filename, content, cs[i]);
    }
  }

  /** Every category scores zero exactly when every category is silent. */
  lemma ScoresZeroIff(search: Search, filename: string, content: string, cs: seq<Category>)
    requires forall i, k :: 0 <= i < |cs| && k in cs[i].keywords ==> k != []
    ensures AllZero(Scores(search, filename, content, cs)) <==> AllSilent(search, filename, content, cs)
  {
    if AllZero(Scores(search, filename, content, cs)) {
      ZeroScoresSilent(search, filename, content, cs);
    }
    if AllSilent(search, filename, content, cs) {
      SilentScoresZero(search, filename, content, cs);
    }
  }

  /** A processed document is 'other' exactly when no filename pattern of
      any category matches and no keyword of any category occurs in the
      content, ignoring case. */
  lemma {:induction false} OtherIffNothingMatches(search: Search, d: Document)
    requires d.Processed?
    ensures Categorize(search, d) == Other <==> AllSilent(search, Lower(BaseName(d.file)), Lower(d.content), Categories)
  {
    var f, c := Lower(BaseName(d.file)), Lower(d.content);
    var s := CategoryScores(search, d);
    assert s == Scores(search, f, c, Categories);
    KeywordsNonEmpty();
    ScoresZeroIff(search, f, c, Categories);
    assert Pick(s).None? <==> AllZero(s);
    assert Categorize(search, d) == Other <==> Pick(s).None?;
  }

  lemma KeywordsNonEmpty()
    ensures forall i, k :: 0 <= i < |Categories| && k in Categories[i].keywords ==> k != []
  {
  }

  /** an entry above every other entry of at least two is the pick */
  lemma PickStrictWinner(s: seq<nat>, i: nat)
    requires 2 <= |s| && i < |s|
    requires forall j :: 0 <= j < |s| && j != i ==> s[j] < s[i]
    ensures Pick(s) == Some(i)
  {
    var j := if i == 0 then 1 else 0;
    assert s[j] < s[i];
  }

  /** A category whose score beats every other category's wins. */
  lemma {:induction false} StrictWinnerChosen(search: Search, d: Document, i: nat)
    requires d.Processed? && i < |Categories|
    requires forall j :: 0 <= j < |Categories| && j != i ==> CategoryScores(search, d)[j] < CategoryScores(search, d)[i]
    ensures Categorize(search, d) == Categories[i].name
  {
    PickStrictWinner(CategoryScores(search, d), i);
  }

  // ----------------------------------------------------------- requirements

  datatype Priority = High | Medium | Low

  const HighIndicators: seq<string> := ["critical", "essential", "must have", "mandatory"]
  const MediumIndicators: seq<string> := ["important", "should have", "recommended"]
  const LowIndicators: seq<string> := ["nice to have", "optional", "could have"]

  /** `any(word in text for word in words)` */
  predicate Mentions(text: string, words: seq<string>) {
    exists w :: w in words && Contains(text, w)
  }

  /** `_determine_priority`: the first indicator list, high before medium
      before low, with a word in the lower-cased text; medium otherwise */
  function PriorityOf(text: string): (r: Priority)
    ensures r == High <==> Mentions(Lower(text), HighIndicators)
    ensures r == Low <==> && !Mentions(Lower(text), HighIndicators)
                          && !Mentions(Lower(text), MediumIndicators)
                          && Mentions(Lower(text), LowIndicators)
  {
    var t := Lower(text);
    if Mentions(t, HighIndicators) then High
    else if Mentions(t, MediumIndicators) then Medium
    else if Mentions(t, LowIndicators) then Low
    else Medium
  }

  datatype Kind = Performance | Security | Interface | Data | Functional

  const PerformanceWords: seq<string> := ["performance", "speed", "latency", "response time"]
  const SecurityWords: seq<string> := ["security", "authentication", "authorization", "encrypt"]
  const InterfaceWords: seq<string> := ["interface", "ui", "user interface", "display"]
  const DataWords: seq<string> := ["data", "database", "storage", "persist"]

  /** `_categorize_requirement` */
  function KindOf(text: string): (r: Kind)
    ensures r == Performance <==> Mentions(Lower(text), PerformanceWords)
    ensures r == Security <==> !Mentions(Lower(text), PerformanceWords) && Mentions(Lower(text), SecurityWords)
    ensures r == Interface <==> && !Mentions(Lower(text), PerformanceWords)
                                && !Mentions(Lower(text), SecurityWords)
                                && Mentions(Lower(text), InterfaceWords)
    ensures r == Data <==> && !Mentions(Lower(text), PerformanceWords)
                           && !Mentions(Lower(text), SecurityWords)
                           && !Mentions(Lower(text), InterfaceWords)
                           && Mentions(Lower(text), DataWords)
    ensures r == Functional <==> && !Mentions(Lower(text), PerformanceWords)
                                 && !Mentions(Lower(text), SecurityWords)
                                 && !Mentions(Lower(text), InterfaceWords)
                                 && !Mentions(Lower(text), DataWords)
  {
    var t := Lower(text);
    if Mentions(t, PerformanceWords) then Performance
    else if Mentions(t, SecurityWords) then Security
    else if Mentions(t, InterfaceWords) then Interface
    else if Mentions(t, DataWords) then Data
    else Functional
  }

  lemma {:induction false} LowerIdempotent(s: string)
    ensures Lower(Lower(s)) == Lower(s)
  {
    assert forall i :: 0 <= i < |s| ==> LowerChar(LowerChar(s[i])) == LowerChar(s[i]);
  }

  /** Both classifiers ignore case. */
  lemma {:induction false} ClassifiersIgnoreCase(text: string)
    ensures PriorityOf(Lower(text)) == PriorityOf(text)
    ensures KindOf(Lower(text)) == KindOf(text)
  {
    LowerIdempotent(text);
  }

  /** `re.sub(r'\s+', ' ', s)`: every run of whitespace becomes one space */
  function CollapseSpace(s: string): (r: string)
    ensures |r| <= |s|
    ensures r == [] <==> s == []
    ensures r != [] ==> (IsWhitespace(r[0]) <==> IsWhitespace(s[0]))
    decreases |s|
  {
    if s == [] then []
    else if IsWhitespace(s[0]) then
      var rest := CollapseSpace(StripLeft(s));
      [' '] + rest
    else
      [s[0]] + CollapseSpace(s[1..])
  }

  /** the only whitespace left is single spaces */
  ghost predicate Collapsed(r: string) {
    && (forall i :: 0 <= i < |r| && IsWhitespace(r[i]) ==> r[i] == ' ')
    && (forall i, j :: 0 <= i < j < |r| && j == i + 1 ==> !(IsWhitespace(r[i]) && IsWhitespace(r[j])))
  }

  lemma {:induction false} CollapseSpaceIsCollapsed(s: string)
    ensures Collapsed(CollapseSpace(s))
    decreases |s|
  {
    if s != [] {
      var t := if IsWhitespace(s[0]) then StripLeft(s) else s[1..];
      CollapseSpaceIsCollapsed(t);
      var r, c := CollapseSpace(s), CollapseSpace(t);
      assert r == [r[0]] + c;
      assert IsWhitespace(r[0]) ==> r[0] == ' ' && (c == [] || !IsWhitespace(c[0]));
      forall i | 1 <= i < |r| ensures r[i] == c[i - 1] {
      }
    }
  }

  /** a leading whitespace character does not change the words */
  lemma {:induction false} WordsSkipSpace(s: string)
    requires s != [] && IsWhitespace(s[0])
    ensures Words(s) == Words(s[1..])
  {
    assert StripLeft(s) == StripLeft(s[1..]);
  }

  /** the words of a string are those of the string without its leading
      whitespace */
  lemma {:induction false} WordsOfStripped(s: string)
    ensures Words(s) == Words(StripLeft(s))
    decreases |s|
  {
    if s != [] && IsWhitespace(s[0]) {
      WordsSkipSpace(s);
      WordsOfStripped(s[1..]);
    }
  }

  /** a character other than whitespace passes through collapsing */
  lemma CollapseStep(c: char, t: string)
    requires !IsWhitespace(c)
    ensures CollapseSpace([c] + t) == [c] + CollapseSpace(t)
  {
    assert ([c] + t)[1..] == t;
  }

  /** no character of `a` is whitespace */
  predicate NoSpace(a: string) {
    a == [] || (!IsWhitespace(a[0]) && NoSpace(a[1..]))
  }

  lemma {:induction false} TokenHasNoSpace(s: string)
    ensures NoSpace(s[..TokenLength(s)])
    decreases |s|
  {
    if s != [] && !IsWhitespace(s[0]) {
      TokenHasNoSpace(s[1..]);
      assert s[..TokenLength(s)][1..] == s[1..][..TokenLength(s[1..])];
    }
  }

  /** the first character of a run passes through collapsing */
  lemma CollapseHead(a: string, b: string)
    requires a != [] && !IsWhitespace(a[0])
    ensures CollapseSpace(a + b) == [a[0]] + CollapseSpace(a[1..] + b)
  {
    assert a + b == [a[0]] + (a[1..] + b);
    CollapseStep(a[0], a[1..] + b);
  }

  lemma ConsAppend(a: string, x: string)
    requires a != []
    ensures a + x == [a[0]] + (a[1..] + x)
  {
    assert a == [a[0]] + a[1..];
  }

  /** collapsing leaves a leading run without whitespace alone */
  lemma {:induction false} CollapseKeepsPrefix(a: string, b: string)
    requires NoSpace(a)
    ensures CollapseSpace(a + b) == a + CollapseSpace(b)
    decreases |a|
  {
    if a == [] {
      assert a + b == b;
    } else {
      var x := CollapseSpace(b);
      CollapseHead(a, b);
      CollapseKeepsPrefix(a[1..], b);
      ConsAppend(a, x);
    }
  }

  lemma {:induction false} TokenLengthOfJoin(a: string, b: string)
    requires forall i :: 0 <= i < |a| ==> !IsWhitespace(a[i])
    requires b == [] || IsWhitespace(b[0])
    ensures TokenLength(a + b) == |a|
    decreases |a|
  {
    if a != [] {
      TokenLengthOfJoin(a[1..], b);
      assert (a + b)[1..] == a[1..] + b;
    }
  }

  /** Collapsing whitespace keeps every word: `str.split()` sees the same
      words before and after. */
  lemma {:induction false} CollapseKeepsWords(s: string)
    ensures Words(CollapseSpace(s)) == Words(s)
    decreases |s|
  {
    if s == [] {
    } else if IsWhitespace(s[0]) {
      var t := StripLeft(s);
      CollapseKeepsWords(t);
      WordsSkipSpace(CollapseSpace(s));
      assert CollapseSpace(s)[1..] == CollapseSpace(t);
      WordsOfStripped(s);
    } else {
      var k := TokenLength(s);
      var c := CollapseSpace(s[k..]);
      assert s == s[..k] + s[k..];
      TokenHasNoSpace(s);
      CollapseKeepsPrefix(s[..k], s[k..]);
      CollapseKeepsWords(s[k..]);
      var u := s[..k] + c;
      assert u == CollapseSpace(s);
      TokenLengthOfJoin(s[..k], c);
      assert StripLeft(u) == u;
      assert u[..k] == s[..k] && u[k..] == c;
      assert StripLeft(s) == s;
    }
  }

  const TrailingPunctuation: set<char> := {'.', ',', ';', ':'}

  /** the cleaned text of a requirement match: stripped, whitespace runs
      collapsed, trailing punctuation removed */
  function Clean(raw: string): (r: string)
    ensures r == [] || r[|r| - 1] !in TrailingPunctuation
    ensures |r| <= |raw|
  {
    RStripChars(CollapseSpace(Strip(raw)), TrailingPunctuation)
  }

  datatype Requirement = Requirement(text: string, source: string, priority: Priority, kind: Kind)

  function MakeRequirement(raw: string, source: string): Requirement {
    var t := Clean(raw);
    Requirement(t, source, PriorityOf(t), KindOf(t))
  }

  /** a match survives when its cleaned text has at least ten characters */
  predicate Kept(raw: string) {
    |Clean(raw)| >= 10
  }

  /** `_extract_from_content`, given the regular-expression matches of the
      content in order */
  function ExtractFromContent(matches: seq<string>, source: string): (r: seq<Requirement>)
    ensures |r| <= |matches|
  {
    if matches == [] then []
    else
      var rest := ExtractFromContent(matches[1..], source);
      if Kept(matches[0]) then [MakeRequirement(matches[0], source)] + rest else rest
  }

  /** The requirements of a content are the kept matches, cleaned and
      classified, each tagged with its source. */
  lemma {:induction false} ExtractedAreKeptMatches(matches: seq<string>, source: string)
    ensures forall q :: q in ExtractFromContent(matches, source) ==>
              && |q.text| >= 10 && q.source == source
              && q.priority == PriorityOf(q.text) && q.kind == KindOf(q.text)
    ensures forall q :: q in ExtractFromContent(matches, source) <==>
              exists m :: m in matches && Kept(m) && q == MakeRequirement(m, source)
    decreases |matches|
  {
    if matches != [] {
      ExtractedAreKeptMatches(matches[1..], source);
      assert forall m :: m in matches <==> m == matches[0] || m in matches[1..];
    }
  }

  /** a document as the requirement extractor sees it: its assigned
      category, if any, and the matches of the requirement patterns in its
      content */
  datatype Filed = Filed(doc: Document, category: Option<string>, matches: seq<string>)

  function CategoryOf(f: Filed): string {
    f.category.GetOr(Other)
  }

  type Groups = seq<(string, seq<Requirement>)>

  function Group(g: Groups, key: string): Option<seq<Requirement>> {
    if g == [] then None else if g[0].0 == key then Some(g[0].1) else Group(g[1..], key)
  }

  ghost predicate DistinctKeys(g: Groups) {
    forall i, j :: 0 <= i < j < |g| ==> g[i].0 != g[j].0
  }

  /** `groups.setdefault(key, []).extend(reqs)` */
  function Extend(g: Groups, key: string, reqs: seq<Requirement>): (r: Groups)
    requires DistinctKeys(g)
    ensures DistinctKeys(r)
    ensures Group(r, key) == Some(Group(g, key).GetOr([]) + reqs)
    ensures forall k :: k != key ==> Group(r, k) == Group(g, k)
  {
    if g == [] then
      assert [] + reqs == reqs;
      [(key, reqs)]
    else if g[0].0 == key then [(key, g[0].1 + reqs)] + g[1..]
    else
      var rest := Extend(g[1..], key, reqs);
      assert forall j :: 0 <= j < |rest| ==> rest[j].0 != g[0].0 by {
        forall j | 0 <= j < |rest| ensures rest[j].0 != g[0].0 {
          KeyOfGroup(rest, j);
          if rest[j].0 != key {
            GroupHasKey(g[1..], rest[j].0, g[0].0);
          }
        }
      }
      [g[0]] + rest
  }

  lemma {:induction false} KeyOfGroup(g: Groups, j: nat)
    requires j < |g|
    ensures Group(g, g[j].0).Some?
  {
    if j > 0 && g[0].0 != g[j].0 {
      KeyOfGroup(g[1..], j - 1);
    }
  }

  lemma {:induction false} GroupHasKey(g: Groups, k: string, other: string)
    requires Group(g, k).Some?
    requires forall j :: 0 <= j < |g| ==> g[j].0 != other
    ensures k != other
  {
    if g[0].0 != k {
      GroupHasKey(g[1..], k, other);
    }
  }

  /** `extract_requirements`: error documents are skipped; every other
      document opens its category's group and adds its requirements */
  function ExtractRequirements(docs: seq<Filed>): (r: Groups)
    ensures DistinctKeys(r)
    decreases |docs|
  {
    if docs == [] then []
    else
      var g := ExtractRequirements(docs[..|docs| - 1]);
      var f := docs[|docs| - 1];
      if f.doc.Errored? then g
      else Extend(g, CategoryOf(f), ExtractFromContent(f.matches, f.doc.file))
  }

  /** the reference: the requirements of the non-error documents of one
      category, in document order */
  function Gathered(docs: seq<Filed>, key: string): seq<Requirement>
    decreases |docs|
  {
    if docs == [] then []
    else
      var f := docs[|docs| - 1];
      Gathered(docs[..|docs| - 1], key)
        + (if f.doc.Processed? && CategoryOf(f) == key then ExtractFromContent(f.matches, f.doc.file) else [])
  }

  ghost predicate Opens(docs: seq<Filed>, key: string) {
    exists i :: 0 <= i < |docs| && docs[i].doc.Processed? && CategoryOf(docs[i]) == key
  }

  /** A category has a group exactly when some non-error document carries
      it, and the group holds the requirements of those documents in
      order. */
  lemma {:induction false} GroupsGatherByCategory(docs: seq<Filed>, key: string)
    ensures Group(ExtractRequirements(docs), key) == (if Opens(docs, key) then Some(Gathered(docs, key)) else None)
    decreases |docs|
  {
    if docs != [] {
      var init, f := docs[..|docs| - 1], docs[|docs| - 1];
      GroupsGatherByCategory(init, key);
      var hit := f.doc.Processed? && CategoryOf(f) == key;
      OpensStep(docs, key);
      if !hit {
        assert Group(ExtractRequirements(docs), key) == Group(ExtractRequirements(init), key);
        assert Gathered(docs, key) == Gathered(init, key) + [];
        assert Gathered(docs, key) == Gathered(init, key);
      } else if !Opens(init, key) {
        NothingGathered(init, key);
      }
    } else {
      assert !Opens(docs, key);
    }
  }

  lemma OpensStep(docs: seq<Filed>, key: string)
    requires docs != []
    ensures Opens(docs, key) <==>
              || Opens(docs[..|docs| - 1], key)
              || (docs[|docs| - 1].doc.Processed? && CategoryOf(docs[|docs| - 1]) == key)
  {
    var init := docs[..|docs| - 1];
    assert forall i :: 0 <= i < |init| ==> init[i] == docs[i];
  }

  lemma {:induction false} NothingGathered(docs: seq<Filed>, key: string)
    requires !Opens(docs, key)
    ensures Gathered(docs, key) == []
    decreases |docs|
  {
    if docs != [] {
      var init := docs[..|docs| - 1];
      OpensStep(docs, key);
      NothingGathered(init, key);
      assert !(docs[|docs| - 1].doc.Processed? && CategoryOf(docs[|docs| - 1]) == key);
    }
  }

  // ----------------------------------------------------------- feature name

  /** `s.replace('_', '-')` */
  function Hyphenate(s: string): (r: string)
    ensures |r| == |s|
    ensures forall i :: 0 <= i < |s| ==> r[i] == if s[i] == '_' then '-' else s[i]
  {
    if s == [] then [] else [if s[0] == '_' then '-' else s[0]] + Hyphenate(s[1..])
  }

  /** a word worth naming a feature after: longer than three letters */
  predicate NameWorthy(w: string) {
    |w| > 3 && IsAlpha(w)
  }

  function Filter(ws: seq<string>): (r: seq<string>)
    ensures forall w :: w in r <==> w in ws && NameWorthy(w)
  {
    if ws == [] then []
    else
      assert forall w :: w in ws <==> w == ws[0] || w in ws[1..];
      (if NameWorthy(ws[0]) then [ws[0]] else []) + Filter(ws[1..])
  }

  /** the first five words of a requirement's lower-cased text */
  function Leading(q: Requirement): seq<string> {
    Take(Words(Lower(q.text)), 5)
  }

  function LeadingWords(reqs: seq<Requirement>): (r: seq<seq<string>>)
    ensures |r| == |reqs| && forall i :: 0 <= i < |reqs| ==> r[i] == Leading(reqs[i])
  {
    if reqs == [] then []
    else
      var rest := LeadingWords(reqs[1..]);
      var r := [Leading(reqs[0])] + rest;
      assert forall i :: 0 <= i < |reqs| ==> r[i] == Leading(reqs[i]) by {
        forall i | 0 < i < |reqs| ensures r[i] == Leading(reqs[i]) {
          assert r[i] == rest[i - 1];
          assert reqs[1..][i - 1] == reqs[i];
        }
      }
      r
  }

  /** the name-worthy words of each list in turn */
  function CandidateWords(lists: seq<seq<string>>): seq<string> {
    if lists == [] then [] else Filter(lists[0]) + CandidateWords(lists[1..])
  }

  /** The candidates are exactly the name-worthy words of the lists. */
  lemma {:induction false} CandidatesAreListed(lists: seq<seq<string>>)
    ensures forall w :: w in CandidateWords(lists) ==>
              NameWorthy(w) && exists i :: 0 <= i < |lists| && w in lists[i]
    ensures forall i, w :: 0 <= i < |lists| && w in lists[i] && NameWorthy(w) ==> w in CandidateWords(lists)
    decreases |lists|
  {
    if lists != [] {
      var head, rest := Filter(lists[0]), CandidateWords(lists[1..]);
      CandidatesAreListed(lists[1..]);
      assert CandidateWords(lists) == head + rest;
      forall w | w in rest ensures exists i :: 0 <= i < |lists| && w in lists[i] {
        var i :| 0 <= i < |lists[1..]| && w in lists[1..][i];
        assert lists[1..][i] == lists[i + 1];
      }
      forall i, w | 0 < i < |lists| && w in lists[i] && NameWorthy(w) ensures w in rest {
        assert lists[1..][i - 1] == lists[i];
      }
    }
  }

  /** the word at position `j` of list `i` is name-worthy and no word
      before it, in reading order, is */
  ghost predicate FirstWorthyAt(lists: seq<seq<string>>, i: int, j: int) {
    && 0 <= i < |lists| && 0 <= j < |lists[i]|
    && NameWorthy(lists[i][j])
    && (forall k, w :: 0 <= k < i && w in lists[k] ==> !NameWorthy(w))
    && (forall l :: 0 <= l < j ==> !NameWorthy(lists[i][l]))
  }

  /** the word at position `j` of `ws` is its first name-worthy word */
  ghost predicate FirstWorthyIn(ws: seq<string>, j: int) {
    0 <= j < |ws| && NameWorthy(ws[j]) && forall l :: 0 <= l < j ==> !NameWorthy(ws[l])
  }

  /** The first kept word of a list is its first name-worthy word. */
  lemma {:induction false} FilterFirst(ws: seq<string>, j: nat)
    requires FirstWorthyIn(ws, j)
    ensures Filter(ws) != [] && Filter(ws)[0] == ws[j]
    decreases j
  {
    if j > 0 {
      assert !NameWorthy(ws[0]);
      assert ws[1..][j - 1] == ws[j];
      forall l | 0 <= l < j - 1 ensures !NameWorthy(ws[1..][l]) {
        assert ws[1..][l] == ws[l + 1];
      }
      FilterFirst(ws[1..], j - 1);
    }
  }

  /** A list without a name-worthy word keeps nothing. */
  lemma {:induction false} FilterNone(ws: seq<string>)
    requires forall w :: w in ws ==> !NameWorthy(w)
    ensures Filter(ws) == []
    decreases |ws|
  {
    if ws != [] {
      assert forall w :: w in ws[1..] ==> w in ws;
      FilterNone(ws[1..]);
    }
  }

  /** A list with a name-worthy word has a first one. */
  lemma {:induction false} FirstWorthyOfList(ws: seq<string>)
    requires exists w :: w in ws && NameWorthy(w)
    ensures exists j :: 0 <= j < |ws| && NameWorthy(ws[j]) && forall l :: 0 <= l < j ==> !NameWorthy(ws[l])
    decreases |ws|
  {
    if !NameWorthy(ws[0]) {
      var w :| w in ws && NameWorthy(w);
      assert w in ws[1..];
      FirstWorthyOfList(ws[1..]);
      var j :| 0 <= j < |ws[1..]| && NameWorthy(ws[1..][j]) && forall l :: 0 <= l < j ==> !NameWorthy(ws[1..][l]);
      assert ws[j + 1] == ws[1..][j];
      forall l | 0 <= l < j + 1 ensures !NameWorthy(ws[l]) {
        if l > 0 {
          assert ws[l] == ws[1..][l - 1];
        }
      }
    } else {
      assert NameWorthy(ws[0]);
    }
  }

  /** The first candidate is the first name-worthy word in reading order. */
  lemma {:induction false} CandidateFirst(lists: seq<seq<string>>, i: nat, j: nat)
    requires FirstWorthyAt(lists, i, j)
    ensures CandidateWords(lists) != [] && CandidateWords(lists)[0] == lists[i][j]
    decreases i
  {
    if i == 0 {
      FilterFirst(lists[0], j);
    } else {
      assert forall w :: w in lists[0] ==> !NameWorthy(w);
      FilterNone(lists[0]);
      var t := lists[1..];
      assert t[i - 1] == lists[i];
      forall k, w | 0 <= k < i - 1 && w in t[k] ensures !NameWorthy(w) {
        assert t[k] == lists[k + 1];
      }
      assert FirstWorthyAt(t, i - 1, j);
      CandidateFirst(t, i - 1, j);
    }
  }

  /** Lists holding a name-worthy word have a first one in reading order. */
  lemma {:induction false} FirstWorthyExists(lists: seq<seq<string>>)
    requires exists i, w :: 0 <= i < |lists| && w in lists[i] && NameWorthy(w)
    ensures exists i, j :: FirstWorthyAt(lists, i, j)
    decreases |lists|
  {
    if exists w :: w in lists[0] && NameWorthy(w) {
      FirstWorthyOfList(lists[0]);
      var j :| 0 <= j < |lists[0]| && NameWorthy(lists[0][j]) && forall l :: 0 <= l < j ==> !NameWorthy(lists[0][l]);
      assert FirstWorthyAt(lists, 0, j);
    } else {
      var t := lists[1..];
      var i, w :| 0 <= i < |lists| && w in lists[i] && NameWorthy(w);
      assert i > 0 && t[i - 1] == lists[i];
      FirstWorthyExists(t);
      var i', j :| FirstWorthyAt(t, i', j);
      assert t[i'] == lists[i' + 1];
      forall k, v | 0 <= k < i' + 1 && v in lists[k] ensures !NameWorthy(v) {
        if k > 0 {
          assert lists[k] == t[k - 1];
        }
      }
      assert FirstWorthyAt(lists, i' + 1, j);
    }
  }

  const FeatureSuffix := "-feature"

  /** the name a set of leading-word lists gives: the first name-worthy
      word, or "general" */
  function NameFrom(lists: seq<seq<string>>): (r: string)
    ensures EndsWith(r, FeatureSuffix)
    ensures (exists i, w :: 0 <= i < |lists| && w in lists[i] && NameWorthy(w)) ==>
              var stem := r[..|r| - |FeatureSuffix|];
              NameWorthy(stem) && exists i :: 0 <= i < |lists| && stem in lists[i]
    ensures (forall i, w :: 0 <= i < |lists| && w in lists[i] ==> !NameWorthy(w)) ==>
              r == "general" + FeatureSuffix
    ensures forall i, j :: FirstWorthyAt(lists, i, j) ==> r == lists[i][j] + FeatureSuffix
  {
    var words := CandidateWords(lists);
    CandidatesAreListed(lists);
    assert forall i, j :: FirstWorthyAt(lists, i, j) ==> words != [] && words[0] == lists[i][j] by {
      forall i, j | FirstWorthyAt(lists, i, j) ensures words != [] && words[0] == lists[i][j] {
        CandidateFirst(lists, i, j);
      }
    }
    if words != [] then
      assert words[0] in words;
      var r := words[0] + FeatureSuffix;
      assert r[..|r| - |FeatureSuffix|] == words[0];
      r
    else "general" + FeatureSuffix
  }

  /** `_extract_feature_name`: a real category names itself, with '_'
      turned into '-'; for 'other', the first name-worthy word among the
      leading words of the first three requirements, or "general". */
  function FeatureName(category: string, reqs: seq<Requirement>): (r: string)
    ensures category != Other ==> r == Hyphenate(category)
    ensures category == Other ==> r == NameFrom(LeadingWords(Take(reqs, 3)))
  {
    if category != Other then Hyphenate(category) else NameFrom(LeadingWords(Take(reqs, 3)))
  }

  /** A real category's feature name has no underscore and keeps every
      other character. */
  lemma {:induction false} FeatureNameOfCategory(category: string, reqs: seq<Requirement>)
    requires category != Other
    ensures '_' !in FeatureName(category, reqs)
    ensures |FeatureName(category, reqs)| == |category|
    ensures '_' !in category ==> FeatureName(category, reqs) == category
  {
  }
}

=== FILE: health.dfy ===
/** The system manager of claude_code_manager.py: how the overall health
    of a status report is graded, what `health_check` answers, and the
    registry of running performance monitors.

    The status itself (file probes, `subprocess` version checks, psutil
    readings) is an input; percentages are reals. A monitor is a number
    standing for the `PerformanceMonitor` object, and `running` is the set
    of monitors whose sampling thread has been started and not stopped. */
module Health {
  import opened Common

  /** what `_get_performance_status` returned: three readings, or the
      error dictionary (whose missing readings count as 0) */
  datatype Performance =
    | Readings(cpu: real, memory: real, disk: real)
    | NotAvailable

  /** the parts of `get_system_status` the grading reads: each component's
      truth value and each dependency's `available` flag (a name without
      an entry reads as false) */
  datatype Status = Status(components: map<string, bool>, available: map<string, bool>, performance: Performance)

  datatype Issue =
    | MissingComponent(component: string)
    | MissingDependency(dependency: string)
    | HighCpu
    | HighMemory
    | LowDisk

  const CriticalComponents: seq<string> := ["config_file", "scripts_directory"]
  const RequiredDependencies: seq<string> := ["python", "git", "uv"]

  /** `d.get(k, False)` */
  predicate Flag(d: map<string, bool>, k: string) {
    k in d && d[k]
  }

  function MissingComponents(d: map<string, bool>, names: seq<string>): (r: seq<Issue>)
    ensures forall x :: x in r <==> exists n :: n in names && !Flag(d, n) && x == MissingComponent(n)
    ensures |r| <= |names|
    ensures (forall n :: n in names ==> Flag(d, n)) ==> r == []
    ensures (forall n :: n in names ==> !Flag(d, n)) ==> |r| == |names|
  {
    if names == [] then []
    else
      var rest := MissingComponents(d, names[1..]);
      assert forall n :: n in names <==> n == names[0] || n in names[1..];
      (if Flag(d, names[0]) then [] else [MissingComponent(names[0])]) + rest
  }

  function MissingDependencies(d: map<string, bool>, names: seq<string>): (r: seq<Issue>)
    ensures forall x :: x in r <==> exists n :: n in names && !Flag(d, n) && x == MissingDependency(n)
    ensures |r| <= |names|
    ensures (forall n :: n in names ==> Flag(d, n)) ==> r == []
    ensures (forall n :: n in names ==> !Flag(d, n)) ==> |r| == |names|
  {
    if names == [] then []
    else
      var rest := MissingDependencies(d, names[1..]);
      assert forall n :: n in names <==> n == names[0] || n in names[1..];
      (if Flag(d, names[0]) then [] else [MissingDependency(names[0])]) + rest
  }

  function Cpu(p: Performance): real { if p.Readings? then p.cpu else 0.0 }
  function Memory(p: Performance): real { if p.Readings? then p.memory else 0.0 }
  function Disk(p: Performance): real { if p.Readings? then p.disk else 0.0 }

  function PerformanceIssues(p: Performance): seq<Issue> {
    (if Cpu(p) > 90.0 then [HighCpu] else [])
      + (if Memory(p) > 90.0 then [HighMemory] else [])
      + (if Disk(p) > 95.0 then [LowDisk] else [])
  }

  /** the issues `_calculate_overall_health` collects, in its order */
  function Issues(s: Status): (r: seq<Issue>)
    ensures |r| <= 8
  {
    MissingComponents(s.components, CriticalComponents)
      + MissingDependencies(s.available, RequiredDependencies)
      + PerformanceIssues(s.performance)
  }

  /** An issue is raised exactly for a critical component that is absent
      or false, a required dependency that is not available, and a reading
      strictly above its limit (CPU and memory 90, disk 95). */
  lemma IssuesAreProblems(s: Status, x: Issue)
    ensures x in Issues(s) <==>
              || (x.MissingComponent? && x.component in CriticalComponents && !Flag(s.components, x.component))
              || (x.MissingDependency? && x.dependency in RequiredDependencies && !Flag(s.available, x.dependency))
              || (x == HighCpu && Cpu(s.performance) > 90.0)
              || (x == HighMemory && Memory(s.performance) > 90.0)
              || (x == LowDisk && Disk(s.performance) > 95.0)
  {
  }

  datatype Health = Healthy | Warning | Critical

  /** `_calculate_overall_health` */
  function OverallHealth(s: Status): (r: Health)
    ensures r == Healthy <==> Issues(s) == []
    ensures r == Warning <==> 1 <= |Issues(s)| <= 2
    ensures r == Critical <==> |Issues(s)| >= 3
  {
    var n := |Issues(s)|;
    if n == 0 then Healthy else if n <= 2 then Warning else Critical
  }

  /** `health_check`'s answer: the health is healthy or warning */
  function HealthCheck(s: Status): (ok: bool)
    ensures ok <==> |Issues(s)| <= 2
  {
    OverallHealth(s) in {Healthy, Warning}
  }

  /** A system that lacks all three required tools is critical whatever
      else holds. */
  lemma {:induction false} NoToolsIsCritical(s: Status)
    requires forall d :: d in RequiredDependencies ==> !Flag(s.available, d)
    ensures OverallHealth(s) == Critical
    ensures !HealthCheck(s)
  {
    assert |MissingDependencies(s.available, RequiredDependencies)| == 3;
  }

  /** With every component, every tool and readings at or under their
      limits, the system is healthy; a missing performance reading never
      raises an issue. */
  lemma HealthyWhenAllPresent(s: Status)
    requires forall c :: c in CriticalComponents ==> Flag(s.components, c)
    requires forall d :: d in RequiredDependencies ==> Flag(s.available, d)
    requires s.performance.NotAvailable? ||
             (s.performance.cpu <= 90.0 && s.performance.memory <= 90.0 && s.performance.disk <= 95.0)
    ensures OverallHealth(s) == Healthy
  {
    assert MissingComponents(s.components, CriticalComponents) == [];
    assert MissingDependencies(s.available, RequiredDependencies) == [];
  }

  // -------------------------------------------------------------- monitors

  /** `active_monitors` and the monitors whose threads run */
  datatype Registry = Registry(active: map<string, nat>, running: set<nat>, next: nat)

  const DefaultProject := "claude_code_system"

  /** `project_name or "claude_code_system"` */
  function ProjectName(name: Option<string>): (r: string)
    ensures r != []
    ensures name.Some? && name.value != [] ==> r == name.value
  {
    if name.Some? && name.value != [] then name.value else DefaultProject
  }

  /** every running monitor is reachable through the registry, every
      registered one runs, and no monitor is registered under two names */
  ghost predicate Accounted(g: Registry) {
    && (forall m :: m in g.running <==> exists n :: n in g.active && g.active[n] == m)
    && (forall n :: n in g.active ==> g.active[n] < g.next)
    && (forall n, k :: n in g.active && k in g.active && n != k ==> g.active[n] != g.active[k])
  }

  function Fresh(): Registry { Registry(map[], {}, 0) }

  /** `start_monitoring` as written: a new monitor is started and stored
      under the name, replacing the entry, but a monitor already stored
      under that name is not stopped; `fails` stands for an exception from
      creating or starting the monitor, which leaves everything as it was. */
  function StartMonitoringAsWritten(g: Registry, name: Option<string>, fails: bool): (r: (bool, Registry))
    ensures r.0 <==> !fails
    ensures fails ==> r.1 == g
    ensures !fails ==> ProjectName(name) in r.1.active && r.1.active[ProjectName(name)] in r.1.running
    ensures !fails ==> forall n :: n in g.active && n != ProjectName(name) ==> n in r.1.active && r.1.active[n] == g.active[n]
    ensures !fails ==> g.running <= r.1.running
  {
    if fails then (false, g)
    else
      var m := g.next;
      (true, Registry(g.active[ProjectName(name) := m], g.running + {m}, g.next + 1))
  }

  /** `start_monitoring` as evidently intended: a monitor already stored
      under the name is stopped before its entry is replaced. */
  function StartMonitoring(g: Registry, name: Option<string>, fails: bool): (r: (bool, Registry))
    ensures r.0 <==> !fails
    ensures fails ==> r.1 == g
    ensures !fails ==> ProjectName(name) in r.1.active && r.1.active[ProjectName(name)] in r.1.running
    ensures !fails ==> forall n :: n in g.active && n != ProjectName(name) ==> n in r.1.active && r.1.active[n] == g.active[n]
    ensures var p := ProjectName(name);
            !fails && p in g.active && g.active[p] != g.next ==> g.active[p] !in r.1.running
    ensures var p := ProjectName(name);
            !fails ==> forall m :: m in g.running && !(p in g.active && m == g.active[p]) ==> m in r.1.running
  {
    if fails then (false, g)
    else
      var p := ProjectName(name);
      var m := g.next;
      var stopped := if p in g.active then g.running - {g.active[p]} else g.running;
      (true, Registry(g.active[p := m], stopped + {m}, g.next + 1))
  }

  /** `stop_monitoring`: a registered name stops and removes that monitor
      alone; no name, or one not registered, stops and removes them all. */
  function StopMonitoring(g: Registry, name: Option<string>): (r: Registry)
    ensures name.Some? && name.value != [] && name.value in g.active ==>
              && r.active == g.active - {name.value}
              && r.running == g.running - {g.active[name.value]}
    ensures !(name.Some? && name.value != [] && name.value in g.active) ==>
              && r.active == map[]
              && r.running == g.running - set n | n in g.active :: g.active[n]
    ensures r.next == g.next
  {
    if name.Some? && name.value != [] && name.value in g.active then
      Registry(g.active - {name.value}, g.running - {g.active[name.value]}, g.next)
    else
      Registry(map[], g.running - set n | n in g.active :: g.active[n], g.next)
  }

  /** The corrected start keeps every running monitor reachable. */
  lemma StartKeepsAccounted(g: Registry, name: Option<string>, fails: bool)
    requires Accounted(g)
    ensures Accounted(StartMonitoring(g, name, fails).1)
  {
    if !fails {
      var r := StartMonitoring(g, name, fails).1;
      var p := ProjectName(name);
      forall m | m in r.running ensures exists n :: n in r.active && r.active[n] == m {
        if m == g.next {
          assert r.active[p] == m;
        } else {
          var n :| n in g.active && g.active[n] == m;
          assert n != p;
          assert r.active[n] == m;
        }
      }
    }
  }

  /** Stopping keeps every running monitor reachable, and stopping them
      all leaves none running. */
  lemma StopKeepsAccounted(g: Registry, name: Option<string>)
    requires Accounted(g)
    ensures Accounted(StopMonitoring(g, name))
    ensures name.None? ==> StopMonitoring(g, name).running == {}
  {
    var r := StopMonitoring(g, name);
    if name.Some? && name.value != [] && name.value in g.active {
      forall m | m in r.running ensures exists n :: n in r.active && r.active[n] == m {
        var n :| n in g.active && g.active[n] == m;
        assert n != name.value;
        assert r.active[n] == m;
      }
    }
  }

  /** As written, starting a monitor twice under one name leaves the first
      one running with no entry through which it could be stopped: even
      stopping every monitor leaves it running. */
  lemma RestartOrphansMonitor()
    ensures var g1 := StartMonitoringAsWritten(Fresh(), None, false).1;
            var g2 := StartMonitoringAsWritten(g1, None, false).1;
            && 0 in StopMonitoring(g2, None).running
            && !Accounted(g2)
  {
    var g1 := StartMonitoringAsWritten(Fresh(), None, false).1;
    var g2 := StartMonitoringAsWritten(g1, None, false).1;
    assert g2.active == map[DefaultProject := 1];
    assert g2.running == {0, 1};
    assert (set n | n in g2.active :: g2.active[n]) == {1};
  }
}

=== FILE: logging.dfy ===
/** The structured logging of logging_system.py: the rotation and
    retention policy of `LogStorage`, the statistics `ClaudeLogger.log`
    keeps, the session and task bookkeeping of `SessionTracker`, the
    decision list of `DecisionLogger` and the threshold rule of
    `PerformanceTracker.record_metric`.

    A tracker, a decision logger and a performance tracker built on one
    logger (as `create_full_logging_suite` does) share that logger, so the
    model keeps the four in one `Suite`. What each `log` call needs from the
    outside world is an input `Write`: the UTF-8 length of the entry's JSON
    line, and the clock reading and file name a rotation would use. Entries
    are kept as the event, level and session label they carry; their JSON
    text is not modelled. */
module Logging {
  import opened Common
  import Sorting

  datatype Level = Debug | Info | Warning | Error | Critical {
    function Value(): string {
      match this
      case Debug => "debug"
      case Info => "info"
      case Warning => "warning"
      case Error => "error"
      case Critical => "critical"
    }
  }

  /** the thirteen members of `EventType`; there is no `ERROR` among them */
  datatype Event =
    | SessionStart | SessionEnd | TaskStart | TaskComplete | DecisionMade
    | ErrorOccurred | ProgressUpdate | ContextChange | WorkflowChange
    | QualityGate | PerformanceMetric | UserInteraction | AiResponse
  {
    function Value(): string {
      match this
      case SessionStart => "session_start"
      case SessionEnd => "session_end"
      case TaskStart => "task_start"
      case TaskComplete => "task_complete"
      case DecisionMade => "decision_made"
      case ErrorOccurred => "error_occurred"
      case ProgressUpdate => "progress_update"
      case ContextChange => "context_change"
      case WorkflowChange => "workflow_change"
      case QualityGate => "quality_gate"
      case PerformanceMetric => "performance_metric"
      case UserInteraction => "user_interaction"
      case AiResponse => "ai_response"
    }
  }

  // ------------------------------------------------------------- storage

  /** a `claude_log_*.jsonl` file in the log directory and its mtime */
  datatype LogFile = LogFile(name: string, mtime: int)

  /** `LogStorage`: whether `current_file` is open and its name, the bytes
      written to it, the two limits, and the log files on disk */
  datatype Storage = Storage(open: bool, current: string, size: nat, maxSize: nat, maxFiles: nat, files: seq<LogFile>)

  /** what one `write_entry` takes from the outside world */
  datatype Write = Write(bytes: nat, now: int, stamp: string)

  const MiB: nat := 1024 * 1024
  const DefaultMaxMegabytes: nat := 10
  const DefaultMaxFiles: nat := 50

  /** `claude_log_{timestamp}.jsonl` */
  function LogFileName(stamp: string): string {
    "claude_log_" + stamp + ".jsonl"
  }

  /** the files not named `name` */
  function Others(files: seq<LogFile>, name: string): (r: seq<LogFile>)
    ensures forall f :: f in r <==> f in files && f.name != name
    ensures |r| <= |files|
  {
    if files == [] then []
    else (if files[0].name == name then [] else [files[0]]) + Others(files[1..], name)
  }

  /** `open(filepath, 'w')`: the file exists afterwards, written now,
      whether or not one of that name was there before */
  function Opened(files: seq<LogFile>, name: string, now: int): (r: seq<LogFile>)
    ensures forall f :: f in r <==> f == LogFile(name, now) || (f in files && f.name != name)
  {
    Others(files, name) + [LogFile(name, now)]
  }

  /** the files newest first: `sort(key=st_mtime, reverse=True)`, which is
      stable, so it is the ascending stable sort on the negated time */
  function Newest(files: seq<LogFile>): (r: seq<LogFile>)
    ensures multiset(r) == multiset(files)
    ensures forall i, j :: 0 <= i < j < |r| ==> r[j].mtime <= r[i].mtime
  {
    var r := Sorting.SortByKey(files, (f: LogFile) => -f.mtime);
    assert forall i, j :: 0 <= i < j < |r| ==> -r[i].mtime <= -r[j].mtime;
    r
  }

  /** the files `_cleanup_old_files` leaves: `all_files[max_files:]` are
      unlinked */
  function Retain(files: seq<LogFile>, maxFiles: nat): (r: seq<LogFile>)
    ensures |r| == Min(maxFiles, |files|)
    ensures multiset(r) <= multiset(files)
  {
    var s := Newest(files);
    assert s == Take(s, maxFiles) + s[|Take(s, maxFiles)|..];
    Take(s, maxFiles)
  }

  /** what is left of a sequence after its first `k` is its tail */
  lemma RemovingPrefixLeavesTail(s: seq<LogFile>, k: nat)
    requires k <= |s|
    ensures multiset(s) - multiset(s[..k]) == multiset(s[k..])
  {
    assert s == s[..k] + s[k..];
  }

  /** in a newest-first sequence nothing after position `k` is newer than
      anything before it */
  lemma TailIsOlder(s: seq<LogFile>, k: nat, kept: LogFile, dropped: LogFile)
    requires forall i, j :: 0 <= i < j < |s| ==> s[j].mtime <= s[i].mtime
    requires k <= |s| && kept in s[..k] && dropped in multiset(s[k..])
    ensures dropped.mtime <= kept.mtime
  {
    var j :| 0 <= j < |s[k..]| && s[k..][j] == dropped;
    var i :| 0 <= i < k && s[..k][i] == kept;
    assert s[i] == kept && s[k + j] == dropped;
  }

  /** Retention removes no file that is newer than one it keeps. */
  lemma RetainKeepsNewest(files: seq<LogFile>, maxFiles: nat, kept: LogFile, dropped: LogFile)
    requires kept in Retain(files, maxFiles)
    requires dropped in multiset(files) - multiset(Retain(files, maxFiles))
    ensures dropped.mtime <= kept.mtime
  {
    var s := Newest(files);
    var k := |Retain(files, maxFiles)|;
    assert Retain(files, maxFiles) == s[..k];
    RemovingPrefixLeavesTail(s, k);
    TailIsOlder(s, k, kept, dropped);
  }

  /** With no more files than the limit, retention removes none. */
  lemma RetainAllWhenFew(files: seq<LogFile>, maxFiles: nat)
    requires |files| <= maxFiles
    ensures multiset(Retain(files, maxFiles)) == multiset(files)
  {
    var s := Newest(files);
    assert Take(s, maxFiles) == s[..|s|] == s;
  }

  predicate NeedsRotation(st: Storage) {
    !st.open || st.size >= st.maxSize
  }

  /** `_rotate_if_needed`: a new file is opened, counted from zero, and the
      directory is cleaned, exactly when there is no open file or the open
      one has reached the size limit. Compression is not modelled. */
  function Rotate(st: Storage, w: Write): (r: Storage)
    ensures !NeedsRotation(st) ==> r == st
    ensures NeedsRotation(st) ==>
              && r.open && r.size == 0 && r.current == LogFileName(w.stamp)
              && r.maxSize == st.maxSize && r.maxFiles == st.maxFiles
              && |r.files| <= st.maxFiles
              && multiset(r.files) <= multiset(Opened(st.files, LogFileName(w.stamp), w.now))
    ensures NeedsRotation(st) ==> r.files == Retain(Opened(st.files, LogFileName(w.stamp), w.now), st.maxFiles)
  {
    if NeedsRotation(st) then
      var name := LogFileName(w.stamp);
      Storage(true, name, 0, st.maxSize, st.maxFiles, Retain(Opened(st.files, name, w.now), st.maxFiles))
    else st
  }

  /** `LogStorage(log_dir, max_file_size_mb, max_files)`: the constructor
      rotates once, so the storage starts with an empty open file */
  function NewStorage(maxMegabytes: nat, maxFiles: nat, existing: seq<LogFile>, w: Write): (r: Storage)
    ensures r.open && r.size == 0 && r.maxSize == maxMegabytes * MiB && r.maxFiles == maxFiles
  {
    Rotate(Storage(false, "", 0, maxMegabytes * MiB, maxFiles, existing), w)
  }

  /** `write_entry`: rotate if needed, then the line's bytes count against
      the file they were written to */
  function WriteEntry(st: Storage, w: Write): (r: Storage)
    ensures r.open
    ensures NeedsRotation(st) ==> r.size == w.bytes && r.current == LogFileName(w.stamp)
    ensures !NeedsRotation(st) ==> r.size == st.size + w.bytes && r.current == st.current && r.files == st.files
    ensures r.maxSize == st.maxSize && r.maxFiles == st.maxFiles
  {
    var s := Rotate(st, w);
    s.(size := s.size + w.bytes)
  }

  /** `close`: the next write opens a new file */
  function Close(st: Storage): (r: Storage)
    ensures NeedsRotation(r)
    ensures r.files == st.files
  {
    st.(open := false)
  }

  /** A file never holds more than the limit plus the line that crossed
      it: a write leaves fewer than `maxSize + bytes` bytes in the file
      (with a zero limit every write rotates, leaving the line alone). */
  lemma FileSizeBound(st: Storage, w: Write)
    ensures st.maxSize > 0 ==> WriteEntry(st, w).size < st.maxSize + w.bytes
    ensures st.maxSize == 0 ==> WriteEntry(st, w).size == w.bytes
  {
  }

  // ------------------------------------------------------------- the logger

  /** what one entry records of its call */
  datatype Entry = Entry(event: Event, level: Level, session: string)

  /** `ClaudeLogger`: `current_session_id`, the `stats` counters, the
      storage as it was created together with the writes made to it since,
      and the entries written so far */
  datatype Logger = Logger(session: Option<string>, stats: map<string, nat>, created: Storage, writes: seq<Write>, entries: seq<Entry>)
  {
    /** the storage as the writes have left it */
    function Storage(): Storage {
      Replay(created, writes)
    }
  }

  /** the storage after a run of `write_entry` calls */
  function Replay(st: Storage, writes: seq<Write>): Storage
    decreases |writes|
  {
    if writes == [] then st else WriteEntry(Replay(st, writes[..|writes| - 1]), writes[|writes| - 1])
  }

  /** `self.current_session_id` is truthy */
  predicate Active(session: Option<string>) {
    session.Some? && session.value != []
  }

  /** `self.current_session_id or "no_session"` */
  function SessionLabel(session: Option<string>): (r: string)
    ensures Active(session) ==> r == session.value
    ensures !Active(session) ==> r == "no_session"
  {
    if Active(session) then session.value else "no_session"
  }

  /** a `defaultdict(int)` lookup */
  function Tally(stats: map<string, nat>, key: string): nat {
    if key in stats then stats[key] else 0
  }

  function Bump(stats: map<string, nat>, key: string): (r: map<string, nat>)
    ensures Tally(r, key) == Tally(stats, key) + 1
    ensures forall k :: k != key ==> Tally(r, k) == Tally(stats, k)
  {
    stats[key := Tally(stats, key) + 1]
  }

  function EventKey(e: Event): string { "events_" + e.Value() }
  function LevelKey(l: Level): string { "level_" + l.Value() }

  lemma KeysDiffer(e: Event, l: Level)
    ensures EventKey(e) != LevelKey(l)
  {
    assert EventKey(e)[0] == 'e' && LevelKey(l)[0] == 'l';
  }

  /** `ClaudeLogger.log`: the entry is stored under the current session's
      label, and the counters for its event type and its level each go up
      by one while every other counter stays */
  function Log(lg: Logger, e: Event, l: Level, w: Write): (r: Logger)
    ensures r.session == lg.session
    ensures r.created == lg.created && r.writes == lg.writes + [w]
    ensures r.entries == lg.entries + [Entry(e, l, SessionLabel(lg.session))]
    ensures Tally(r.stats, EventKey(e)) == Tally(lg.stats, EventKey(e)) + 1
    ensures Tally(r.stats, LevelKey(l)) == Tally(lg.stats, LevelKey(l)) + 1
    ensures forall k :: k != EventKey(e) && k != LevelKey(l) ==> Tally(r.stats, k) == Tally(lg.stats, k)
  {
    KeysDiffer(e, l);
    Logger(lg.session, Bump(Bump(lg.stats, EventKey(e)), LevelKey(l)), lg.created, lg.writes + [w],
           lg.entries + [Entry(e, l, SessionLabel(lg.session))])
  }

  /** Every `log` call writes its entry through `write_entry`. */
  lemma LogWritesEntry(lg: Logger, e: Event, l: Level, w: Write)
    ensures Log(lg, e, l, w).Storage() == WriteEntry(lg.Storage(), w)
  {
    assert (lg.writes + [w])[..|lg.writes|] == lg.writes;
  }

  /** a run of `log` calls */
  function LogAll(lg: Logger, calls: seq<(Event, Level, Write)>): Logger
    decreases |calls|
  {
    if calls == [] then lg else LogAll(Log(lg, calls[0].0, calls[0].1, calls[0].2), calls[1..])
  }

  /** the number of calls whose counter is `key` */
  function CallsCounted(calls: seq<(Event, Level, Write)>, key: string): nat {
    if calls == [] then 0
    else (if EventKey(calls[0].0) == key then 1 else 0)
           + (if LevelKey(calls[0].1) == key then 1 else 0)
           + CallsCounted(calls[1..], key)
  }

  /** After any run of calls, each counter has grown by the number of calls
      of its event type or level: `stats` counts the calls and nothing
      else. */
  lemma {:induction false} StatsCountCalls(lg: Logger, calls: seq<(Event, Level, Write)>, key: string)
    ensures Tally(LogAll(lg, calls).stats, key) == Tally(lg.stats, key) + CallsCounted(calls, key)
    decreases |calls|
  {
    if calls != [] {
      var next := Log(lg, calls[0].0, calls[0].1, calls[0].2);
      KeysDiffer(calls[0].0, calls[0].1);
      StatsCountCalls(next, calls[1..], key);
    }
  }

  // ------------------------------------------------------------ the suite

  /** a `task_data` dictionary */
  datatype Task = Task(name: string, kind: string, estimate: Option<int>, start: int)

  /** a `completion_data` dictionary: the task's data with the outcome */
  datatype Completion = Completion(task: Task, success: bool, duration: int)

  /** one entry of `session_data` */
  datatype Session = Session(objective: string, planned: seq<Task>, completed: seq<Completion>, decisions: seq<string>)

  /** a `decision_data` dictionary */
  datatype Decision = Decision(id: string, decision: string, rationale: string, impact: string)

  /** the logger with the state of the tracker (`session_data`,
      `task_stack`), the decision logger (`decisions`) and the performance
      tracker (`metrics`) that share it */
  datatype Suite = Suite(
    logger: Logger,
    sessions: map<string, Session>,
    stack: seq<(string, Task)>,
    decisions: seq<Decision>,
    metrics: map<string, seq<real>>)

  datatype Exception = ValueError | KeyError | AttributeError

  /** a call that returns a value or raises */
  datatype Outcome<T> = Returned(value: T) | Raised(error: Exception)

  /** a `log` call through the shared logger: nothing else changes */
  function LogIn(s: Suite, e: Event, l: Level, w: Write): (r: Suite)
    ensures r.sessions == s.sessions && r.stack == s.stack && r.decisions == s.decisions && r.metrics == s.metrics
    ensures r.logger.session == s.logger.session
    ensures r.logger.entries == s.logger.entries + [Entry(e, l, SessionLabel(s.logger.session))]
  {
    s.(logger := Log(s.logger, e, l, w))
  }

  /** `start_session` with the fresh id `id`: the session becomes current,
      with no tasks, and a SESSION_START entry is written under it */
  function StartSession(s: Suite, id: string, objective: string, w: Write): (r: Suite)
    ensures r.logger.session == Some(id)
    ensures r.sessions == s.sessions[id := Session(objective, [], [], [])]
    ensures r.stack == s.stack && r.decisions == s.decisions
    ensures r.logger.entries == s.logger.entries + [Entry(SessionStart, Info, SessionLabel(Some(id)))]
  {
    var started := s.(logger := s.logger.(session := Some(id)),
                      sessions := s.sessions[id := Session(objective, [], [], [])]);
    LogIn(started, SessionStart, Info, w)
  }

  /** what `end_session` returns beyond the session's own data */
  datatype Summary = Summary(success: bool, planned: nat, completed: nat, decisions: nat)

  /** `end_session`: without a current session it raises `ValueError`; a
      current id without session data (set through another tracker on the
      same logger) raises `KeyError`; otherwise it reports the counts,
      writes SESSION_END under the session and clears the current id */
  function EndSession(s: Suite, success: bool, w: Write): (r: Outcome<(Summary, Suite)>)
    ensures !Active(s.logger.session) <==> r == Raised(ValueError)
    ensures Active(s.logger.session) && s.logger.session.value !in s.sessions <==> r == Raised(KeyError)
    ensures r.Returned? ==>
              var data := s.sessions[s.logger.session.value];
              && r.value.0 == Summary(success, |data.planned|, |data.completed|, |data.decisions|)
              && r.value.1.logger.session == None
              && r.value.1.sessions == s.sessions && r.value.1.stack == s.stack
              && r.value.1.logger.entries == s.logger.entries + [Entry(SessionEnd, Info, s.logger.session.value)]
  {
    if !Active(s.logger.session) then Raised(ValueError)
    else
      var id := s.logger.session.value;
      if id !in s.sessions then Raised(KeyError)
      else
        var data := s.sessions[id];
        var logged := LogIn(s, SessionEnd, Info, w);
        Returned((Summary(success, |data.planned|, |data.completed|, |data.decisions|),
                  logged.(logger := logged.logger.(session := None))))
  }

  /** `start_task` with the fresh id `id`: the task goes on top of the
      stack and, in a session, onto its planned tasks; a current id with no
      session data raises `KeyError` */
  function StartTask(s: Suite, id: string, task: Task, w: Write): (r: Outcome<Suite>)
    ensures r.Raised? <==> Active(s.logger.session) && s.logger.session.value !in s.sessions
    ensures r.Raised? ==> r.error == KeyError
    ensures r.Returned? ==>
              && r.value.stack == s.stack + [(id, task)]
              && r.value.logger.session == s.logger.session
              && r.value.decisions == s.decisions && r.value.metrics == s.metrics
              && r.value.logger.entries == s.logger.entries + [Entry(TaskStart, Info, SessionLabel(s.logger.session))]
    ensures r.Returned? && Active(s.logger.session) ==>
              var sid := s.logger.session.value;
              sid in s.sessions &&
              r.value.sessions == s.sessions[sid := s.sessions[sid].(planned := s.sessions[sid].planned + [task])]
    ensures !Active(s.logger.session) ==> r.Returned? && r.value.sessions == s.sessions
  {
    var pushed := s.(stack := s.stack + [(id, task)]);
    if !Active(s.logger.session) then Returned(LogIn(pushed, TaskStart, Info, w))
    else
      var sid := s.logger.session.value;
      if sid !in s.sessions then Raised(KeyError)
      else
        var planned := pushed.(sessions := s.sessions[sid := s.sessions[sid].(planned := s.sessions[sid].planned + [task])]);
        Returned(LogIn(planned, TaskStart, Info, w))
  }

  /** the first index whose id is `id`, as the `for ... break` loops find it */
  function FirstWith<T>(s: seq<T>, id: string, key: T -> string): (r: Option<nat>)
    ensures r.Some? ==> r.value < |s| && key(s[r.value]) == id
    ensures r.Some? ==> forall k :: 0 <= k < r.value ==> key(s[k]) != id
    ensures r.None? <==> forall k :: 0 <= k < |s| ==> key(s[k]) != id
  {
    if s == [] then None
    else if key(s[0]) == id then Some(0)
    else
      match FirstWith(s[1..], id, key)
      case None => None
      case Some(i) => Some(i + 1)
  }

  function StackId(p: (string, Task)): string { p.0 }
  function DecisionId(d: Decision): string { d.id }

  /** `session_data[sid]["tasks_completed"].append(done)` */
  function FileCompletion(sessions: map<string, Session>, sid: string, done: Completion): (r: map<string, Session>)
    requires sid in sessions
    ensures sid in r && r[sid].completed == sessions[sid].completed + [done]
    ensures r[sid].planned == sessions[sid].planned && r[sid].decisions == sessions[sid].decisions
    ensures forall k :: k in sessions && k != sid ==> k in r && r[k] == sessions[k]
    ensures r.Keys == sessions.Keys
  {
    sessions[sid := sessions[sid].(completed := sessions[sid].completed + [done])]
  }

  /** the found task leaves the stack, goes onto the session's completed
      tasks, and TASK_COMPLETE is written; a current id with no session
      data raises `KeyError` */
  function Completed(s: Suite, i: nat, success: bool, now: int, w: Write): (r: Outcome<Suite>)
    requires i < |s.stack|
    ensures r.Raised? <==> Active(s.logger.session) && s.logger.session.value !in s.sessions
    ensures r.Raised? ==> r.error == KeyError
    ensures r.Returned? ==>
              && r.value.stack == s.stack[..i] + s.stack[i + 1..]
              && r.value.logger.session == s.logger.session
              && r.value.decisions == s.decisions && r.value.metrics == s.metrics
              && r.value.logger.entries == s.logger.entries + [Entry(TaskComplete, Info, SessionLabel(s.logger.session))]
    ensures r.Returned? && Active(s.logger.session) ==>
              var sid := s.logger.session.value;
              sid in s.sessions &&
              r.value.sessions == FileCompletion(s.sessions, sid, Completion(s.stack[i].1, success, now - s.stack[i].1.start))
    ensures !Active(s.logger.session) ==> r.Returned? && r.value.sessions == s.sessions
  {
    var task := s.stack[i].1;
    var done := Completion(task, success, now - task.start);
    var popped := s.(stack := s.stack[..i] + s.stack[i + 1..]);
    if !Active(s.logger.session) then Returned(LogIn(popped, TaskComplete, Info, w))
    else
      var sid := s.logger.session.value;
      if sid !in s.sessions then Raised(KeyError)
      else
        var sessions := FileCompletion(s.sessions, sid, done);
        var filed := popped.(sessions := sessions);
        var r := LogIn(filed, TaskComplete, Info, w);
        assert r.sessions == sessions;
        Returned(r)
  }

  /** `complete_task` as written: an unknown id reaches
      `EventType.ERROR`, which is no member of the enumeration, so the call
      raises `AttributeError` before anything is logged */
  function CompleteTaskAsWritten(s: Suite, id: string, success: bool, now: int, w: Write): (r: Outcome<Suite>)
    ensures (forall k :: 0 <= k < |s.stack| ==> s.stack[k].0 != id) <==> r == Raised(AttributeError)
  {
    match FirstWith(s.stack, id, StackId)
    case None => Raised(AttributeError)
    case Some(i) => Completed(s, i, success, now, w)
  }

  /** `complete_task` as evidently intended: an unknown id is logged as
      ERROR_OCCURRED (at the default level) and the call returns with the
      stack and the sessions as they were */
  function CompleteTask(s: Suite, id: string, success: bool, now: int, w: Write): (r: Outcome<Suite>)
    ensures (forall k :: 0 <= k < |s.stack| ==> s.stack[k].0 != id) ==>
              && r.Returned? && r.value.stack == s.stack && r.value.sessions == s.sessions
              && r.value.logger.entries == s.logger.entries + [Entry(ErrorOccurred, Info, SessionLabel(s.logger.session))]
    ensures (exists k :: 0 <= k < |s.stack| && s.stack[k].0 == id) && r.Returned? ==>
              && |r.value.stack| == |s.stack| - 1
              && r.value.logger.entries == s.logger.entries + [Entry(TaskComplete, Info, SessionLabel(s.logger.session))]
    ensures r.Raised? ==> r.error == KeyError
  {
    match FirstWith(s.stack, id, StackId)
    case None => Returned(LogIn(s, ErrorOccurred, Info, w))
    case Some(i) => Completed(s, i, success, now, w)
  }

  /** The two versions agree wherever the written one does not raise
      `AttributeError`; there the corrected one returns. */
  lemma CompleteTaskAgrees(s: Suite, id: string, success: bool, now: int, w: Write)
    ensures CompleteTaskAsWritten(s, id, success, now, w) != Raised(AttributeError) ==>
              CompleteTaskAsWritten(s, id, success, now, w) == CompleteTask(s, id, success, now, w)
    ensures CompleteTaskAsWritten(s, id, success, now, w) == Raised(AttributeError) ==>
              CompleteTask(s, id, success, now, w).Returned?
  {
  }

  /** On an empty stack every id is unknown: `complete_task` raises, while
      the intended behaviour logs the miss and leaves the stack empty. */
  lemma UnknownTaskRaises(s: Suite, id: string, success: bool, now: int, w: Write)
    requires s.stack == []
    ensures CompleteTaskAsWritten(s, id, success, now, w) == Raised(AttributeError)
    ensures CompleteTask(s, id, success, now, w) != Raised(AttributeError)
    ensures CompleteTask(s, id, success, now, w).Returned? && CompleteTask(s, id, success, now, w).value.stack == []
  {
  }

  /** a task whose id is only on top of the stack is the one completed */
  lemma CompletesTop(t: Suite, id: string, success: bool, now: int, w: Write)
    requires t.stack != [] && t.stack[|t.stack| - 1].0 == id
    requires forall k :: 0 <= k < |t.stack| - 1 ==> t.stack[k].0 != id
    ensures CompleteTaskAsWritten(t, id, success, now, w) == Completed(t, |t.stack| - 1, success, now, w)
  {
    assert FirstWith(t.stack, id, StackId) == Some(|t.stack| - 1);
  }

  /** Starting a task with an id not on the stack and completing it at once
      gives the stack back as it was, and files the task as planned and as
      completed in the current session. */
  lemma StartThenComplete(s: Suite, id: string, task: Task, success: bool, now: int, w1: Write, w2: Write)
    requires forall k :: 0 <= k < |s.stack| ==> s.stack[k].0 != id
    requires Active(s.logger.session) ==> s.logger.session.value in s.sessions
    ensures StartTask(s, id, task, w1).Returned?
    ensures var c := CompleteTaskAsWritten(StartTask(s, id, task, w1).value, id, success, now, w2);
            && c.Returned?
            && c.value.stack == s.stack
            && (Active(s.logger.session) ==>
                  var sid := s.logger.session.value;
                  && c.value.sessions[sid].planned == s.sessions[sid].planned + [task]
                  && c.value.sessions[sid].completed == s.sessions[sid].completed + [Completion(task, success, now - task.start)])
  {
    var t := StartTask(s, id, task, w1).value;
    var n := |s.stack|;
    assert t.stack[n] == (id, task);
    CompletesTop(t, id, success, now, w2);
    var c := Completed(t, n, success, now, w2);
    assert t.stack[..n] + t.stack[n + 1..] == s.stack;
    if Active(s.logger.session) {
      var sid := s.logger.session.value;
      assert t.sessions[sid].planned == s.sessions[sid].planned + [task];
      assert c.value.sessions == FileCompletion(t.sessions, sid, Completion(task, success, now - task.start));
    }
  }

  /** `log_decision` with the fresh id `id`: the decision is kept and
      DECISION_MADE written; no session's decisions change */
  function LogDecision(s: Suite, id: string, decision: string, rationale: string, impact: string, w: Write): (r: (string, Suite))
    ensures r.0 == id
    ensures r.1.decisions == s.decisions + [Decision(id, decision, rationale, impact)]
    ensures r.1.sessions == s.sessions && r.1.stack == s.stack
    ensures r.1.logger.entries == s.logger.entries + [Entry(DecisionMade, Info, SessionLabel(s.logger.session))]
  {
    (id, LogIn(s.(decisions := s.decisions + [Decision(id, decision, rationale, impact)]), DecisionMade, Info, w))
  }

  const RevisionPrefix := "Revision of previous decision: "

  /** the found decision is revised: one DECISION_MADE entry for the
      revision, then `log_decision` of the new one with the old impact */
  function Revised(s: Suite, i: nat, newId: string, decision: string, rationale: string, w1: Write, w2: Write): (r: (string, Suite))
    requires i < |s.decisions|
    ensures r.0 == newId
    ensures r.1.decisions == s.decisions + [Decision(newId, decision, RevisionPrefix + rationale, s.decisions[i].impact)]
    ensures r.1.logger.entries == s.logger.entries + [Entry(DecisionMade, Info, SessionLabel(s.logger.session)),
                                                      Entry(DecisionMade, Info, SessionLabel(s.logger.session))]
    ensures r.1.sessions == s.sessions
  {
    var noted := LogIn(s, DecisionMade, Info, w1);
    LogDecision(noted, newId, decision, RevisionPrefix + rationale, s.decisions[i].impact, w2)
  }

  /** `revise_decision` as written: an unknown id raises `AttributeError`
      through `EventType.ERROR`, just as in `complete_task` */
  function ReviseDecisionAsWritten(s: Suite, id: string, newId: string, decision: string, rationale: string, w1: Write, w2: Write): (r: Outcome<(string, Suite)>)
    ensures r.Raised? <==> forall k :: 0 <= k < |s.decisions| ==> s.decisions[k].id != id
    ensures r.Raised? ==> r.error == AttributeError
    ensures r.Returned? ==> r.value.0 == newId
  {
    match FirstWith(s.decisions, id, DecisionId)
    case None => Raised(AttributeError)
    case Some(i) => Returned(Revised(s, i, newId, decision, rationale, w1, w2))
  }

  /** `revise_decision` as evidently intended: an unknown id is logged as
      ERROR_OCCURRED and the id given is returned */
  function ReviseDecision(s: Suite, id: string, newId: string, decision: string, rationale: string, w1: Write, w2: Write): (r: (string, Suite))
    ensures (forall k :: 0 <= k < |s.decisions| ==> s.decisions[k].id != id) ==>
              && r.0 == id && r.1.decisions == s.decisions
              && r.1.logger.entries == s.logger.entries + [Entry(ErrorOccurred, Info, SessionLabel(s.logger.session))]
    ensures (exists k :: 0 <= k < |s.decisions| && s.decisions[k].id == id) ==>
              && r.0 == newId && |r.1.decisions| == |s.decisions| + 1
  {
    match FirstWith(s.decisions, id, DecisionId)
    case None => (id, LogIn(s, ErrorOccurred, Info, w1))
    case Some(i) => Revised(s, i, newId, decision, rationale, w1, w2)
  }

  /** The revision keeps the original's impact, whichever occurrence of a
      repeated id comes first. */
  lemma RevisionKeepsImpact(s: Suite, i: nat, newId: string, decision: string, rationale: string, w1: Write, w2: Write)
    requires i < |s.decisions|
    requires forall k :: 0 <= k < i ==> s.decisions[k].id != s.decisions[i].id
    ensures var r := ReviseDecisionAsWritten(s, s.decisions[i].id, newId, decision, rationale, w1, w2);
            && r.Returned?
            && r.value.1.decisions[|s.decisions|].impact == s.decisions[i].impact
  {
    assert FirstWith(s.decisions, s.decisions[i].id, DecisionId) == Some(i);
  }

  /** `thresholds` of `PerformanceTracker` */
  const Thresholds: map<string, real> := map["response_time_ms" := 5000.0, "memory_usage_mb" := 1024.0, "error_rate_percent" := 5.0]

  /** `record_metric`: the value is kept under its name, and one
      PERFORMANCE_METRIC entry is written, at WARNING exactly when the
      metric has a threshold and the value is above it */
  function RecordMetric(s: Suite, name: string, value: real, w: Write): (r: Suite)
    ensures name in r.metrics
    ensures r.metrics[name] == (if name in s.metrics then s.metrics[name] else []) + [value]
    ensures forall n :: n in s.metrics && n != name ==> n in r.metrics && r.metrics[n] == s.metrics[n]
    ensures |r.logger.entries| == |s.logger.entries| + 1 && r.logger.entries[..|s.logger.entries|] == s.logger.entries
    ensures r.logger.entries[|s.logger.entries|].event == PerformanceMetric
    ensures r.logger.entries[|s.logger.entries|].level == Warning <==> name in Thresholds && value > Thresholds[name]
    ensures r.logger.entries[|s.logger.entries|].level == Info <==> !(name in Thresholds && value > Thresholds[name])
    ensures r.sessions == s.sessions && r.stack == s.stack && r.decisions == s.decisions
  {
    var kept := s.(metrics := s.metrics[name := (if name in s.metrics then s.metrics[name] else []) + [value]]);
    var level := if name in Thresholds && value > Thresholds[name] then Warning else Info;
    var r := LogIn(kept, PerformanceMetric, level, w);
    assert r.logger.entries[..|s.logger.entries|] == s.logger.entries;
    r
  }

  /** The limit itself is still quiet: a tracked metric warns only strictly
      above its threshold, an untracked metric never warns, and a value
      that warns keeps warning when it grows. */
  lemma ThresholdIsStrict(s: Suite, name: string, value: real, larger: real, w: Write)
    requires value <= larger
    ensures var level := RecordMetric(s, name, value, w).logger.entries[|s.logger.entries|].level;
            && (name in Thresholds && value == Thresholds[name] ==> level == Info)
            && (name in Thresholds && value > Thresholds[name] ==> level == Warning)
            && (name !in Thresholds ==> level == Info)
            && (level == Warning ==>
                  RecordMetric(s, name, larger, w).logger.entries[|s.logger.entries|].level == Warning)
  {
  }

  // -------------------------------------------------------- the invariant

  /** what the tracker's own calls keep: a current session has data, and
      no session ever records a decision */
  ghost predicate Consistent(s: Suite) {
    && (Active(s.logger.session) ==> s.logger.session.value in s.sessions)
    && (forall id :: id in s.sessions ==> s.sessions[id].decisions == [])
  }

  /** Starting or ending a session keeps the suite consistent. */
  lemma SessionsKeepConsistent(s: Suite, id: string, objective: string, success: bool, w: Write)
    requires Consistent(s)
    ensures Consistent(StartSession(s, id, objective, w))
    ensures EndSession(s, success, w).Returned? ==> Consistent(EndSession(s, success, w).value.1)
  {
  }

  /** In a consistent suite, starting and completing tasks never raise
      `KeyError` and keep it consistent. */
  lemma TasksKeepConsistent(s: Suite, id: string, task: Task, success: bool, now: int, w: Write)
    requires Consistent(s)
    ensures StartTask(s, id, task, w).Returned? && Consistent(StartTask(s, id, task, w).value)
    ensures CompleteTaskAsWritten(s, id, success, now, w) != Raised(KeyError)
    ensures CompleteTaskAsWritten(s, id, success, now, w).Returned? ==> Consistent(CompleteTaskAsWritten(s, id, success, now, w).value)
    ensures CompleteTask(s, id, success, now, w).Returned? && Consistent(CompleteTask(s, id, success, now, w).value)
  {
  }

  /** Decisions and metrics leave the sessions alone, so they keep the
      suite consistent. */
  lemma DecisionsKeepConsistent(s: Suite, id: string, newId: string, text: string, name: string, value: real, w1: Write, w2: Write)
    requires Consistent(s)
    ensures Consistent(LogDecision(s, id, text, text, text, w1).1)
    ensures Consistent(ReviseDecision(s, id, newId, text, text, w1, w2).1)
    ensures Consistent(RecordMetric(s, name, value, w1))
  {
  }

  /** In a consistent suite, `end_session` never fails on missing data, and
      the decisions it reports are always zero: `log_decision` never
      records into the session. */
  lemma DecisionsMadeAlwaysZero(s: Suite, success: bool, w: Write)
    requires Consistent(s)
    ensures EndSession(s, success, w) != Raised(KeyError)
    ensures EndSession(s, success, w).Returned? ==> EndSession(s, success, w).value.0.decisions == 0
  {
  }

  /** Starting a session and ending it straight away reports no tasks and
      leaves no current session. */
  lemma StartThenEnd(s: Suite, id: string, objective: string, success: bool, w1: Write, w2: Write)
    requires id != []
    ensures var e := EndSession(StartSession(s, id, objective, w1), success, w2);
            && e.Returned?
            && e.value.0 == Summary(success, 0, 0, 0)
            && e.value.1.logger.session == None
  {
  }
}

=== FILE: manual.dfy ===
/** The manual side of the progress manager (resume_progress.py): loading
    and saving PROGRESS_STATE.json, the `/checkpoint_save` command, the
    file-name slug, and resuming a named task. */
module ProgressManager {
  import opened Common
  import opened Progress
  import opened Store

  /** The clock readings one command takes: `now` is the new file's mtime,
      `isoTime` the UTC ISO time the checkpoint is stamped with (and the
      default state's creation time), `stamp` the local `%Y%m%d_%H%M` time,
      and `savedAt` the later ISO time `save_progress_state` writes. */
  datatype Moment = Moment(now: int, isoTime: string, stamp: string, savedAt: string)

  /** how the two writes end: the checkpoint file, then the state file */
  datatype WriteFaults = WriteFaults(checkpointWrite: WriteEnd, stateWrite: WriteEnd)

  // ------------------------------------------------------------ load / save

  /** `load_progress_state`: the stored record, or the default state when
      the file is missing or does not parse. */
  function LoadProgressState(w: World, m: Moment): (r: ProgressRecord)
    ensures (w.state.Some? && w.state.value.Parsed?) ==> r == w.state.value.record
    ensures (w.state.None? || w.state.value.Malformed?) ==> r == DefaultState(m.isoTime, m.stamp)
  {
    match w.state
    case Some(Parsed(rec)) => rec
    case _ => DefaultState(m.isoTime, m.stamp)
  }

  /** the record with `metadata.last_updated` set to `at` */
  function Stamped(s: ProgressRecord, at: string): (r: ProgressRecord)
    requires s.metadata.Some?
    ensures r.metadata.Some? && r.metadata.value.lastUpdated == Some(at)
  {
    s.(metadata := Some(s.metadata.value.(lastUpdated := Some(at))))
  }

  /** `save_progress_state`: stamps `last_updated` and writes the file.  A
      record without `metadata` raises a `KeyError` before anything is
      written; that, like a failed write, is reported as `false`.  A write
      that fails inside `json.dump` has already emptied the file. */
  function SaveProgressState(w: World, s: ProgressRecord, at: string, write: WriteEnd): (r: (bool, World))
    ensures r.0 <==> s.metadata.Some? && write.Written?
    ensures s.metadata.None? || write.OpenRaised? ==> r.1 == w
    ensures s.metadata.Some? && write.DumpRaised? ==> r.1 == w.(state := Some(Malformed(write.partial)))
    ensures r.0 ==> r.1 == w.(state := Some(Parsed(Stamped(s, at))))
  {
    if s.metadata.None? then (false, w)
    else (write.Written?, w.(state := StateAfter(write, w.state, Stamped(s, at))))
  }

  /** A save that fails inside `json.dump` loses the whole progress record:
      the next load starts again from the default state. */
  lemma TruncatedSaveLoadsDefault(w: World, s: ProgressRecord, at: string, partial: string, m: Moment)
    requires s.metadata.Some?
    ensures var r := SaveProgressState(w, s, at, DumpRaised(partial));
            !r.0 && LoadProgressState(r.1, m) == DefaultState(m.isoTime, m.stamp)
  {
  }

  /** A successful save is read back by the next load, stamp included, and
      the stamp is the only field that changes. */
  lemma SaveThenLoad(w: World, s: ProgressRecord, at: string, m: Moment)
    requires SaveProgressState(w, s, at, Written).0
    ensures var loaded := LoadProgressState(SaveProgressState(w, s, at, Written).1, m);
      && loaded.metadata.Some? && loaded.metadata.value.lastUpdated == Some(at)
      && loaded.metadata.value.(lastUpdated := s.metadata.value.lastUpdated) == s.metadata.value
      && loaded.(metadata := s.metadata) == s
  {
  }

  // ------------------------------------------------------------------- slugs

  /** characters `[^\w\s-]` does not remove */
  predicate SlugInput(c: char) {
    IsWordChar(c) || IsWhitespace(c) || c == '-'
  }

  /** characters a run of `[\s_-]+` is made of */
  predicate IsSeparator(c: char) {
    IsWhitespace(c) || c == '_' || c == '-'
  }

  /** characters a slug is made of */
  predicate SlugChar(c: char) {
    IsLower(c) || IsDigit(c) || c == '-'
  }

  /** no two adjacent dashes */
  predicate NoDoubleDash(s: string) {
    |s| < 2 || (!(s[0] == '-' && s[1] == '-') && NoDoubleDash(s[1..]))
  }

  /** a character of the text once lower-cased: what `_slugify` collapses */
  predicate LoweredInput(c: char) {
    IsLower(c) || IsDigit(c) || IsSeparator(c)
  }

  /** `re.sub(r'[^\w\s-]', '', s)` */
  function KeepSlugInput(s: string): (r: string)
    ensures |r| <= |s|
    ensures forall i :: 0 <= i < |r| ==> SlugInput(r[i])
    ensures (forall i :: 0 <= i < |s| ==> SlugInput(s[i])) ==> r == s
  {
    if s == [] then []
    else if SlugInput(s[0]) then [s[0]] + KeepSlugInput(s[1..])
    else KeepSlugInput(s[1..])
  }

  /** the input without its leading separators */
  function DropSeparators(s: string): (r: string)
    ensures |r| <= |s| && r == s[|s| - |r|..]
    ensures r == [] || !IsSeparator(r[0])
    ensures (s == [] || !IsSeparator(s[0])) ==> r == s
  {
    if s != [] && IsSeparator(s[0]) then DropSeparators(s[1..]) else s
  }

  /** `re.sub(r'[\s_-]+', '-', s)`: every maximal run of separators becomes
      one dash; every other character is kept. */
  function CollapseSeparators(s: string): (r: string)
    ensures |r| <= |s|
    ensures s != [] ==> r != [] && r[0] == (if IsSeparator(s[0]) then '-' else s[0])
    ensures (forall i :: 0 <= i < |s| ==> LoweredInput(s[i])) ==> forall i :: 0 <= i < |r| ==> SlugChar(r[i])
    ensures NoDoubleDash(r)
    decreases |s|
  {
    if s == [] then []
    else if IsSeparator(s[0]) then "-" + CollapseSeparators(DropSeparators(s[1..]))
    else [s[0]] + CollapseSeparators(s[1..])
  }

  /** a prefix of a string without double dashes has none either */
  lemma {:induction false} NoDoubleDashPrefix(s: string, n: nat)
    requires NoDoubleDash(s)
    ensures NoDoubleDash(Take(s, n))
  {
    if 2 <= n && 2 <= |s| {
      NoDoubleDashPrefix(s[1..], n - 1);
      assert Take(s, n)[1..] == Take(s[1..], n - 1);
    }
  }

  /** `_slugify`, over ASCII: drop what is not a word character, space or
      dash, strip, lower-case, collapse separator runs to one dash, and cut
      to 50 characters.  The result is lower case letters, digits and
      single dashes. */
  function Slugify(text: string): (r: string)
    ensures |r| <= 50
    ensures forall i :: 0 <= i < |r| ==> SlugChar(r[i])
    ensures NoDoubleDash(r)
  {
    var stripped := Strip(KeepSlugInput(text));
    StripKeepsSlugInput(KeepSlugInput(text));
    var lowered := Lower(stripped);
    LowerKeepsSlugInput(stripped);
    var collapsed := CollapseSeparators(lowered);
    NoDoubleDashPrefix(collapsed, 50);
    Take(collapsed, 50)
  }

  /** lower-casing slug input leaves what the collapse expects */
  lemma LowerKeepsSlugInput(s: string)
    requires forall i :: 0 <= i < |s| ==> SlugInput(s[i])
    ensures forall i :: 0 <= i < |Lower(s)| ==> LoweredInput(Lower(s)[i])
  {
    var l := Lower(s);
    forall i | 0 <= i < |l| ensures LoweredInput(l[i]) {
      assert SlugInput(s[i]) && l[i] == LowerChar(s[i]);
    }
  }

  /** `Strip` keeps a slice of its input, so it keeps slug input */
  lemma StripKeepsSlugInput(s: string)
    requires forall i :: 0 <= i < |s| ==> SlugInput(s[i])
    ensures forall i :: 0 <= i < |Strip(s)| ==> SlugInput(Strip(s)[i])
  {
    var l := StripLeft(s);
    var r := StripRight(l);
    assert r == Strip(s);
    forall i | 0 <= i < |r| ensures SlugInput(r[i]) {
      assert r[i] == l[i];
      assert l[i] == s[|s| - |l| + i];
    }
  }

  lemma StripWithoutWhitespace(s: string)
    requires forall i :: 0 <= i < |s| ==> !IsWhitespace(s[i])
    ensures Strip(s) == s
  {
  }

  lemma LowerWithoutUpper(s: string)
    requires forall i :: 0 <= i < |s| ==> !IsUpper(s[i])
    ensures Lower(s) == s
  {
  }

  /** a slug character other than the dash is no separator */
  lemma SlugLetterNotSeparator(c: char)
    requires SlugChar(c) && c != '-'
    ensures !IsSeparator(c)
  {
  }

  /** the tail of a slug is a slug */
  lemma SlugTail(s: string)
    requires s != []
    requires forall i :: 0 <= i < |s| ==> SlugChar(s[i])
    requires NoDoubleDash(s)
    ensures forall i :: 0 <= i < |s| - 1 ==> SlugChar(s[1..][i])
    ensures NoDoubleDash(s[1..])
    ensures |s| > 1 && s[0] == '-' ==> s[1] != '-'
  {
  }

  lemma {:induction false} CollapseFixesSlugs(s: string)
    requires forall i :: 0 <= i < |s| ==> SlugChar(s[i])
    requires NoDoubleDash(s)
    ensures CollapseSeparators(s) == s
    decreases |s|
  {
    if s != [] {
      var t := s[1..];
      SlugTail(s);
      CollapseFixesSlugs(t);
      assert s == [s[0]] + t;
      if s[0] == '-' {
        if t != [] {
          SlugLetterNotSeparator(s[1]);
        }
        calc {
          CollapseSeparators(s);
          "-" + CollapseSeparators(DropSeparators(t));
          { assert DropSeparators(t) == t; }
          "-" + CollapseSeparators(t);
        }
      } else {
        SlugLetterNotSeparator(s[0]);
        assert CollapseSeparators(s) == [s[0]] + CollapseSeparators(t);
      }
    }
  }

  /** A slug is its own slug, so slugs can be fed back as descriptions. */
  lemma SlugifyIdempotent(text: string)
    ensures Slugify(Slugify(text)) == Slugify(text)
  {
    var s := Slugify(text);
    assert forall i :: 0 <= i < |s| ==> SlugInput(s[i]) && !IsWhitespace(s[i]) && !IsUpper(s[i]);
    var kept := KeepSlugInput(s);
    assert kept == s;
    StripWithoutWhitespace(s);
    var lowered := Lower(Strip(kept));
    LowerWithoutUpper(s);
    assert lowered == s;
    CollapseFixesSlugs(s);
    assert Take(CollapseSeparators(lowered), 50) == s;
  }

  // ------------------------------------------------------------- task lookup

  /** `_find_task_details`, with `{}` for an unknown id */
  function TaskDetails(s: ProgressRecord, id: string): TaskData {
    FindTask(s, id).GetOr(EmptyTask)
  }

  /** `_generate_next_actions`: generic advice for an unknown or empty
      task, advice to continue a task under way or to begin a pending one
      (naming it), and generic advice for any other status, a missing one
      included */
  function NextActions(t: TaskData): (r: seq<string>)
    ensures |r| == 3
    ensures t.IsEmpty() ==>
              r == ["Review current task status", "Update progress state", "Continue with planned work"]
    ensures !t.IsEmpty() && t.status == Some("IN_PROGRESS") ==>
              r == ["Continue working on " + t.name.GetOr("current task"),
                    "Update progress as work proceeds",
                    "Create checkpoint after significant progress"]
    ensures !t.IsEmpty() && t.status == Some("PENDING") ==>
              r == ["Begin work on " + t.name.GetOr("planned task"),
                    "Review acceptance criteria",
                    "Create initial checkpoint"]
    ensures !t.IsEmpty() && t.status != Some("IN_PROGRESS") && t.status != Some("PENDING") ==>
              r == ["Review task status", "Determine next steps", "Update progress state"]
  {
    if t.IsEmpty() then
      ["Review current task status", "Update progress state", "Continue with planned work"]
    else if t.status.GetOr("UNKNOWN") == "IN_PROGRESS" then
      ["Continue working on " + t.name.GetOr("current task"),
       "Update progress as work proceeds",
       "Create checkpoint after significant progress"]
    else if t.status.GetOr("UNKNOWN") == "PENDING" then
      ["Begin work on " + t.name.GetOr("planned task"),
       "Review acceptance criteria",
       "Create initial checkpoint"]
    else
      ["Review task status", "Determine next steps", "Update progress state"]
  }

  /** the reply of `/resume_progress <task id>` */
  datatype Resumption =
    | TaskMissing(missingId: string)
    | TaskResumed(
        taskId: string,
        name: string,
        status: string,
        progress: real,
        dependencies: seq<string>,
        objective: string,
        notes: string,
        criteria: seq<string>,
        nextStep: string)

  /** `_resume_specific_task`: an error for an id that names no task, and
      for one that names an empty task entry (which Python reads as false);
      otherwise the task's fields, each with its default. */
  function ResumeSpecificTask(s: ProgressRecord, id: string): (r: Resumption)
    ensures r.TaskMissing? <==> FindTask(s, id).None? || FindTask(s, id).value.IsEmpty()
    ensures r.TaskMissing? ==> r.missingId == id
    ensures r.TaskResumed? ==>
      var t := FindTask(s, id).value;
      && r.taskId == id
      && r.name == t.name.GetOr("Unknown")
      && r.status == t.status.GetOr("UNKNOWN")
      && r.progress == t.progressPercentage.GetOr(0.0)
      && r.dependencies == t.dependencies.GetOr([])
      && r.objective == t.description.GetOr("No description available")
      && r.notes == t.notes.GetOr("No implementation notes")
      && r.criteria == ["Acceptance criteria not defined"]
      && r.nextStep == t.nextStep.GetOr("Continue with task implementation")
  {
    var t := TaskDetails(s, id);
    if t.IsEmpty() then TaskMissing(id)
    else
      TaskResumed(id, t.name.GetOr("Unknown"), t.status.GetOr("UNKNOWN"),
                  t.progressPercentage.GetOr(0.0), t.dependencies.GetOr([]),
                  t.description.GetOr("No description available"),
                  t.notes.GetOr("No implementation notes"),
                  ["Acceptance criteria not defined"],
                  t.nextStep.GetOr("Continue with task implementation"))
  }

  /** An entry holding only keys the scripts never read is still a
      non-empty dictionary: it resumes, with every field at its default. */
  lemma ResumeUnreadKeysOnly(s: ProgressRecord, id: string)
    requires FindTask(s, id) == Some(EmptyTask.(otherKeys := true))
    ensures ResumeSpecificTask(s, id)
              == TaskResumed(id, "Unknown", "UNKNOWN", 0.0, [], "No description available",
                             "No implementation notes", ["Acceptance criteria not defined"],
                             "Continue with task implementation")
  {
  }

  /** An id that no task or subtask carries is reported as an error. */
  lemma ResumeUnknownTask(s: ProgressRecord, id: string)
    requires forall e :: e in VisitOrder(s.phases.GetOr([])) ==> e.0 != id
    ensures ResumeSpecificTask(s, id) == TaskMissing(id)
  {
    FindTaskIsFirstInVisitOrder(s, id);
    var order := VisitOrder(s.phases.GetOr([]));
    assert forall i :: 0 <= i < |order| ==> order[i].0 != id by {
      forall i | 0 <= i < |order| ensures order[i].0 != id {
        assert order[i] in order;
      }
    }
  }

  /** A known id resumes the first task or subtask carrying it, in the
      order the lookup visits them, when that entry is not empty. */
  lemma ResumeFirstMatch(s: ProgressRecord, id: string, i: nat)
    requires i < |VisitOrder(s.phases.GetOr([]))|
    requires VisitOrder(s.phases.GetOr([]))[i].0 == id
    requires forall j :: 0 <= j < i ==> VisitOrder(s.phases.GetOr([]))[j].0 != id
    requires !VisitOrder(s.phases.GetOr([]))[i].1.IsEmpty()
    ensures ResumeSpecificTask(s, id).TaskResumed?
    ensures ResumeSpecificTask(s, id).name == VisitOrder(s.phases.GetOr([]))[i].1.name.GetOr("Unknown")
  {
    FindTaskIsFirstInVisitOrder(s, id);
    var order := VisitOrder(s.phases.GetOr([]));
    var r := SearchEntries(order, id);
    assert r.Some?;
    var k :| 0 <= k < |order| && order[k] == (id, r.value) && forall j :: 0 <= j < k ==> order[j].0 != id;
    assert !(k < i);
    assert !(i < k);
  }

  // ---------------------------------------------------------- manual save

  /** `CP` + three digits: one more than the checkpoints the state lists */
  function ManualId(s: ProgressRecord): (id: string)
    ensures SequenceNumber("CP", id) == Some(|CheckpointsOf(s)| + 1)
  {
    SequenceId("CP", |CheckpointsOf(s)| + 1)
  }

  /** the `checkpoint` object `checkpoint_save` captures */
  function ManualCapture(s: ProgressRecord, id: string, description: string, isoTime: string): (cp: CheckpointRecord)
    ensures cp.checkpointId == Some(id) && cp.timestamp == Some(isoTime) && cp.description == Some(description)
    ensures cp.phase == Some(PhaseOf(s)) && cp.task == Some(ActiveTaskOr(s, "UNKNOWN"))
    ensures cp.completionPercentage == Some(OverallProgressOf(s))
    ensures cp.contextSnapshot == Some(ContextOf(s))
    ensures cp.kind.None? && cp.trigger.None? && cp.autoGenerated.None? && cp.validationStatus.None?
  {
    var session := s.currentSession.GetOr(Session(None, None, None, None, None, None, None, None, None));
    EmptyCheckpoint.(
      checkpointId := Some(id),
      timestamp := Some(isoTime),
      description := Some(description),
      phase := Some(PhaseOf(s)),
      task := Some(ActiveTaskOr(s, "UNKNOWN")),
      completionPercentage := Some(OverallProgressOf(s)),
      filesModified := Some(session.filesModified.GetOr([])),
      contextSnapshot := Some(ContextOf(s)),
      nextActions := Some(NextActions(TaskDetails(s, ActiveTaskOr(s, "")))))
  }

  /** `<id>_<stamp>_<slug>.json` */
  function ManualFileName(id: string, stamp: string, description: string): string {
    id + "_" + stamp + "_" + Slugify(description) + ".json"
  }

  /** the file `checkpoint_save` writes for state `s`: the capture and the
      state as loaded; its size on disk, the length of the JSON text, is not
      modelled and is 0 */
  function ManualEntry(s: ProgressRecord, description: string, m: Moment): CheckpointEntry {
    var id := ManualId(s);
    CheckpointEntry(ManualFileName(id, m.stamp, description), m.now, 0,
                    Readable(CheckpointFile(ManualCapture(s, id, description, m.isoTime), s)))
  }

  /** The state after the capture: the checkpoint is appended and the
      recovery pointer names it; `rollback_available` is not touched. */
  function RecordManualCheckpoint(s: ProgressRecord, cp: CheckpointRecord): (r: ProgressRecord)
    requires s.recovery.Some? && cp.checkpointId.Some? && cp.task.Some?
    ensures CheckpointsOf(r) == CheckpointsOf(s) + [cp]
    ensures r.recovery.Some? && r.recovery.value.lastKnownGoodState == cp.checkpointId
    ensures r.recovery.value.rollbackAvailable == s.recovery.value.rollbackAvailable
    ensures r.recovery.value.recoveryInstructions
              == Some("Load checkpoint " + cp.checkpointId.value + " and resume from " + cp.task.value)
    ensures r.(checkpoints := s.checkpoints, recovery := s.recovery) == s
  {
    var id := cp.checkpointId.value;
    s.(checkpoints := Some(CheckpointsOf(s) + [cp]),
       recovery := Some(s.recovery.value.(
         lastKnownGoodState := Some(id),
         recoveryInstructions := Some("Load checkpoint " + id + " and resume from " + cp.task.value))))
  }

  /** the context line of the reply: cut to 100 characters plus "..." */
  function ContextDisplay(c: string): (r: string)
    ensures |c| <= 100 ==> r == c
    ensures |c| > 100 ==> |r| == 103 && r[..100] == c[..100] && r[100..] == "..."
  {
    if |c| > 100 then c[..100] + "..." else c
  }

  /** The state file holds `s` after a manual checkpoint was recorded in it:
      the capture is appended, the recovery pointer names it and
      `rollback_available` is as it was. */
  predicate HoldsSavedCheckpoint(st: Option<StateFile>, s: ProgressRecord, description: string, m: Moment) {
    && st.Some? && st.value.Parsed? && s.recovery.Some?
    && CheckpointsOf(st.value.record) == CheckpointsOf(s) + [ManualCapture(s, ManualId(s), description, m.isoTime)]
    && st.value.record.recovery.Some?
    && st.value.record.recovery.value.lastKnownGoodState == Some(ManualId(s))
    && st.value.record.recovery.value.rollbackAvailable == s.recovery.value.rollbackAvailable
  }

  /** the reply of `/checkpoint_save` */
  datatype SaveOutcome =
    | CheckpointSaved(
        id: string,
        timestamp: string,
        description: string,
        phase: int,
        task: string,
        completion: real,
        fileCount: nat,
        context: string)
    | CheckpointFailed     // status ERROR, "Failed to create checkpoint: ..."
    | SectionMissing       // the KeyError raised before the try block

  /** The reply describes the checkpoint captured from `s`: its id, the
      next number in the `CP` sequence, the moment, the description, phase,
      task, completion, the number of files modified and the context line. */
  predicate ReportsCapture(o: SaveOutcome, s: ProgressRecord, description: string, m: Moment) {
    && o.CheckpointSaved? && s.currentSession.Some?
    && o.id == ManualId(s)
    && SequenceNumber("CP", o.id) == Some(|CheckpointsOf(s)| + 1)
    && o.timestamp == m.isoTime && o.description == description
    && o.phase == PhaseOf(s) && o.task == ActiveTaskOr(s, "UNKNOWN")
    && o.completion == OverallProgressOf(s)
    && o.fileCount == |s.currentSession.value.filesModified.GetOr([])|
    && o.context == ContextDisplay(ContextOf(s))
  }

  /** The part of `checkpoint_save` after the checks: the checkpoint file is
      written, then a missing `recovery` section is an ERROR reply and
      otherwise the capture is recorded in the state. */
  function CaptureAndRecord(w: World, s: ProgressRecord, description: string, m: Moment, stateWrite: WriteEnd): (r: (SaveOutcome, World))
    requires w.Valid() && s.metadata.Some? && s.currentSession.Some?
    ensures r.1.Valid()
    ensures r.1.(state := w.state) == w.(checkpoints := PutCheckpoint(w.checkpoints, ManualEntry(s, description, m)))
    ensures r.0.CheckpointSaved? <==> s.recovery.Some?
    ensures !r.0.CheckpointSaved? ==> r.0.CheckpointFailed? && r.1.state == w.state
    ensures r.0.CheckpointSaved? ==> ReportsCapture(r.0, s, description, m)
    ensures r.0.CheckpointSaved? && stateWrite.Written? ==> HoldsSavedCheckpoint(r.1.state, s, description, m)
    ensures r.0.CheckpointSaved? && stateWrite.OpenRaised? ==> r.1.state == w.state
    ensures r.0.CheckpointSaved? && stateWrite.DumpRaised? ==> r.1.state == Some(Malformed(stateWrite.partial))
  {
    var id := ManualId(s);
    var cp := ManualCapture(s, id, description, m.isoTime);
    var w1 := w.(checkpoints := PutCheckpoint(w.checkpoints, ManualEntry(s, description, m)));
    if s.recovery.None? then (CheckpointFailed, w1)
    else
      var saved := SaveProgressState(w1, RecordManualCheckpoint(s, cp), m.savedAt, stateWrite);
      var files := s.currentSession.value.filesModified.GetOr([]);
      (CheckpointSaved(id, m.isoTime, description, PhaseOf(s), ActiveTaskOr(s, "UNKNOWN"),
                       OverallProgressOf(s), |files|, ContextDisplay(ContextOf(s))),
       saved.1)
  }

  /** `checkpoint_save`: loads the state, captures the checkpoint, writes
      `{checkpoint, full_state}` with the state as loaded, then appends the
      checkpoint, points the recovery section at it and saves the state.
      A state without `metadata` or `current_session` raises before any
      write; a failed checkpoint write or a missing `recovery` section is an
      ERROR reply, the latter after the file is written; a failed state
      save is ignored.  A checkpoint file cut short by `json.dump` stays in
      the directory. */
  function CheckpointSave(w: World, description: string, m: Moment, f: WriteFaults): (r: (SaveOutcome, World))
    requires w.Valid()
    ensures r.1.Valid()
    ensures r.1.project == w.project && r.1.snapshots == w.snapshots
    ensures r.1.backups == w.backups && r.1.recoveryLog == w.recoveryLog
    ensures var s := LoadProgressState(w, m);
      && (r.0.SectionMissing? <==> s.metadata.None? || s.currentSession.None?)
      && (r.0.CheckpointSaved? <==>
            s.metadata.Some? && s.currentSession.Some? && s.recovery.Some? && f.checkpointWrite.Written?)
      && (r.0.SectionMissing? ==> r.1 == w)
      && (!r.0.SectionMissing? && f.checkpointWrite.Fails() ==>
            r.0.CheckpointFailed?
            && r.1 == w.(checkpoints := WriteCheckpoint(w.checkpoints, ManualEntry(s, description, m), f.checkpointWrite)))
      && (!r.0.SectionMissing? && f.checkpointWrite.Written? ==>
            r.1.checkpoints == PutCheckpoint(w.checkpoints, ManualEntry(s, description, m)))
      && (r.0.CheckpointSaved? ==> ReportsCapture(r.0, s, description, m))
      && (r.0.CheckpointSaved? && f.stateWrite.Written? ==> HoldsSavedCheckpoint(r.1.state, s, description, m))
      && (r.0.CheckpointSaved? && f.stateWrite.OpenRaised? ==> r.1.state == w.state)
      && (r.0.CheckpointSaved? && f.stateWrite.DumpRaised? ==> r.1.state == Some(Malformed(f.stateWrite.partial)))
      && (r.0.CheckpointFailed? && f.checkpointWrite.Written? ==> r.1.state == w.state)
  {
    var s := LoadProgressState(w, m);
    if s.metadata.None? || s.currentSession.None? then (SectionMissing, w)
    else if f.checkpointWrite.Fails() then
      (CheckpointFailed, w.(checkpoints := WriteCheckpoint(w.checkpoints, ManualEntry(s, description, m), f.checkpointWrite)))
    else CaptureAndRecord(w, s, description, m, f.stateWrite)
  }

  /** Two saves in a row, the first of which reached the state file,
      number their checkpoints consecutively. */
  lemma ConsecutiveSavesNumberConsecutively(w: World, d1: string, d2: string, m1: Moment, m2: Moment, f1: WriteFaults, f2: WriteFaults)
    requires w.Valid()
    requires CheckpointSave(w, d1, m1, f1).0.CheckpointSaved? && f1.stateWrite.Written?
    requires CheckpointSave(CheckpointSave(w, d1, m1, f1).1, d2, m2, f2).0.CheckpointSaved?
    ensures var n := SequenceNumber("CP", CheckpointSave(w, d1, m1, f1).0.id).value;
      SequenceNumber("CP", CheckpointSave(CheckpointSave(w, d1, m1, f1).1, d2, m2, f2).0.id) == Some(n + 1)
  {
  }

  /** The id comes from the state's own list, not from the directory: the
      files already in `checkpoints/` do not change it. */
  lemma ManualIdIgnoresDirectory(w: World, dir: seq<CheckpointEntry>, d: string, m: Moment, f: WriteFaults)
    requires w.Valid() && DistinctNames(dir)
    requires CheckpointSave(w, d, m, f).0.CheckpointSaved?
    ensures CheckpointSave(w.(checkpoints := dir), d, m, f).0.CheckpointSaved?
    ensures CheckpointSave(w.(checkpoints := dir), d, m, f).0.id == CheckpointSave(w, d, m, f).0.id
  {
  }

  /** When the state file cannot be opened, the checkpoint file is written
      but the state keeps its list, so the next save reuses the same id. */
  lemma FailedStateSaveRepeatsId(w: World, d1: string, d2: string, m1: Moment, m2: Moment, f1: WriteFaults, f2: WriteFaults)
    requires w.Valid()
    requires CheckpointSave(w, d1, m1, f1).0.CheckpointSaved? && f1.stateWrite.OpenRaised?
    requires CheckpointSave(CheckpointSave(w, d1, m1, f1).1, d2, m2, f2).0.CheckpointSaved?
    ensures CheckpointSave(CheckpointSave(w, d1, m1, f1).1, d2, m2, f2).0.id == CheckpointSave(w, d1, m1, f1).0.id
  {
  }

  /** When the state save fails inside `json.dump`, the state file no longer
      parses: the next save starts from the default state and numbers its
      checkpoint 1 (CP001) again, whatever the first save recorded. */
  lemma TruncatedStateSaveRestartsNumbering(w: World, d1: string, d2: string, m1: Moment, m2: Moment, f1: WriteFaults, f2: WriteFaults)
    requires w.Valid()
    requires CheckpointSave(w, d1, m1, f1).0.CheckpointSaved? && f1.stateWrite.DumpRaised?
    requires f2.checkpointWrite.Written?
    ensures var w1 := CheckpointSave(w, d1, m1, f1).1;
            && LoadProgressState(w1, m2) == DefaultState(m2.isoTime, m2.stamp)
            && CheckpointSave(w1, d2, m2, f2).0.CheckpointSaved?
            && SequenceNumber("CP", CheckpointSave(w1, d2, m2, f2).0.id) == Some(1)
  {
  }
}

=== FILE: progress.dfy ===
/** The progress record (PROGRESS_STATE.json) and the checkpoint record, as
    the scripts read them.  Every key the scripts test for presence is an
    `Option`: `None` is a missing key, so `state["recovery"]` on a record
    without a recovery section is a `KeyError` in the model as well.
    Dictionaries whose iteration order matters are association lists in
    insertion order. */
module Progress {
  import opened Common

  /** a task (or subtask) entry of `phases.<id>.tasks` */
  datatype TaskData = TaskData(
    name: Option<string>,
    status: Option<string>,
    progressPercentage: Option<real>,
    description: Option<string>,
    notes: Option<string>,
    dependencies: Option<seq<string>>,
    nextStep: Option<string>,
    subtasks: Option<seq<(string, TaskData)>>,
    otherKeys: bool)  // the entry holds keys the scripts never read
  {
    /** the task entry is the empty dictionary `{}` (falsy in Python) */
    predicate IsEmpty() {
      name.None? && status.None? && progressPercentage.None? && description.None?
      && notes.None? && dependencies.None? && nextStep.None? && subtasks.None? && !otherKeys
    }
  }

  /** the `{}` that `_find_task_details` returns for an unknown id */
  const EmptyTask := TaskData(None, None, None, None, None, None, None, None, false)

  /** `phases.<id>`; a phase without `tasks` reads as an empty task list */
  datatype Phase = Phase(tasks: seq<(string, TaskData)>)

  datatype Metadata = Metadata(
    version: Option<string>,
    created: Option<string>,
    lastUpdated: Option<string>,
    updatedBy: Option<string>,
    projectName: Option<string>,
    totalPhases: Option<int>,
    currentPhase: Option<int>,
    overallProgress: Option<real>,
    reconstructionSource: Option<string>)

  datatype Session = Session(
    sessionId: Option<string>,
    started: Option<string>,
    lastActivity: Option<string>,
    activeTask: Option<string>,
    contextSummary: Option<string>,
    nextPlannedAction: Option<string>,
    estimatedTimeRemaining: Option<string>,
    checkpointFrequency: Option<int>,
    filesModified: Option<seq<string>>)

  /** `recovery`; `lastKnownGoodState == None` is JSON `null` or a missing key */
  datatype Recovery = Recovery(
    lastKnownGoodState: Option<string>,
    rollbackAvailable: Option<bool>,
    recoveryInstructions: Option<string>)

  datatype AutoCheckpointInfo = AutoCheckpointInfo(
    lastAutoCheckpoint: Option<string>,
    totalAutoCheckpoints: Option<nat>)

  datatype Automation = Automation(autoCheckpoint: Option<AutoCheckpointInfo>)

  /** one entry of `recovery_history` */
  datatype RecoveryEntry = RecoveryEntry(
    recoveredFrom: string,
    recoveryTime: string,
    previousStateBackedUp: bool)

  datatype Confidence = Low | Medium | High

  /** one entry of `reconstruction_notes`: what the file analysis found,
      standing for the note's text */
  datatype RebuildNote =
    | FoundConfig
    | FoundProgressDocs(count: nat)
    | FoundScripts(count: nat)
    | FoundResume

  /** `rebuild_info` written by the file-analysis rebuild */
  datatype RebuildInfo = RebuildInfo(
    rebuildTimestamp: string,
    confidenceLevel: Confidence,
    filesAnalyzed: nat,
    reconstructionNotes: seq<RebuildNote>)

  /** the `checkpoint` object of a checkpoint file, also the element type
      of the progress record's `checkpoints` list */
  datatype CheckpointRecord = CheckpointRecord(
    checkpointId: Option<string>,
    timestamp: Option<string>,
    kind: Option<string>,
    trigger: Option<string>,
    description: Option<string>,
    phase: Option<int>,
    task: Option<string>,
    completionPercentage: Option<real>,
    filesModified: Option<seq<string>>,
    filesCreated: Option<seq<string>>,
    contextSnapshot: Option<string>,
    nextActions: Option<seq<string>>,
    autoGenerated: Option<bool>,
    fileChangeCount: Option<nat>,
    validationStatus: Option<string>)

  const EmptyCheckpoint := CheckpointRecord(None, None, None, None, None, None, None,
                                            None, None, None, None, None, None, None, None)

  datatype ProgressRecord = ProgressRecord(
    metadata: Option<Metadata>,
    currentSession: Option<Session>,
    phases: Option<seq<(string, Phase)>>,
    checkpoints: Option<seq<CheckpointRecord>>,
    recovery: Option<Recovery>,
    automation: Option<Automation>,
    recoveryHistory: Option<seq<RecoveryEntry>>,
    rebuildInfo: Option<RebuildInfo>)

  /** the record `{}` */
  const EmptyRecord := ProgressRecord(None, None, None, None, None, None, None, None)

  /** A checkpoint file: `{"checkpoint": ..., "full_state": ...}`.  A missing
      section reads as the empty object, as `data.get(key, {})` does. */
  datatype CheckpointFile = CheckpointFile(checkpoint: CheckpointRecord, fullState: ProgressRecord)

  // ------------------------------------------------ fields read with defaults

  /** `state.get("metadata", {}).get("current_phase", 1)` */
  function PhaseOf(s: ProgressRecord): int {
    if s.metadata.Some? then s.metadata.value.currentPhase.GetOr(1) else 1
  }

  /** `state.get("metadata", {}).get("overall_progress", 0)` */
  function OverallProgressOf(s: ProgressRecord): real {
    if s.metadata.Some? then s.metadata.value.overallProgress.GetOr(0.0) else 0.0
  }

  /** `state.get("current_session", {}).get("active_task", dflt)` */
  function ActiveTaskOr(s: ProgressRecord, dflt: string): string {
    if s.currentSession.Some? then s.currentSession.value.activeTask.GetOr(dflt) else dflt
  }

  /** `state.get("current_session", {}).get("context_summary", "")` */
  function ContextOf(s: ProgressRecord): string {
    if s.currentSession.Some? then s.currentSession.value.contextSummary.GetOr("") else ""
  }

  /** `state.get("checkpoints", [])` */
  function CheckpointsOf(s: ProgressRecord): seq<CheckpointRecord> {
    s.checkpoints.GetOr([])
  }

  // ----------------------------------------------------------- default state

  /** `_create_default_state`: the record a missing or malformed state file
      is replaced by.  `now` is the ISO time, `stamp` the `%Y%m%d_%H%M` time. */
  function DefaultState(now: string, stamp: string): (r: ProgressRecord)
    ensures PhaseOf(r) == 1 && OverallProgressOf(r) == 0.0
    ensures r.checkpoints == Some([])
    ensures r.recovery.Some? && r.recovery.value.lastKnownGoodState.None?
    ensures r.recovery.value.rollbackAvailable == Some(false)
    ensures ActiveTaskOr(r, "UNKNOWN") == "P1.1.1"
    ensures r.metadata.Some? && r.currentSession.Some?
  {
    ProgressRecord(
      Some(Metadata(Some("1.0"), Some(now), Some(now), Some("ProgressManager"),
                    Some("ClaudeCode Enhancement"), Some(5), Some(1), Some(0.0), None)),
      Some(Session(Some("session_" + stamp), Some(now), Some(now), Some("P1.1.1"),
                   Some("Project initialization"), Some("Begin project setup"),
                   Some("Unknown"), Some(30), None)),
      Some([]),
      Some([]),
      Some(Recovery(None, Some(false), Some("No recovery points available"))),
      None, None, None)
  }

  // ------------------------------------------------------------- task lookup

  /** `_find_task_details`: scans phases, and in each phase every task
      before that task's subtasks; the first key equal to `id` wins. */
  function FindTask(s: ProgressRecord, id: string): Option<TaskData> {
    SearchPhases(s.phases.GetOr([]), id)
  }

  function SearchPhases(phases: seq<(string, Phase)>, id: string): Option<TaskData> {
    if phases == [] then None
    else
      var hit := SearchTasks(phases[0].1.tasks, id);
      if hit.Some? then hit else SearchPhases(phases[1..], id)
  }

  function SearchTasks(tasks: seq<(string, TaskData)>, id: string): Option<TaskData> {
    if tasks == [] then None
    else if tasks[0].0 == id then Some(tasks[0].1)
    else
      var hit := SearchEntries(tasks[0].1.subtasks.GetOr([]), id);
      if hit.Some? then hit else SearchTasks(tasks[1..], id)
  }

  /** the first entry whose key is `id` */
  function SearchEntries(entries: seq<(string, TaskData)>, id: string): (r: Option<TaskData>)
    ensures r.None? <==> forall i :: 0 <= i < |entries| ==> entries[i].0 != id
    ensures r.Some? ==> exists i :: 0 <= i < |entries| && entries[i] == (id, r.value)
                          && forall j :: 0 <= j < i ==> entries[j].0 != id
  {
    if entries == [] then None
    else if entries[0].0 == id then Some(entries[0].1)
    else
      assert entries == [entries[0]] + entries[1..];
      SearchEntries(entries[1..], id)
  }

  /** Reference order of the lookup: every task of every phase, each task
      immediately followed by its own subtasks. */
  function VisitOrder(phases: seq<(string, Phase)>): seq<(string, TaskData)> {
    if phases == [] then [] else TaskVisitOrder(phases[0].1.tasks) + VisitOrder(phases[1..])
  }

  function TaskVisitOrder(tasks: seq<(string, TaskData)>): seq<(string, TaskData)> {
    if tasks == [] then []
    else [tasks[0]] + tasks[0].1.subtasks.GetOr([]) + TaskVisitOrder(tasks[1..])
  }

  lemma {:induction false} SearchEntriesAppend(a: seq<(string, TaskData)>, b: seq<(string, TaskData)>, id: string)
    ensures SearchEntries(a + b, id) == if SearchEntries(a, id).Some? then SearchEntries(a, id) else SearchEntries(b, id)
  {
    if a != [] {
      assert (a + b)[1..] == a[1..] + b;
      SearchEntriesAppend(a[1..], b, id);
    } else {
      assert a + b == b;
    }
  }

  lemma {:induction false} SearchTasksIsFirstMatch(tasks: seq<(string, TaskData)>, id: string)
    ensures SearchTasks(tasks, id) == SearchEntries(TaskVisitOrder(tasks), id)
  {
    if tasks != [] {
      var subs := tasks[0].1.subtasks.GetOr([]);
      SearchTasksIsFirstMatch(tasks[1..], id);
      SearchEntriesAppend([tasks[0]] + subs, TaskVisitOrder(tasks[1..]), id);
      SearchEntriesAppend([tasks[0]], subs, id);
      assert ([tasks[0]] + subs)[1..] == subs;
    }
  }

  /** `_find_task_details` returns the first entry with key `id` in visit
      order, and nothing exactly when no task or subtask has that key. */
  lemma {:induction false} FindTaskIsFirstInVisitOrder(s: ProgressRecord, id: string)
    ensures FindTask(s, id) == SearchEntries(VisitOrder(s.phases.GetOr([])), id)
  {
    FindPhasesIsFirstMatch(s.phases.GetOr([]), id);
  }

  lemma {:induction false} FindPhasesIsFirstMatch(phases: seq<(string, Phase)>, id: string)
    ensures SearchPhases(phases, id) == SearchEntries(VisitOrder(phases), id)
  {
    if phases != [] {
      FindPhasesIsFirstMatch(phases[1..], id);
      SearchTasksIsFirstMatch(phases[0].1.tasks, id);
      SearchEntriesAppend(TaskVisitOrder(phases[0].1.tasks), VisitOrder(phases[1..]), id);
    }
  }
}

=== FILE: recovery.dfy ===
/** The checkpoint recovery manager (checkpoint_recovery.py): listing,
    validation, recovery, the emergency fallback and the rebuild from
    project files, as pure functions over a `World`.  Clock readings and
    I/O faults are inputs. */
module Recovery {
  import opened Common
  import opened Sorting
  import opened Progress
  import opened Store

  /** the clock readings one operation takes */
  datatype Clock = Clock(
    startIso: string,       // UTC ISO time when the operation began
    isoTime: string,        // UTC ISO time of the later stamps
    stamp: string,          // local %Y%m%d_%H%M
    stampSeconds: string)   // local %Y%m%d_%H%M%S, for backup names

  /** which filesystem writes raise, and how writing the state file ends */
  datatype Faults = Faults(
    backupFails: bool,
    stateWrite: WriteEnd,
    copyFails: set<string>,
    logWriteFails: bool)

  // ================================================================ listing

  predicate IsJsonName(n: string) {
    EndsWith(n, ".json")
  }

  /** The entries `list_checkpoints` manages to read: `*.json` files in
      listing order, up to the first one that does not parse; that one
      aborts the loop and the files after it are never read. */
  function ReadablePrefix(dir: seq<CheckpointEntry>): (r: seq<CheckpointEntry>)
    ensures forall e :: e in r ==> e in dir && IsJsonName(e.name) && e.stored.Readable?
    ensures (forall e :: e in dir && IsJsonName(e.name) ==> e.stored.Readable?)
              ==> forall e :: e in dir && IsJsonName(e.name) ==> e in r
  {
    if dir == [] then []
    else
      assert dir == [dir[0]] + dir[1..];
      if !IsJsonName(dir[0].name) then ReadablePrefix(dir[1..])
      else if dir[0].stored.Corrupt? then []
      else [dir[0]] + ReadablePrefix(dir[1..])
  }

  /** a corrupt checkpoint file hides every file listed after it */
  lemma {:induction false} CorruptFileHidesLater(dir: seq<CheckpointEntry>, i: nat)
    requires i < |dir| && IsJsonName(dir[i].name) && dir[i].stored.Corrupt?
    ensures ReadablePrefix(dir) == ReadablePrefix(dir[..i])
  {
    if i > 0 {
      var d := dir[..i];
      assert d != [] && d[0] == dir[0] && d[1..] == dir[1..][..i - 1];
      CorruptFileHidesLater(dir[1..], i - 1);
    }
  }

  /** one row of `list_checkpoints`, with its defaults for missing keys */
  datatype Summary = Summary(
    id: string,
    timestamp: string,
    description: string,
    kind: string,
    phase: int,
    task: string,
    progress: real,
    file: string,
    fileSize: nat,
    validationStatus: string)

  function Summarize(e: CheckpointEntry): (s: Summary)
    requires e.stored.Readable?
    ensures s.file == e.name && s.fileSize == e.size
    ensures s.timestamp == e.stored.data.checkpoint.timestamp.GetOr("")
  {
    var c := e.stored.data.checkpoint;
    Summary(c.checkpointId.GetOr("UNKNOWN"), c.timestamp.GetOr(""), c.description.GetOr(""),
            c.kind.GetOr("MANUAL"), c.phase.GetOr(0), c.task.GetOr(""),
            c.completionPercentage.GetOr(0.0), e.name, e.size, c.validationStatus.GetOr("UNKNOWN"))
  }

  function Summaries(es: seq<CheckpointEntry>): (r: seq<Summary>)
    requires forall e :: e in es ==> e.stored.Readable?
    ensures |r| == |es| && forall i :: 0 <= i < |es| ==> r[i] == Summarize(es[i])
  {
    if es == [] then [] else [Summarize(es[0])] + Summaries(es[1..])
  }

  function TimestampOf(s: Summary): string { s.timestamp }

  /** `list_checkpoints`: the readable rows, newest timestamp first (as
      text).  The order among rows with equal timestamps is not stated. */
  function ListCheckpoints(dir: seq<CheckpointEntry>): (r: seq<Summary>)
    ensures multiset(r) == multiset(Summaries(ReadablePrefix(dir)))
    ensures SortedByTextDesc(r, TimestampOf)
  {
    SortByTextDesc(Summaries(ReadablePrefix(dir)), TimestampOf)
  }

  // ================================================================ lookup

  /** a readable `*.json` file whose checkpoint carries this id */
  predicate Holds(e: CheckpointEntry, id: string) {
    IsJsonName(e.name) && e.stored.Readable? && e.stored.data.checkpoint.checkpointId == Some(id)
  }

  /** `_find_checkpoint_file`: the first file in listing order holding the
      id; files that do not parse are skipped. */
  function FindCheckpoint(dir: seq<CheckpointEntry>, id: string): (r: Option<CheckpointFile>)
    ensures r.None? <==> forall i :: 0 <= i < |dir| ==> !Holds(dir[i], id)
    ensures r.Some? ==> exists i :: 0 <= i < |dir| && Holds(dir[i], id) && dir[i].stored.data == r.value
                                   && forall j :: 0 <= j < i ==> !Holds(dir[j], id)
  {
    if dir == [] then None
    else if Holds(dir[0], id) then Some(dir[0].stored.data)
    else
      assert dir == [dir[0]] + dir[1..];
      FindCheckpoint(dir[1..], id)
  }

  // ============================================================ validation

  datatype FileCheck = FileCheck(present: bool, readable: bool, size: nat)

  datatype Warning = MissingSections(sections: seq<string>) | FilesMissing

  datatype Validation = Validation(
    checkpointId: string,
    valid: bool,
    issues: seq<Issue>,
    warnings: seq<Warning>,
    fileChecks: map<string, FileCheck>,
    dataIntegrity: bool,
    feasible: bool)

  /** the required checkpoint fields that are absent, in the order checked */
  function MissingFieldsOf(c: CheckpointRecord): (r: seq<string>)
    ensures r == [] <==> c.checkpointId.Some? && c.timestamp.Some? && c.description.Some?
                         && c.phase.Some? && c.task.Some?
  {
    (if c.checkpointId.None? then ["checkpoint_id"] else [])
    + (if c.timestamp.None? then ["timestamp"] else [])
    + (if c.description.None? then ["description"] else [])
    + (if c.phase.None? then ["phase"] else [])
    + (if c.task.None? then ["task"] else [])
  }

  /** the state sections the restored state should have but lacks */
  function MissingSectionsOf(s: ProgressRecord): (r: seq<string>)
    ensures r == [] <==> s.metadata.Some? && s.currentSession.Some? && s.phases.Some?
  {
    (if s.metadata.None? then ["metadata"] else [])
    + (if s.currentSession.None? then ["current_session"] else [])
    + (if s.phases.None? then ["phases"] else [])
  }

  /** `files_modified + files_created` of a checkpoint */
  function ReferencedFiles(c: CheckpointRecord): seq<string> {
    c.filesModified.GetOr([]) + c.filesCreated.GetOr([])
  }

  function CheckFile(project: map<string, FileEntry>, p: string): (fc: FileCheck)
    ensures fc.present <==> p in project
    ensures fc.readable ==> fc.present
  {
    if p in project then FileCheck(true, project[p].readable, |project[p].content|)
    else FileCheck(false, false, 0)
  }

  /** `validate_checkpoint` */
  function Validate(w: World, id: string): (v: Validation)
    ensures v.checkpointId == id
    ensures v.valid <==> |v.issues| == 0 && v.dataIntegrity
    ensures FindCheckpoint(w.checkpoints, id).None? ==>
              v.issues == [NotFound(id)] && !v.valid && !v.feasible && !v.dataIntegrity
    ensures FindCheckpoint(w.checkpoints, id).Some? ==>
              var f := FindCheckpoint(w.checkpoints, id).value;
              (v.dataIntegrity <==> MissingFieldsOf(f.checkpoint) == [])
              && (v.feasible <==> v.valid && forall p :: p in ReferencedFiles(f.checkpoint) ==> p in w.project)
              && (MissingSections(MissingSectionsOf(f.fullState)) in v.warnings <==> MissingSectionsOf(f.fullState) != [])
              && v.fileChecks.Keys == set p | p in ReferencedFiles(f.checkpoint)
    ensures v.feasible ==> v.valid
  {
    var found := FindCheckpoint(w.checkpoints, id);
    if found.None? then Validation(id, false, [NotFound(id)], [], map[], false, false)
    else
      var info := found.value.checkpoint;
      var missing := MissingFieldsOf(info);
      var issues := if missing != [] then [MissingFields(missing)] else [];
      var integrity := missing == [];
      var sections := MissingSectionsOf(found.value.fullState);
      var warnings := if sections != [] then [MissingSections(sections)] else [];
      var files := ReferencedFiles(info);
      var checks := map p | p in files :: CheckFile(w.project, p);
      var fileIssues := exists p :: p in checks && !checks[p].present;
      assert fileIssues <==> exists p :: p in files && p !in w.project by {
        if fileIssues {
          var p :| p in checks && !checks[p].present;
          assert p in files && p !in w.project;
        } else {
          forall p | p in files ensures p in w.project {
            assert p in checks;
          }
        }
      }
      var valid := |issues| == 0 && integrity;
      var feasible := valid && !fileIssues;
      Validation(id, valid, issues, warnings + (if fileIssues then [FilesMissing] else []),
                 checks, integrity, feasible)
  }

  /** Validity and feasibility depend on which referenced files exist, not
      on whether they can be read or how large they are. */
  lemma FeasibilityIgnoresReadability(w1: World, w2: World, id: string)
    requires w1.checkpoints == w2.checkpoints && w1.project.Keys == w2.project.Keys
    ensures Validate(w1, id).valid == Validate(w2, id).valid
    ensures Validate(w1, id).feasible == Validate(w2, id).feasible
  {
  }

  // ============================================================== recovery

  datatype RecoveryResult = RecoveryResult(
    checkpointId: string,
    success: bool,
    backupCreated: bool,
    filesRestored: seq<string>,
    filesFailed: seq<string>,
    stateRestored: bool,
    recoveryTime: string,
    messages: seq<Message>)

  function Problems(issues: seq<Issue>): (r: seq<Message>)
    ensures |r| == |issues| && forall i :: 0 <= i < |issues| ==> r[i] == Problem(issues[i])
  {
    if issues == [] then [] else [Problem(issues[0])] + Problems(issues[1..])
  }

  /** `_create_recovery_backup`: copy the state file into backups/; with no
      state file there is nothing to copy and that counts as success. */
  function BackupState(w: World, name: string, fails: bool): (r: (bool, World))
    ensures w.state.None? ==> r == (true, w)
    ensures w.state.Some? ==> (r.0 <==> !fails)
    ensures w.state.Some? && !fails ==> r.1 == w.(backups := w.backups + [Backup(name, w.state.value)])
    ensures !r.0 ==> r.1 == w
    ensures r.1.(backups := w.backups) == w
  {
    if w.state.None? then (true, w)
    else if fails then (false, w)
    else (true, w.(backups := w.backups + [Backup(name, w.state.value)]))
  }

  /** The state written back: the checkpoint's full state with fresh
      `last_updated`, a `recovery_` session id, a fresh `last_activity`, and
      one more recovery-history entry.  `None` when `metadata` or
      `current_session` is missing (the `KeyError` the restore catches). */
  function RestoredState(full: ProgressRecord, id: string, clock: Clock, backedUp: bool): (r: Option<ProgressRecord>)
    ensures r.Some? <==> full.metadata.Some? && full.currentSession.Some?
    ensures r.Some? ==>
              var s := r.value;
              s.metadata.Some? && s.metadata.value.lastUpdated == Some(clock.isoTime)
              && s.metadata.value.(lastUpdated := full.metadata.value.lastUpdated) == full.metadata.value
              && s.currentSession.Some? && s.currentSession.value.sessionId == Some("recovery_" + clock.stamp)
              && s.currentSession.value.lastActivity == Some(clock.isoTime)
              && s.recoveryHistory == Some(full.recoveryHistory.GetOr([]) + [RecoveryEntry(id, clock.startIso, backedUp)])
              && s.(metadata := full.metadata, currentSession := full.currentSession,
                    recoveryHistory := full.recoveryHistory) == full
  {
    if full.metadata.None? || full.currentSession.None? then None
    else
      var m := full.metadata.value.(lastUpdated := Some(clock.isoTime));
      var cs := full.currentSession.value.(sessionId := Some("recovery_" + clock.stamp),
                                           lastActivity := Some(clock.isoTime));
      var history := full.recoveryHistory.GetOr([]) + [RecoveryEntry(id, clock.startIso, backedUp)];
      Some(full.(metadata := Some(m), currentSession := Some(cs), recoveryHistory := Some(history)))
  }

  /** outcome of replaying the referenced files from their snapshots */
  datatype Replay = Replay(
    restored: seq<string>,
    failed: seq<string>,
    messages: seq<Message>,
    project: map<string, FileEntry>)

  /** The per-file loop: a file with a snapshot is copied over the project
      file (content and mtime), unless the copy raises, which lists it as
      failed; a file without a snapshot only earns a message. */
  function ReplayFiles(project: map<string, FileEntry>, snapshots: map<(string, string), FileEntry>, id: string,
                       paths: seq<string>, copyFails: set<string>): (r: Replay)
    ensures forall p :: p in r.restored <==> p in paths && (id, p) in snapshots && p !in copyFails
    ensures forall p :: p in r.failed <==> p in paths && (id, p) in snapshots && p in copyFails
    ensures |r.restored| + |r.failed| <= |paths|
    ensures (forall p :: p in paths ==> p !in copyFails) ==> r.failed == []
    ensures r.project.Keys == project.Keys + set p | p in r.restored
    ensures forall p :: p in r.restored ==> r.project[p] == snapshots[(id, p)]
    ensures forall p :: p in project && p !in r.restored ==> r.project[p] == project[p]
    decreases |paths|
  {
    if paths == [] then Replay([], [], [], project)
    else
      var p := paths[|paths| - 1];
      var before := ReplayFiles(project, snapshots, id, paths[..|paths| - 1], copyFails);
      assert paths == paths[..|paths| - 1] + [p];
      if (id, p) !in snapshots then before.(messages := before.messages + [NoSnapshot(p)])
      else if p in copyFails then
        before.(failed := before.failed + [p], messages := before.messages + [RestoreFailed(p)])
      else
        before.(restored := before.restored + [p], project := before.project[p := snapshots[(id, p)]])
  }

  /** the log line, written before success is computed */
  function LogRecovery(w: World, line: LogLine, fails: bool): (r: World)
    ensures fails ==> r == w
    ensures !fails ==> r.recoveryLog == w.recoveryLog + [line]
    ensures r.(recoveryLog := w.recoveryLog) == w
  {
    if fails then w else w.(recoveryLog := w.recoveryLog + [line])
  }

  /** `recover_from_checkpoint` */
  function Recover(w: World, id: string, clock: Clock, faults: Faults): (r: (RecoveryResult, World))
    ensures r.0.checkpointId == id && r.0.recoveryTime == clock.startIso
    ensures r.0.success <==> r.0.stateRestored && r.0.filesFailed == []
    ensures r.1.checkpoints == w.checkpoints && r.1.snapshots == w.snapshots
    ensures !Validate(w, id).feasible ==>
              r.1 == w && !r.0.success && !r.0.stateRestored && !r.0.backupCreated
              && r.0.messages == [ValidationFailed] + Problems(Validate(w, id).issues)
    ensures Validate(w, id).feasible ==>
              var f := FindCheckpoint(w.checkpoints, id).value;
              var b := BackupState(w, "pre_recovery_" + clock.stampSeconds + ".json", faults.backupFails);
              var restored := RestoredState(f.fullState, id, clock, b.0);
              var replay := ReplayFiles(w.project, w.snapshots, id, ReferencedFiles(f.checkpoint), faults.copyFails);
              r.0.backupCreated == b.0
              && r.0.filesRestored == replay.restored && r.0.filesFailed == replay.failed
              && r.1.project == replay.project
              && |r.0.messages| > 0
              && r.1.backups == b.1.backups
              && (r.0.stateRestored <==> restored.Some? && faults.stateWrite.Written?)
              && (r.0.stateRestored ==> r.1.state == Some(Parsed(restored.value)))
              && (restored.None? || faults.stateWrite.OpenRaised? ==> r.1.state == w.state)
              && (restored.Some? && faults.stateWrite.DumpRaised? ==> r.1.state == Some(Malformed(faults.stateWrite.partial)))
              && r.1.recoveryLog == w.recoveryLog
                   + (if faults.logWriteFails then [] else
                        [LogLine(clock.isoTime, id, false, |r.0.filesRestored|, |r.0.filesFailed|,
                                 r.0.messages[..|r.0.messages| - 1])])
  {
    var v := Validate(w, id);
    if !v.feasible then
      (RecoveryResult(id, false, false, [], [], false, clock.startIso, [ValidationFailed] + Problems(v.issues)), w)
    else
      var f := FindCheckpoint(w.checkpoints, id).value;
      var (backedUp, w1) := BackupState(w, "pre_recovery_" + clock.stampSeconds + ".json", faults.backupFails);
      var m1 := if backedUp then [] else [BackupWarning];
      var restored := RestoredState(f.fullState, id, clock, backedUp);
      var stateRestored := restored.Some? && faults.stateWrite.Written?;
      var w2 := if restored.Some? then w1.(state := StateAfter(faults.stateWrite, w1.state, restored.value)) else w1;
      var m2 := m1 + [if stateRestored then StateRestored else StateRestoreFailed];
      var replay := ReplayFiles(w2.project, w2.snapshots, id, ReferencedFiles(f.checkpoint), faults.copyFails);
      FinishRecovery(w2, id, clock, backedUp, stateRestored, m2, replay, faults.logWriteFails)
  }

  /** the end of `recover_from_checkpoint` once the files are replayed: the
      replay lands in the project, the log line records the messages so
      far, and the verdict message is appended last */
  function FinishRecovery(w: World, id: string, clock: Clock, backedUp: bool, stateRestored: bool,
                          m2: seq<Message>, replay: Replay, logFails: bool): (r: (RecoveryResult, World))
    ensures r.0.checkpointId == id && r.0.recoveryTime == clock.startIso
    ensures r.0.success <==> stateRestored && replay.failed == []
    ensures r.0.backupCreated == backedUp && r.0.stateRestored == stateRestored
    ensures r.0.filesRestored == replay.restored && r.0.filesFailed == replay.failed
    ensures |r.0.messages| > 0
    ensures r.1.(recoveryLog := w.recoveryLog) == w.(project := replay.project)
    ensures r.1.recoveryLog == w.recoveryLog
              + (if logFails then [] else
                   [LogLine(clock.isoTime, id, false, |r.0.filesRestored|, |r.0.filesFailed|,
                            r.0.messages[..|r.0.messages| - 1])])
  {
    var w3 := w.(project := replay.project);
    var m3 := m2 + replay.messages;
    var w4 := LogRecovery(w3, LogLine(clock.isoTime, id, false, |replay.restored|, |replay.failed|, m3), logFails);
    var success := stateRestored && replay.failed == [];
    var m4 := m3 + [if success then Completed(id) else CompletedWithIssues(id)];
    assert m4[..|m4| - 1] == m3;
    (RecoveryResult(id, success, backedUp, replay.restored, replay.failed, stateRestored, clock.startIso, m4), w4)
  }

  /** A state that cannot be written back does not stop the replay: every
      referenced file with a snapshot is still copied, and only the verdict
      turns to failure.  The state file is untouched when it could not be
      opened; when `json.dump` raised it is left cut short. */
  lemma FailedRestoreStillReplays(w: World, id: string, clock: Clock, faults: Faults)
    requires Validate(w, id).feasible && faults.stateWrite.Fails() && faults.copyFails == {}
    ensures var r := Recover(w, id, clock, faults);
            var f := FindCheckpoint(w.checkpoints, id).value;
            && !r.0.stateRestored && !r.0.success
            && (faults.stateWrite.OpenRaised? ==> r.1.state == w.state)
            && (faults.stateWrite.DumpRaised? ==> r.1.state == w.state || r.1.state == Some(Malformed(faults.stateWrite.partial)))
            && r.0.filesFailed == []
            && (forall p :: p in r.0.filesRestored <==> p in ReferencedFiles(f.checkpoint) && (id, p) in w.snapshots)
            && (forall p :: p in ReferencedFiles(f.checkpoint) && (id, p) in w.snapshots ==> r.1.project[p] == w.snapshots[(id, p)])
  {
  }

  /** The logged `success` is the initial false even when the recovery
      succeeds: the log line is written before success is computed. */
  lemma LoggedSuccessIsAlwaysFalse(w: World, id: string, clock: Clock, faults: Faults)
    requires Validate(w, id).feasible && !faults.logWriteFails
    ensures var r := Recover(w, id, clock, faults);
            |r.1.recoveryLog| == |w.recoveryLog| + 1 && !r.1.recoveryLog[|w.recoveryLog|].success
  {
  }

  /** A recovery with no faults from a feasible checkpoint whose state has
      its metadata and session succeeds and restores every referenced file
      that has a snapshot. */
  lemma CleanRecoverySucceeds(w: World, id: string, clock: Clock)
    requires Validate(w, id).feasible
    requires var f := FindCheckpoint(w.checkpoints, id).value;
             f.fullState.metadata.Some? && f.fullState.currentSession.Some?
    ensures var r := Recover(w, id, clock, Faults(false, Written, {}, false));
            r.0.success && r.0.backupCreated
            && forall p :: (p in ReferencedFiles(FindCheckpoint(w.checkpoints, id).value.checkpoint) && (id, p) in w.snapshots)
                 ==> r.1.project[p] == w.snapshots[(id, p)]
  {
    var f := FindCheckpoint(w.checkpoints, id).value;
    var rep := ReplayFiles(w.project, w.snapshots, id, ReferencedFiles(f.checkpoint), {});
  }

  // ============================================================ emergency

  datatype EmergencyOutcome =
    | NoCheckpoints               // 'No checkpoints available for emergency recovery'
    | NoFeasibleCheckpoint        // 'No valid checkpoints found for emergency recovery'
    | Attempted(result: RecoveryResult)

  /** what `validate_checkpoint` calls feasible, stated on its own: the
      checkpoint is there, its info has every required field, and every
      file it references exists */
  predicate Feasible(w: World, id: string) {
    var found := FindCheckpoint(w.checkpoints, id);
    && found.Some?
    && MissingFieldsOf(found.value.checkpoint) == []
    && forall p :: p in ReferencedFiles(found.value.checkpoint) ==> p in w.project
  }

  /** The validation's verdict is exactly that definition. */
  lemma ValidateDecidesFeasibility(w: World, id: string)
    ensures Validate(w, id).feasible <==> Feasible(w, id)
  {
  }

  function Feasibilities(w: World, rows: seq<Summary>): (r: seq<bool>)
    ensures |r| == |rows| && forall i :: 0 <= i < |rows| ==> r[i] == Feasible(w, rows[i].id)
  {
    if rows == [] then []
    else
      assert forall i :: 1 <= i < |rows| ==> rows[i] == rows[1..][i - 1];
      [Feasible(w, rows[0].id)] + Feasibilities(w, rows[1..])
  }

  /** the position of the first `true` */
  function FirstTrue(bs: seq<bool>): (r: Option<nat>)
    ensures r.None? <==> forall i :: 0 <= i < |bs| ==> !bs[i]
    ensures r.Some? ==> r.value < |bs| && bs[r.value] && forall j :: 0 <= j < r.value ==> !bs[j]
  {
    if bs == [] then None
    else if bs[0] then Some(0)
    else
      var rest := FirstTrue(bs[1..]);
      assert forall i :: 1 <= i < |bs| ==> bs[i] == bs[1..][i - 1];
      if rest.None? then None else Some(rest.value + 1)
  }

  /** the first listed checkpoint that validates as feasible */
  function FirstFeasible(w: World, rows: seq<Summary>): (r: Option<nat>)
    ensures r.None? <==> forall i :: 0 <= i < |rows| ==> !Feasible(w, rows[i].id)
    ensures r.Some? ==> r.value < |rows| && Feasible(w, rows[r.value].id)
                        && forall j :: 0 <= j < r.value ==> !Feasible(w, rows[j].id)
  {
    FirstTrue(Feasibilities(w, rows))
  }

  /** `emergency_recovery`: newest first, recover from the first checkpoint
      that validates as feasible. */
  function EmergencyRecover(w: World, clock: Clock, faults: Faults): (r: (EmergencyOutcome, World))
    ensures r.0.NoCheckpoints? <==> ListCheckpoints(w.checkpoints) == []
    ensures !r.0.Attempted? ==> r.1 == w
    ensures r.0.NoFeasibleCheckpoint? ==>
              forall s :: s in ListCheckpoints(w.checkpoints) ==> !Feasible(w, s.id)
    ensures r.0.Attempted? ==>
              var rows := ListCheckpoints(w.checkpoints);
              exists i :: 0 <= i < |rows| && Feasible(w, rows[i].id)
                          && (forall j :: 0 <= j < i ==> !Feasible(w, rows[j].id))
                          && r == (Attempted(Recover(w, rows[i].id, clock, faults).0),
                                   Recover(w, rows[i].id, clock, faults).1)
  {
    var rows := ListCheckpoints(w.checkpoints);
    if rows == [] then (NoCheckpoints, w)
    else
      var first := FirstFeasible(w, rows);
      if first.None? then (NoFeasibleCheckpoint, w)
      else
        var i := first.value;
        var rec := Recover(w, rows[i].id, clock, faults);
        assert 0 <= i < |rows| && Feasible(w, rows[i].id) && (forall j :: 0 <= j < i ==> !Feasible(w, rows[j].id))
               && (Attempted(rec.0), rec.1) == (Attempted(Recover(w, rows[i].id, clock, faults).0),
                                                Recover(w, rows[i].id, clock, faults).1);
        (Attempted(rec.0), rec.1)
  }

  /** an emergency recovery that happens recovers a checkpoint that
      validates as feasible */
  lemma EmergencyRecoversFeasible(w: World, clock: Clock, faults: Faults)
    requires EmergencyRecover(w, clock, faults).0.Attempted?
    ensures Validate(w, EmergencyRecover(w, clock, faults).0.result.checkpointId).feasible
  {
    var rows := ListCheckpoints(w.checkpoints);
    var i :| 0 <= i < |rows| && Feasible(w, rows[i].id)
             && EmergencyRecover(w, clock, faults).0 == Attempted(Recover(w, rows[i].id, clock, faults).0);
    ValidateDecidesFeasibility(w, rows[i].id);
  }

  // ============================================================== rebuild

  /** what `rebuild_from_files` finds in the project tree */
  datatype Survey = Survey(config: bool, progressDocs: nat, scripts: nat, resume: bool)

  /** a file directly inside directory `dir` whose name ends in `ext` */
  predicate DirectlyIn(p: string, dir: string, ext: string) {
    StartsWith(p, dir + "/") && '/' !in p[|dir| + 1..] && EndsWith(p[|dir| + 1..], ext)
  }

  function SurveyOf(project: map<string, FileEntry>): Survey {
    Survey("config.yaml" in project,
           |set p | p in project && DirectlyIn(p, "progress-state", ".md")|,
           |set p | p in project && DirectlyIn(p, "scripts", ".py")|,
           "resume.py" in project)
  }

  /** the confidence is raised step by step: config.yaml, then the
      progress documents, then resume.py */
  function ConfidenceOf(sv: Survey): (c: Confidence)
    ensures c == High <==> sv.resume
    ensures c == Medium <==> !sv.resume && (sv.config || sv.progressDocs > 0)
    ensures c == Low <==> !sv.resume && !sv.config && sv.progressDocs == 0
  {
    var c0 := Low;
    var c1 := if sv.config then Medium else c0;
    var c2 := if sv.progressDocs > 0 then Medium else c1;
    if sv.resume then High else c2
  }

  /** five points per script from three scripts on, capped at 25; at least
      15 once resume.py exists */
  function ProgressEstimate(sv: Survey): (p: int)
    ensures 0 <= p <= 25
    ensures sv.scripts < 3 ==> p == (if sv.resume then 15 else 0)
    ensures sv.scripts >= 3 ==> p == Min(25, 5 * sv.scripts)
    ensures sv.resume ==> p >= 15
  {
    var p0 := 0;
    var p1 := if sv.scripts >= 3 then Min(25, 5 * sv.scripts) else p0;
    if sv.resume then Max(p1, 15) else p1
  }

  function ConfidenceName(c: Confidence): string {
    match c
    case Low => "LOW"
    case Medium => "MEDIUM"
    case High => "HIGH"
  }

  function ProbableTask(sv: Survey): string {
    if sv.scripts >= 3 then "P1.1.3" else "UNKNOWN"
  }

  /** the position of a note in the order the analysis appends them */
  function NoteRank(n: RebuildNote): nat {
    match n
    case FoundConfig => 0
    case FoundProgressDocs(_) => 1
    case FoundScripts(_) => 2
    case FoundResume => 3
  }

  /** `reconstruction_notes`: one note per thing the analysis found, in the
      order it looks for them */
  function NotesOf(sv: Survey): (notes: seq<RebuildNote>)
    ensures FoundConfig in notes <==> sv.config
    ensures forall k :: FoundProgressDocs(k) in notes <==> k == sv.progressDocs && k > 0
    ensures forall k :: FoundScripts(k) in notes <==> k == sv.scripts && k > 0
    ensures FoundResume in notes <==> sv.resume
    ensures forall i, j :: 0 <= i < j < |notes| ==> NoteRank(notes[i]) < NoteRank(notes[j])
  {
    (if sv.config then [FoundConfig] else [])
    + (if sv.progressDocs > 0 then [FoundProgressDocs(sv.progressDocs)] else [])
    + (if sv.scripts > 0 then [FoundScripts(sv.scripts)] else [])
    + (if sv.resume then [FoundResume] else [])
  }

  /** The confidence can be read off the notes: high with a resume.py note,
      low with neither a config.yaml nor a progress-documents note. */
  lemma ConfidenceFromNotes(sv: Survey)
    ensures ConfidenceOf(sv) == High <==> FoundResume in NotesOf(sv)
    ensures ConfidenceOf(sv) == Low <==>
              FoundResume !in NotesOf(sv) && FoundConfig !in NotesOf(sv)
              && FoundProgressDocs(sv.progressDocs) !in NotesOf(sv)
  {
  }

  /** the reconstructed progress record */
  function RebuiltState(sv: Survey, clock: Clock): (s: ProgressRecord)
    ensures PhaseOf(s) == 1 && OverallProgressOf(s) == ProgressEstimate(sv) as real
    ensures ActiveTaskOr(s, "") == ProbableTask(sv)
    ensures s.metadata.Some? && s.metadata.value.reconstructionSource == Some("FILE_ANALYSIS")
    ensures s.rebuildInfo == Some(RebuildInfo(clock.isoTime, ConfidenceOf(sv), sv.scripts, NotesOf(sv)))
    ensures s.checkpoints.None? && s.recovery.None? && s.phases.None?
  {
    var c := ConfidenceOf(sv);
    ProgressRecord(
      Some(Metadata(Some("1.0"), Some(clock.isoTime), Some(clock.isoTime), Some("Recovery System"),
                    Some("ClaudeCode Enhancement"), Some(5), Some(1), Some(ProgressEstimate(sv) as real),
                    Some("FILE_ANALYSIS"))),
      Some(Session(Some("rebuilt_" + clock.stamp), Some(clock.isoTime), Some(clock.isoTime),
                   Some(ProbableTask(sv)),
                   Some("State rebuilt from file analysis. Confidence: " + ConfidenceName(c)),
                   Some("Validate reconstructed state and continue development"),
                   Some("Unknown - verify progress"), Some(30), None)),
      None, None, None, None, None,
      Some(RebuildInfo(clock.isoTime, c, sv.scripts, NotesOf(sv))))
  }

  datatype RebuildResult = RebuildResult(
    success: bool,
    confidence: Confidence,
    estimatedProgress: int,
    detectedPhase: int,
    probableTask: string,
    filesAnalyzed: nat,
    notes: seq<RebuildNote>)

  /** `rebuild_from_files`: survey the tree, copy any existing state file to
      a `corrupted_state_` backup, then overwrite the state with the
      reconstruction.  A failing copy or write ends the rebuild unsuccessful;
      a write that raised inside `json.dump` leaves the state file cut
      short. */
  function Rebuild(w: World, clock: Clock, faults: Faults): (r: (RebuildResult, World))
    ensures var sv := SurveyOf(w.project);
            r.0.confidence == ConfidenceOf(sv) && r.0.estimatedProgress == ProgressEstimate(sv)
            && r.0.filesAnalyzed == sv.scripts && r.0.detectedPhase == 1
            && r.0.notes == NotesOf(sv)
    ensures r.0.success <==> !(w.state.Some? && faults.backupFails) && faults.stateWrite.Written?
    ensures r.0.success ==> r.1.state == Some(Parsed(RebuiltState(SurveyOf(w.project), clock)))
    ensures (w.state.Some? && faults.backupFails) || faults.stateWrite.OpenRaised? ==> r.1.state == w.state
    ensures !(w.state.Some? && faults.backupFails) && faults.stateWrite.DumpRaised? ==>
              r.1.state == Some(Malformed(faults.stateWrite.partial))
    ensures w.state.Some? && !faults.backupFails ==>
              r.1.backups == w.backups + [Backup("corrupted_state_" + clock.stampSeconds + ".json", w.state.value)]
    ensures w.state.None? || faults.backupFails ==> r.1.backups == w.backups
    ensures r.1.(state := w.state, backups := w.backups) == w
  {
    var sv := SurveyOf(w.project);
    var res := RebuildResult(false, ConfidenceOf(sv), ProgressEstimate(sv), 1, ProbableTask(sv), sv.scripts, NotesOf(sv));
    if w.state.Some? && faults.backupFails then (res, w)
    else
      var w1 := if w.state.Some?
                then w.(backups := w.backups + [Backup("corrupted_state_" + clock.stampSeconds + ".json", w.state.value)])
                else w;
      (res.(success := faults.stateWrite.Written?), w1.(state := StateAfter(faults.stateWrite, w1.state, RebuiltState(sv, clock))))
  }
}

=== FILE: severity.dfy ===
/** The four severities both configuration validators grade their findings
    by, and the per-severity counts of their summaries. */
module Severities {
  datatype Severity = Critical | Error | Warning | Info

  /** the severity of each finding, in order */
  function Graded<T>(items: seq<T>, severity: T -> Severity): (r: seq<Severity>)
    ensures |r| == |items|
    ensures forall i :: 0 <= i < |items| ==> r[i] == severity(items[i])
  {
    if items == [] then [] else [severity(items[0])] + Graded(items[1..], severity)
  }

  /** a severity occurs among the graded findings exactly when some
      finding has it */
  lemma GradedHas<T>(items: seq<T>, severity: T -> Severity, s: Severity)
    ensures s in Graded(items, severity) <==> exists x :: x in items && severity(x) == s
  {
    var g := Graded(items, severity);
    if s in g {
      var i :| 0 <= i < |g| && g[i] == s;
      assert items[i] in items;
    }
  }

  /** how many of the graded findings have severity `s` */
  function CountSeverity(sevs: seq<Severity>, s: Severity): (n: nat)
    ensures n == multiset(sevs)[s]
    ensures n == 0 <==> s !in sevs
  {
    if sevs == [] then 0
    else
      assert sevs == [sevs[0]] + sevs[1..];
      (if sevs[0] == s then 1 else 0) + CountSeverity(sevs[1..], s)
  }

  /** Every finding has exactly one severity, so the four counts add up to
      the number of findings. */
  lemma {:induction false} SeveritiesPartition(sevs: seq<Severity>)
    ensures |sevs| == CountSeverity(sevs, Critical) + CountSeverity(sevs, Error)
                      + CountSeverity(sevs, Warning) + CountSeverity(sevs, Info)
  {
    if sevs != [] {
      SeveritiesPartition(sevs[1..]);
    }
  }
}

=== FILE: sorting.dfy ===
/** Python's stable `list.sort(key=...)`, written as insertion sort over
    sequences, in the two orders the scripts use: ascending by an integer
    key (modification times) and descending by a text key (ISO timestamps,
    compared code point by code point as Python compares strings). */
module Sorting {

  ghost predicate SortedByKey<T>(s: seq<T>, key: T -> int) {
    forall i, j :: 0 <= i < j < |s| ==> key(s[i]) <= key(s[j])
  }

  function InsertByKey<T>(x: T, s: seq<T>, key: T -> int): (r: seq<T>)
    requires SortedByKey(s, key)
    ensures multiset(r) == multiset(s) + multiset{x}
    ensures |r| == |s| + 1
    ensures SortedByKey(r, key)
  {
    if s == [] || key(x) <= key(s[0]) then
      PrependSorted(x, s, key);
      [x] + s
    else
      var rest := InsertByKey(x, s[1..], key);
      assert s == [s[0]] + s[1..];
      forall k | 0 <= k < |rest| ensures key(s[0]) <= key(rest[k]) {
        MembersOfInsert(rest, s[1..], x, k);
      }
      PrependSorted(s[0], rest, key);
      [s[0]] + rest
  }

  /** an element whose key is at most the first key of an ascending
      sequence can go in front of it */
  lemma PrependSorted<T>(y: T, s: seq<T>, key: T -> int)
    requires SortedByKey(s, key)
    requires s == [] || key(y) <= key(s[0])
    ensures SortedByKey([y] + s, key)
  {
    var r := [y] + s;
    forall i, j | 0 <= i < j < |r| ensures key(r[i]) <= key(r[j]) {
      assert r[j] == s[j - 1];
      if i > 0 {
        assert r[i] == s[i - 1];
      }
    }
  }

  /** every element of a sequence holding `s` plus `x` is `x` or from `s` */
  lemma MembersOfInsert<T>(r: seq<T>, s: seq<T>, x: T, k: int)
    requires multiset(r) == multiset(s) + multiset{x}
    requires 0 <= k < |r|
    ensures r[k] == x || r[k] in s
  {
    assert r[k] in multiset(r);
  }

  /** `sorted(s, key=key)`: a permutation of `s`, ascending by `key` */
  function SortByKey<T>(s: seq<T>, key: T -> int): (r: seq<T>)
    ensures multiset(r) == multiset(s)
    ensures |r| == |s|
    ensures SortedByKey(r, key)
  {
    if s == [] then []
    else
      assert s == [s[0]] + s[1..];
      InsertByKey(s[0], SortByKey(s[1..], key), key)
  }

  // --------------------------------------------------------- text ordering

  /** Python's `a <= b` on strings */
  predicate TextLeq(a: string, b: string) {
    a == [] || (b != [] && (a[0] < b[0] || (a[0] == b[0] && TextLeq(a[1..], b[1..]))))
  }

  lemma {:induction false} TextLeqTotal(a: string, b: string)
    ensures TextLeq(a, b) || TextLeq(b, a)
  {
    if a != [] && b != [] && a[0] == b[0] {
      TextLeqTotal(a[1..], b[1..]);
    }
  }

  lemma {:induction false} TextLeqTransitive(a: string, b: string, c: string)
    requires TextLeq(a, b) && TextLeq(b, c)
    ensures TextLeq(a, c)
  {
    if a != [] && a[0] == b[0] && b[0] == c[0] {
      TextLeqTransitive(a[1..], b[1..], c[1..]);
    }
  }

  ghost predicate SortedByTextDesc<T>(s: seq<T>, key: T -> string) {
    forall i, j :: 0 <= i < j < |s| ==> TextLeq(key(s[j]), key(s[i]))
  }

  /** an element whose key is at least every key of a descending sequence
      can go in front of it */
  lemma PrependSortedDesc<T>(y: T, s: seq<T>, key: T -> string)
    requires SortedByTextDesc(s, key)
    requires forall k :: 0 <= k < |s| ==> TextLeq(key(s[k]), key(y))
    ensures SortedByTextDesc([y] + s, key)
  {
    var r := [y] + s;
    forall i, j | 0 <= i < j < |r| ensures TextLeq(key(r[j]), key(r[i])) {
      assert r[j] == s[j - 1];
      if i > 0 {
        assert r[i] == s[i - 1];
      }
    }
  }

  function InsertByTextDesc<T>(x: T, s: seq<T>, key: T -> string): (r: seq<T>)
    requires SortedByTextDesc(s, key)
    ensures multiset(r) == multiset(s) + multiset{x}
    ensures |r| == |s| + 1
    ensures SortedByTextDesc(r, key)
  {
    if s == [] || TextLeq(key(s[0]), key(x)) then
      forall j | 0 < j < |s| ensures TextLeq(key(s[j]), key(x)) {
        TextLeqTransitive(key(s[j]), key(s[0]), key(x));
      }
      PrependSortedDesc(x, s, key);
      [x] + s
    else
      TextLeqTotal(key(s[0]), key(x));
      var rest := InsertByTextDesc(x, s[1..], key);
      assert s == [s[0]] + s[1..];
      forall k | 0 <= k < |rest| ensures TextLeq(key(rest[k]), key(s[0])) {
        MembersOfInsert(rest, s[1..], x, k);
      }
      PrependSortedDesc(s[0], rest, key);
      [s[0]] + rest
  }

  /** `sorted(s, key=key, reverse=True)`: a permutation, newest text first */
  function SortByTextDesc<T>(s: seq<T>, key: T -> string): (r: seq<T>)
    ensures multiset(r) == multiset(s)
    ensures |r| == |s|
    ensures SortedByTextDesc(r, key)
  {
    if s == [] then []
    else
      assert s == [s[0]] + s[1..];
      InsertByTextDesc(s[0], SortByTextDesc(s[1..], key), key)
  }
}

=== FILE: store.dfy ===
/** The part of the filesystem the checkpoint scripts touch, as values.

    - `project` maps a path relative to the project root to the file there;
      directories are implicit.
    - `state` is progress-state/PROGRESS_STATE.json.
    - `checkpoints` is progress-state/checkpoints/ in directory-listing
      order, the order `glob` yields its entries.
    - `snapshots` is progress-state/snapshots/<checkpoint id>/<path>.
    - `backups` is progress-state/backups/, in creation order.
    - `recoveryLog` is the lines of progress-state/recovery.log. */
module Store {
  import opened Common
  import opened Progress

  /** a regular file; its size is the length of its content */
  datatype FileEntry = FileEntry(content: string, mtime: int, readable: bool)

  /** the progress file as `json.load` sees it */
  datatype StateFile = Parsed(record: ProgressRecord) | Malformed(text: string)

  /** a checkpoint file as `json.load` sees it */
  datatype StoredCheckpoint = Readable(data: CheckpointFile) | Corrupt

  datatype CheckpointEntry = CheckpointEntry(name: string, mtime: int, size: nat, stored: StoredCheckpoint)

  datatype Backup = Backup(name: string, copy: StateFile)

  /** How writing a JSON file with `open(path, 'w')` and `json.dump` ends:
      it is written; `open` raises and the file is untouched; or `open`
      has emptied the file and `json.dump` raises after writing `partial`,
      an unfinished JSON text that no longer parses. */
  datatype WriteEnd = Written | OpenRaised | DumpRaised(partial: string)
  {
    predicate Fails() {
      !Written?
    }
  }

  /** the progress file after writing `written` over `before` ended as `e` */
  function StateAfter(e: WriteEnd, before: Option<StateFile>, written: ProgressRecord): (r: Option<StateFile>)
    ensures e.Written? ==> r == Some(Parsed(written))
    ensures e.OpenRaised? ==> r == before
    ensures e.DumpRaised? ==> r == Some(Malformed(e.partial))
  {
    match e
    case Written => Some(Parsed(written))
    case OpenRaised => before
    case DumpRaised(partial) => Some(Malformed(partial))
  }

  /** what makes a checkpoint invalid, in place of the issue text */
  datatype Issue =
    | NotFound(id: string)               // "Checkpoint file not found for <id>"
    | MissingFields(fields: seq<string>) // "Missing required fields: a, b"

  /** the messages a recovery run reports, in place of their English text */
  datatype Message =
    | ValidationFailed                   // "Checkpoint validation failed"
    | Problem(issue: Issue)              // an issue copied from the validator
    | BackupWarning                      // "Warning: Could not create recovery backup"
    | StateRestored                      // "Progress state restored successfully"
    | StateRestoreFailed                 // "Failed to restore progress state: ..."
    | NoSnapshot(path: string)           // "No snapshot found for <path>"
    | RestoreFailed(path: string)        // "Failed to restore <path>: ..."
    | Completed(id: string)              // "Recovery from <id> completed successfully"
    | CompletedWithIssues(id: string)    // "Recovery from <id> completed with issues"

  /** one JSON line of recovery.log */
  datatype LogLine = LogLine(
    timestamp: string,
    checkpointId: string,
    success: bool,
    filesRestored: nat,
    filesFailed: nat,
    messages: seq<Message>)

  datatype World = World(
    project: map<string, FileEntry>,
    state: Option<StateFile>,
    checkpoints: seq<CheckpointEntry>,
    snapshots: map<(string, string), FileEntry>,
    backups: seq<Backup>,
    recoveryLog: seq<LogLine>)
  {
    /** a directory never lists two entries under one name */
    ghost predicate Valid() {
      DistinctNames(checkpoints)
    }
  }

  ghost predicate DistinctNames(dir: seq<CheckpointEntry>) {
    forall i, j :: 0 <= i < j < |dir| ==> dir[i].name != dir[j].name
  }

  function Names(dir: seq<CheckpointEntry>): (r: seq<string>)
    ensures |r| == |dir| && forall i :: 0 <= i < |dir| ==> r[i] == dir[i].name
  {
    if dir == [] then [] else [dir[0].name] + Names(dir[1..])
  }

  /** Writing the file `e.name`: an existing file of that name is
      overwritten in place, otherwise the new file is listed last. */
  function PutCheckpoint(dir: seq<CheckpointEntry>, e: CheckpointEntry): (r: seq<CheckpointEntry>)
    requires DistinctNames(dir)
    ensures e in r
    ensures forall x :: x in r ==> x == e || (x in dir && x.name != e.name)
    ensures forall x :: x in dir && x.name != e.name ==> x in r
    ensures DistinctNames(r)
    ensures (exists x :: x in dir && x.name == e.name) ==> |r| == |dir|
    ensures (forall x :: x in dir ==> x.name != e.name) ==> r == dir + [e]
  {
    if dir == [] then [e]
    else
      TailNamesDiffer(dir);
      if dir[0].name == e.name then
        ConsDistinct(e, dir[1..]);
        [e] + dir[1..]
      else
        var rest := PutCheckpoint(dir[1..], e);
        ConsDistinct(dir[0], rest);
        [dir[0]] + rest
  }

  /** the files after the first have names other than the first's */
  lemma TailNamesDiffer(dir: seq<CheckpointEntry>)
    requires DistinctNames(dir) && dir != []
    ensures DistinctNames(dir[1..])
    ensures forall x :: x in dir[1..] ==> x.name != dir[0].name
  {
    forall x | x in dir[1..] ensures x.name != dir[0].name {
      var m :| 0 <= m < |dir[1..]| && dir[1..][m] == x;
      assert dir[m + 1] == x;
    }
  }

  /** a file whose name no other file has can be listed first */
  lemma ConsDistinct(h: CheckpointEntry, rest: seq<CheckpointEntry>)
    requires DistinctNames(rest)
    requires forall x :: x in rest ==> x.name != h.name
    ensures DistinctNames([h] + rest)
  {
    var r := [h] + rest;
    forall i, j | 0 <= i < j < |r| ensures r[i].name != r[j].name {
      assert r[j] == rest[j - 1];
      if i == 0 {
        assert rest[j - 1] in rest;
      } else {
        assert r[i] == rest[i - 1];
      }
    }
  }

  /** The directory after writing the checkpoint file `e` ended as `end`: a
      file cut short by `json.dump` is listed under the same name, with the
      size of what was written, and does not parse. */
  function WriteCheckpoint(dir: seq<CheckpointEntry>, e: CheckpointEntry, end: WriteEnd): (r: seq<CheckpointEntry>)
    requires DistinctNames(dir)
    ensures DistinctNames(r)
    ensures end.Written? ==> r == PutCheckpoint(dir, e)
    ensures end.OpenRaised? ==> r == dir
    ensures end.DumpRaised? ==> r == PutCheckpoint(dir, e.(size := |end.partial|, stored := Corrupt))
  {
    match end
    case Written => PutCheckpoint(dir, e)
    case OpenRaised => dir
    case DumpRaised(partial) => PutCheckpoint(dir, e.(size := |partial|, stored := Corrupt))
  }
}

=== FILE: validate_config.dfy ===
/** The configuration validator of validate_config.py (`ConfigValidator`):
    the sequence of checks `validate_all` runs over config.yaml and the
    agent-config tree, the report, and the directory auto-fix.

    The file system is a map from absolute path to node.  A readable file
    is seen through what the checks parse out of it: its YAML frontmatter
    (between the first two `---` lines) and the names its `depends_on:`
    lines list. */
module ValidateConfig {
  import opened Common
  import opened Yaml
  import DependencyGraph
  import opened Severities

  /** a `ValidationError` without its message text and timestamp */
  datatype Finding = Finding(severity: Severity, category: string, fix: Option<string>)

  /** what `yaml.safe_load` makes of config.yaml */
  datatype YamlLoad = YamlSyntaxError | LoadFailed | Loaded(doc: Yaml)

  /** config.yaml as the existence check finds it */
  datatype ConfigFile =
    | ConfigMissing
    | ConfigNotAFile
    | ConfigDenied        // PermissionError on open
    | ConfigUnreadable    // any other error on open
    | ConfigText(load: YamlLoad)

  /** a component file's frontmatter: the file does not start with `---`;
      it does, but `split('---', 2)` gives fewer than three parts; the
      frontmatter is not valid YAML; or it is this YAML value */
  datatype Front = NoFrontmatter | TooFewParts | BadFrontmatter | Frontmatter(doc: Yaml)

  datatype Node = Dir | File(readable: bool, front: Front, deps: seq<string>)

  type Tree = map<string, Node>

  predicate IsDirAt(t: Tree, p: string) {
    p in t && t[p].Dir?
  }

  predicate IsReadableFile(t: Tree, p: string) {
    p in t && t[p].File? && t[p].readable
  }

  function Err(category: string): Finding {
    Finding(Error, category, None)
  }

  // ------------------------------------------------- config file and syntax

  /** `_validate_config_file_exists` */
  function ConfigFileFindings(c: ConfigFile): (r: seq<Finding>)
    ensures c.ConfigText? <==> r == []
    ensures !c.ConfigText? ==> |r| == 1 && r[0].severity == Critical
  {
    match c
    case ConfigMissing => [Finding(Critical, "file_missing", Some("Create config.yaml in the ClaudeCode root directory"))]
    case ConfigNotAFile => [Finding(Critical, "file_type", None)]
    case ConfigDenied => [Finding(Critical, "file_permissions", None)]
    case ConfigUnreadable => [Finding(Critical, "file_access", None)]
    case ConfigText(_) => []
  }

  /** `_load_and_validate_config_syntax`: only a mapping at the root passes */
  function SyntaxFindings(l: YamlLoad): (r: seq<Finding>)
    ensures (l.Loaded? && l.doc.YMap?) <==> r == []
    ensures r != [] ==> |r| == 1 && r[0].severity == Critical
  {
    match l
    case YamlSyntaxError => [Finding(Critical, "yaml_syntax", Some("Fix YAML syntax errors using a YAML validator"))]
    case LoadFailed => [Finding(Critical, "config_load", None)]
    case Loaded(d) => if d.YMap? then [] else [Finding(Critical, "config_format", None)]
  }

  // ------------------------------------------------------------ directories

  const RequiredDirs: seq<string> := [
    "agent-config", "agent-config/persona", "agent-config/prompts", "agent-config/guardrails",
    "agent-config/behaviors", "agent-config/workflows", "agent-config/templates"]

  const OptionalDirs: seq<string> := [
    "features", "logs", "tasks", "scripts", "agent-config/command_templates", "agent-config/prd"]

  function Under(root: string, rel: string): string {
    root + "/" + rel
  }

  const MkdirCommand := "mkdir -p "
  const MkdirPrefix := "Create directory: " + MkdirCommand

  /** the findings for required directories: a missing one, or a path that
      is not a directory, is one error each */
  function RequiredDirFindings(root: string, t: Tree, dirs: seq<string>): (r: seq<Finding>)
    ensures r == [] <==> forall d :: d in dirs ==> IsDirAt(t, Under(root, d))
    ensures forall f :: f in r ==> f.severity == Error
  {
    if dirs == [] then []
    else
      var full := Under(root, dirs[0]);
      var here := if full !in t then [Finding(Error, "missing_directory", Some(MkdirPrefix + full))]
                  else if !t[full].Dir? then [Err("not_directory")]
                  else [];
      assert forall d :: d in dirs <==> d == dirs[0] || d in dirs[1..];
      here + RequiredDirFindings(root, t, dirs[1..])
  }

  function OptionalDirFindings(root: string, t: Tree, dirs: seq<string>): (r: seq<Finding>)
    ensures forall f :: f in r ==> f.severity == Info
  {
    if dirs == [] then []
    else
      var full := Under(root, dirs[0]);
      (if full !in t then [Finding(Info, "optional_directory", Some("Consider creating: mkdir -p " + full))] else [])
      + OptionalDirFindings(root, t, dirs[1..])
  }

  ghost predicate DirectoriesOk(root: string, t: Tree) {
    forall d :: d in RequiredDirs ==> IsDirAt(t, Under(root, d))
  }

  /** `_validate_directory_structure`: only the required directories decide */
  function DirectoryStep(root: string, t: Tree): (r: (bool, seq<Finding>))
    ensures r.0 <==> DirectoriesOk(root, t)
    ensures forall f :: f in r.1 ==> f.severity == Error || f.severity == Info
    ensures r.0 ==> forall f :: f in r.1 ==> f.severity == Info
  {
    var req := RequiredDirFindings(root, t, RequiredDirs);
    (req == [], req + OptionalDirFindings(root, t, OptionalDirs))
  }

  // --------------------------------------------------------- file references

  const FileSections: seq<string> := [
    "persona", "prompts", "guardrails", "behaviors", "workflows", "templates", "command_templates", "prd"]

  /** `_validate_single_file_reference`'s path: relative references live
      under agent-config/, references starting with '/' are taken as-is.
      The join is plain concatenation: `str(Path(...))` would also collapse
      repeated slashes, drop `.` segments and a trailing slash, which is not
      modelled, so two spellings of one file count as two paths here. */
  function Resolve(root: string, ref: string): string {
    if StartsWith(ref, "/") then ref else root + "/agent-config/" + ref
  }

  /** the string entries of a list, in order */
  function StringItems(items: seq<Yaml>): (r: seq<string>)
    ensures forall s :: s in r <==> YStr(s) in items
  {
    if items == [] then []
    else
      assert items == [items[0]] + items[1..];
      (if items[0].YStr? then [items[0].s] else []) + StringItems(items[1..])
  }

  /** the references a section lists: none unless the section is a list */
  function SectionRefs(cfg: seq<(string, Yaml)>, section: string): seq<string> {
    match Lookup(cfg, section)
    case Some(YList(items)) => StringItems(items)
    case _ => []
  }

  /** the one error a bad reference gets: missing, not a file, unreadable */
  function RefFindings(section: string, refs: seq<string>, root: string, t: Tree): (r: seq<Finding>)
    ensures r == [] <==> forall ref :: ref in refs ==> IsReadableFile(t, Resolve(root, ref))
    ensures forall f :: f in r ==> f.severity == Error
  {
    if refs == [] then []
    else
      var full := Resolve(root, refs[0]);
      var here := if full !in t then [Finding(Error, "missing_file", Some("Create file or fix reference: " + full))]
                  else if !t[full].File? then [Err("not_file")]
                  else if !t[full].readable then [Err("file_unreadable")]
                  else [];
      assert forall x :: x in refs <==> x == refs[0] || x in refs[1..];
      here + RefFindings(section, refs[1..], root, t)
  }

  function SectionsFindings(cfg: seq<(string, Yaml)>, sections: seq<string>, root: string, t: Tree): (r: seq<Finding>)
    ensures r == [] <==> forall s, ref :: s in sections && ref in SectionRefs(cfg, s) ==> IsReadableFile(t, Resolve(root, ref))
    ensures forall f :: f in r ==> f.severity == Error
  {
    if sections == [] then []
    else
      assert forall x :: x in sections <==> x == sections[0] || x in sections[1..];
      RefFindings(sections[0], SectionRefs(cfg, sections[0]), root, t) + SectionsFindings(cfg, sections[1..], root, t)
  }

  ghost predicate ReferencesOk(cfg: seq<(string, Yaml)>, root: string, t: Tree) {
    cfg != [] && forall s, ref :: s in FileSections && ref in SectionRefs(cfg, s) ==> IsReadableFile(t, Resolve(root, ref))
  }

  /** `_validate_file_references`: an empty configuration fails without a
      finding (`if not self.config_data`) */
  function ReferenceStep(cfg: seq<(string, Yaml)>, root: string, t: Tree): (r: (bool, seq<Finding>))
    ensures r.0 <==> ReferencesOk(cfg, root, t)
    ensures r.0 ==> r.1 == []
    ensures forall f :: f in r.1 ==> f.severity == Error
  {
    if cfg == [] then (false, [])
    else
      var f := SectionsFindings(cfg, FileSections, root, t);
      (f == [], f)
  }

  /** `self.file_references`: per section with at least one reference, the
      resolved paths, each once.  The source keeps them in a `set`, whose
      iteration order is unspecified; here they are listed in order of first
      mention, and nothing below depends on that order. */
  function FileReferences(cfg: seq<(string, Yaml)>, sections: seq<string>, root: string): (r: seq<(string, seq<string>)>)
    ensures forall k :: 0 <= k < |r| ==> r[k].0 in sections
    ensures forall k, p :: 0 <= k < |r| && p in r[k].1 ==> exists ref :: ref in SectionRefs(cfg, r[k].0) && p == Resolve(root, ref)
  {
    if sections == [] then []
    else
      var refs := SectionRefs(cfg, sections[0]);
      var here := if refs == [] then [] else [(sections[0], Unique(ResolveAll(root, refs)))];
      here + FileReferences(cfg, sections[1..], root)
  }

  function ResolveAll(root: string, refs: seq<string>): (r: seq<string>)
    ensures |r| == |refs| && forall k :: 0 <= k < |refs| ==> r[k] == Resolve(root, refs[k])
  {
    if refs == [] then [] else [Resolve(root, refs[0])] + ResolveAll(root, refs[1..])
  }

  /** the (section, path) pairs of `file_references`, in iteration order */
  function Pairs(refs: seq<(string, seq<string>)>): seq<(string, string)> {
    if refs == [] then [] else Tag(refs[0].0, refs[0].1) + Pairs(refs[1..])
  }

  function Tag(section: string, paths: seq<string>): seq<(string, string)> {
    if paths == [] then [] else [(section, paths[0])] + Tag(section, paths[1..])
  }

  // --------------------------------------------------------- component files

  const FrontmatterFields: seq<string> := ["id", "category", "priority", "version"]

  /** `section.rstrip('s')`: the category a section's files should declare */
  function ExpectedCategory(section: string): (c: string)
    ensures StartsWith(section, c)
    ensures c == [] || c[|c| - 1] != 's'
    ensures forall i :: |c| <= i < |section| ==> section[i] == 's'
  {
    RStripChars(section, {'s'})
  }

  /** one warning per required frontmatter field that is missing */
  function MissingFieldFindings(e: seq<(string, Yaml)>, fields: seq<string>): (r: seq<Finding>)
    ensures |r| <= |fields|
    ensures forall f :: f in r ==> f == Finding(Warning, "missing_frontmatter", None)
    ensures r == [] <==> forall x :: x in fields ==> HasKey(e, x)
  {
    if fields == [] then []
    else
      assert forall x :: x in fields <==> x == fields[0] || x in fields[1..];
      (if HasKey(e, fields[0]) then [] else [Finding(Warning, "missing_frontmatter", None)])
      + MissingFieldFindings(e, fields[1..])
  }

  /** the frontmatter registers a priority (`priority_map[id] = priority`) */
  predicate Registers(t: Tree, p: string) {
    IsReadableFile(t, p) && t[p].front.Frontmatter? && t[p].front.doc.YMap?
    && HasKey(t[p].front.doc.entries, "priority") && HasKey(t[p].front.doc.entries, "id")
    && Hashable(Lookup(t[p].front.doc.entries, "id").value)
  }

  /** the component check passes: the file opens, its frontmatter parses,
      and an `id` used as a key is hashable */
  predicate ComponentOk(t: Tree, p: string) {
    IsReadableFile(t, p) && !t[p].front.BadFrontmatter?
    && !(t[p].front.Frontmatter? && t[p].front.doc.YMap?
         && HasKey(t[p].front.doc.entries, "priority") && HasKey(t[p].front.doc.entries, "id")
         && !Hashable(Lookup(t[p].front.doc.entries, "id").value))
  }

  datatype Component = Component(ok: bool, findings: seq<Finding>, registers: bool)

  /** `_validate_component_file_format` */
  function CheckComponent(section: string, p: string, t: Tree): (r: Component)
    ensures r.ok <==> ComponentOk(t, p)
    ensures r.registers <==> Registers(t, p)
    ensures forall f :: f in r.findings ==> f.severity != Critical
    ensures r.ok ==> forall f :: f in r.findings ==> f.severity != Error
  {
    if !IsReadableFile(t, p) then Component(false, [Err("file_validation")], false)
    else
      match t[p].front
      case NoFrontmatter =>
        Component(true, [Finding(Info, "no_frontmatter", Some("Add YAML frontmatter with id, category, priority, version"))], false)
      case TooFewParts => Component(true, [], false)
      case BadFrontmatter => Component(false, [Err("frontmatter_syntax")], false)
      case Frontmatter(doc) =>
        if !doc.YMap? then Component(true, [], false)
        else
          var e := doc.entries;
          var mismatch := Lookup(e, "category");
          var warnings := MissingFieldFindings(e, FrontmatterFields)
            + (if mismatch.Some? && mismatch.value != YStr(ExpectedCategory(section))
               then [Finding(Warning, "category_mismatch", None)] else []);
          if HasKey(e, "priority") && HasKey(e, "id") then
            if Hashable(Lookup(e, "id").value) then Component(true, warnings, true)
            else Component(false, warnings + [Err("file_validation")], false)
          else Component(true, warnings, false)
  }

  /** `_validate_component_files` over the (section, path) pairs */
  function ComponentStep(pairs: seq<(string, string)>, t: Tree): (r: Component)
    ensures r.ok <==> forall k :: 0 <= k < |pairs| ==> ComponentOk(t, pairs[k].1)
    ensures r.registers <==> exists k :: 0 <= k < |pairs| && Registers(t, pairs[k].1)
    ensures forall f :: f in r.findings ==> f.severity != Critical
    ensures r.ok ==> forall f :: f in r.findings ==> f.severity != Error
  {
    if pairs == [] then Component(true, [], false)
    else
      var c := CheckComponent(pairs[0].0, pairs[0].1, t);
      var rest := ComponentStep(pairs[1..], t);
      assert forall k :: 1 <= k < |pairs| ==> pairs[k] == pairs[1..][k - 1];
      assert rest.registers ==> exists k :: 0 <= k < |pairs| && Registers(t, pairs[k].1) by {
        if rest.registers {
          var k :| 0 <= k < |pairs[1..]| && Registers(t, pairs[1..][k].1);
          assert pairs[k + 1] == pairs[1..][k];
        }
      }
      Component(c.ok && rest.ok, c.findings + rest.findings, c.registers || rest.registers)
  }

  // -------------------------------------------------------------- priorities

  /** the (category, priority) of every file whose frontmatter names both,
      in iteration order; a category that cannot be a key is skipped (the
      `except: continue` around the grouping) */
  function PriorityItems(pairs: seq<(string, string)>, t: Tree): (r: seq<(Yaml, Yaml)>)
    ensures forall k :: 0 <= k < |r| ==> Hashable(r[k].0) && r[k].0 == KeyOf(r[k].0)
  {
    if pairs == [] then []
    else
      var p := pairs[0].1;
      var here :=
        if IsReadableFile(t, p) && t[p].front.Frontmatter? && t[p].front.doc.YMap?
           && HasKey(t[p].front.doc.entries, "priority") && HasKey(t[p].front.doc.entries, "category")
           && Hashable(Lookup(t[p].front.doc.entries, "category").value)
        then [(KeyOf(Lookup(t[p].front.doc.entries, "category").value), Lookup(t[p].front.doc.entries, "priority").value)]
        else [];
      here + PriorityItems(pairs[1..], t)
  }

  /** the items with their priorities as dictionary keys; `None` when one
      cannot be a key, where Python's grouping raises `TypeError` */
  function KeyedItems(items: seq<(Yaml, Yaml)>): (r: Option<seq<(Yaml, Yaml)>>)
    ensures r.None? <==> exists k :: 0 <= k < |items| && !Hashable(items[k].1)
    ensures r.Some? ==> |r.value| == |items|
    ensures r.Some? ==> forall k :: 0 <= k < |items| ==> r.value[k] == (items[k].0, KeyOf(items[k].1))
  {
    if items == [] then Some([])
    else if !Hashable(items[0].1) then None
    else
      var rest := KeyedItems(items[1..]);
      assert forall k :: 1 <= k < |items| ==> items[k] == items[1..][k - 1];
      if rest.None? then None else Some([(items[0].0, KeyOf(items[0].1))] + rest.value)
  }

  function Firsts(items: seq<(Yaml, Yaml)>): (r: seq<Yaml>)
    ensures forall c :: c in r <==> exists p :: (c, p) in items
  {
    if items == [] then []
    else
      assert items == [items[0]] + items[1..];
      [items[0].0] + Firsts(items[1..])
  }

  /** the priorities used in category `c`, in order */
  function PrioritiesIn(items: seq<(Yaml, Yaml)>, c: Yaml): (r: seq<Yaml>)
    ensures forall p :: p in r <==> (c, p) in items
  {
    if items == [] then []
    else
      assert items == [items[0]] + items[1..];
      (if items[0].0 == c then [items[0].1] else []) + PrioritiesIn(items[1..], c)
  }

  /** the priorities of category `c` used more than once */
  function SharedIn(items: seq<(Yaml, Yaml)>, c: Yaml, ps: seq<Yaml>): (r: seq<(Yaml, Yaml)>)
    requires Distinct(ps)
    ensures forall x :: x in r <==> x.0 == c && x.1 in ps && multiset(items)[x] > 1
    ensures Distinct(r)
  {
    if ps == [] then []
    else
      var rest := SharedIn(items, c, ps[1..]);
      assert forall x :: x in ps <==> x == ps[0] || x in ps[1..];
      assert ps[0] !in ps[1..];
      if multiset(items)[(c, ps[0])] > 1 then [(c, ps[0])] + rest else rest
  }

  /** the conflict loop over categories in first-seen order */
  function SharedAll(items: seq<(Yaml, Yaml)>, cats: seq<Yaml>): (r: seq<(Yaml, Yaml)>)
    requires Distinct(cats)
    ensures forall x :: x in r <==> x.0 in cats && x.1 in PrioritiesIn(items, x.0) && multiset(items)[x] > 1
    ensures Distinct(r)
  {
    if cats == [] then []
    else
      var here := SharedIn(items, cats[0], Unique(PrioritiesIn(items, cats[0])));
      var rest := SharedAll(items, cats[1..]);
      assert forall x :: x in cats <==> x == cats[0] || x in cats[1..];
      assert cats[0] !in cats[1..];
      DisjointConcat(here, rest);
      here + rest
  }

  lemma DisjointConcat<T>(a: seq<T>, b: seq<T>)
    requires Distinct(a) && Distinct(b)
    requires forall x :: x in a ==> x !in b
    ensures Distinct(a + b)
  {
    forall i, j | 0 <= i < j < |a + b| ensures (a + b)[i] != (a + b)[j] {
      if i < |a| && j >= |a| {
        assert (a + b)[i] in a && (a + b)[j] in b;
      }
    }
  }

  /** the (category, priority) pairs `_validate_priorities` warns about */
  function Conflicts(items: seq<(Yaml, Yaml)>): (r: seq<(Yaml, Yaml)>)
    ensures Distinct(r)
  {
    SharedAll(items, Unique(Firsts(items)))
  }

  /** One warning per (category, priority) that more than one file uses,
      and none for any other pair. */
  lemma ConflictsAreSharedPairs(items: seq<(Yaml, Yaml)>, x: (Yaml, Yaml))
    ensures x in Conflicts(items) <==> multiset(items)[x] > 1
  {
    if multiset(items)[x] > 1 {
      assert x in items;
      assert x.0 in Firsts(items);
    }
  }

  /** A value at two positions occurs more than once. */
  lemma TwiceCounted(s: seq<(Yaml, Yaml)>, i: nat, j: nat)
    requires i < j < |s| && s[i] == s[j]
    ensures multiset(s)[s[i]] > 1
  {
    assert s == s[..j] + s[j..];
    assert s[..j][i] == s[i] && s[j..][0] == s[i];
    assert multiset(s[..j])[s[i]] >= 1 && multiset(s[j..])[s[i]] >= 1;
  }

  /** Two files of one category whose priorities Python finds equal, such
      as `1` and `1.0`, or `1` and `true`, are reported as a conflict. */
  lemma EqualPrioritiesConflict(items: seq<(Yaml, Yaml)>, i: nat, j: nat)
    requires KeyedItems(items).Some?
    requires i < j < |items| && items[i].0 == items[j].0
    requires Hashable(items[i].1) && Hashable(items[j].1) && PyEquals(items[i].1, items[j].1)
    ensures (items[i].0, KeyOf(items[i].1)) in Conflicts(KeyedItems(items).value)
  {
    var keyed := KeyedItems(items).value;
    KeyOfIsEquality(items[i].1, items[j].1);
    assert keyed[i] == keyed[j];
    TwiceCounted(keyed, i, j);
    ConflictsAreSharedPairs(keyed, keyed[i]);
  }

  /** `_validate_priorities`: always passes; `None` where it raises */
  function PriorityStep(pairs: seq<(string, string)>, t: Tree, registered: bool): (r: Option<seq<Finding>>)
    ensures !registered ==> r == Some([Finding(Warning, "no_priorities", None)])
    ensures r.Some? ==> forall f :: f in r.value ==> f.severity == Warning
  {
    if !registered then Some([Finding(Warning, "no_priorities", None)])
    else
      match KeyedItems(PriorityItems(pairs, t))
      case None => None
      case Some(items) => Some(ConflictFindings(Conflicts(items)))
  }

  function ConflictFindings(conflicts: seq<(Yaml, Yaml)>): (r: seq<Finding>)
    ensures |r| == |conflicts|
    ensures forall f :: f in r ==> f == Finding(Warning, "priority_conflict", Some("Assign unique priorities within each category"))
  {
    if conflicts == [] then []
    else [Finding(Warning, "priority_conflict", Some("Assign unique priorities within each category"))]
         + ConflictFindings(conflicts[1..])
  }

  // ------------------------------------------------------------ dependencies

  /** `Path(p).stem`: the last component without its suffix */
  function Stem(p: string): string {
    var name := BaseName(p);
    name[..|name| - |Suffix(name)|]
  }

  /** `dependencies[key] = value`: replaces in place or appends */
  function PutDependency(g: DependencyGraph.Graph, key: string, value: seq<string>): (r: DependencyGraph.Graph)
    ensures DependencyGraph.Successors(r, key) == value
  {
    if g == [] then [(key, value)]
    else if g[0].0 == key then [(key, value)] + g[1..]
    else [g[0]] + PutDependency(g[1..], key, value)
  }

  /** the `dependencies` dictionary: every readable file that lists
      dependencies, under its stem */
  function DependenciesOf(pairs: seq<(string, string)>, t: Tree, g: DependencyGraph.Graph): DependencyGraph.Graph {
    if pairs == [] then g
    else
      var p := pairs[0].1;
      var g1 := if IsReadableFile(t, p) && t[p].deps != [] then PutDependency(g, Stem(p), t[p].deps) else g;
      DependenciesOf(pairs[1..], t, g1)
  }

  /** `_validate_dependencies`: fails, with one error, exactly when the
      dependency graph has a cycle */
  function DependencyStep(pairs: seq<(string, string)>, t: Tree): (r: (bool, seq<Finding>))
    ensures r.0 <==> !DependencyGraph.HasCycle(DependenciesOf(pairs, t, []))
    ensures r.0 ==> r.1 == []
    ensures !r.0 ==> r.1 == [Finding(Error, "circular_dependency", Some("Review and resolve circular dependencies"))]
  {
    var g := DependenciesOf(pairs, t, []);
    DependencyGraph.FindCycleIsExact(g);
    if DependencyGraph.FindCycle(g).Some? then
      (false, [Finding(Error, "circular_dependency", Some("Review and resolve circular dependencies"))])
    else (true, [])
  }

  // ---------------------------------------------------------- best practice

  function BestPractice(fix: string): Finding {
    Finding(Info, "best_practice", Some(fix))
  }

  /** `_validate_best_practices`: information only; `None` where `'version'
      in system` raises because `system` is neither a mapping, a list nor a
      string */
  function BestPracticeFindings(cfg: seq<(string, Yaml)>): (r: Option<seq<Finding>>)
    ensures r.Some? ==> forall f :: f in r.value ==> f.severity == Info
    ensures r.None? <==> cfg != [] && HasKey(cfg, "system") && ContainsKey(Lookup(cfg, "system").value, "version").None?
  {
    if cfg == [] then Some([])
    else
      var system := Lookup(cfg, "system");
      var hasVersion := if system.None? then Some(false) else ContainsKey(system.value, "version");
      if hasVersion.None? then None
      else
        Some((if hasVersion.value then [] else [BestPractice("Add version field to system configuration")])
          + (if HasKey(cfg, "quality_gates") then [] else [BestPractice("Add quality_gates section with validation rules")])
          + (if HasKey(cfg, "monitoring") then [] else [BestPractice("Add monitoring section with metrics and logging config")]))
  }

  // -------------------------------------------------------------- the run

  datatype Outcome = Finished(passed: bool, findings: seq<Finding>) | Crashed

  predicate HasCritical(findings: seq<Finding>) {
    exists f :: f in findings && f.severity == Critical
  }

  /** only warnings and information */
  predicate Mild(findings: seq<Finding>) {
    forall f :: f in findings ==> f.severity == Warning || f.severity == Info
  }

  predicate NoCritical(findings: seq<Finding>) {
    forall f :: f in findings ==> f.severity != Critical
  }

  /** the component files of a configuration: each referenced path with
      its section */
  function ComponentPairs(cfg: seq<(string, Yaml)>, root: string): seq<(string, string)> {
    Pairs(FileReferences(cfg, FileSections, root))
  }

  /** the directory, reference and component checks pass */
  ghost predicate StructurePasses(cfg: seq<(string, Yaml)>, root: string, t: Tree) {
    && DirectoriesOk(root, t)
    && ReferencesOk(cfg, root, t)
    && (forall k :: 0 <= k < |ComponentPairs(cfg, root)| ==> ComponentOk(t, ComponentPairs(cfg, root)[k].1))
  }

  lemma SeveritiesOfConcat(a: seq<Finding>, b: seq<Finding>)
    ensures NoCritical(a + b) <==> NoCritical(a) && NoCritical(b)
    ensures Mild(a + b) <==> Mild(a) && Mild(b)
  {
    assert forall f :: f in a + b <==> f in a || f in b;
  }

  /** every check after the load passes */
  ghost predicate ChecksPass(cfg: seq<(string, Yaml)>, root: string, t: Tree) {
    StructurePasses(cfg, root, t) && !DependencyGraph.HasCycle(DependenciesOf(ComponentPairs(cfg, root), t, []))
  }

  /** the first three checks of `validate_all` */
  function StructureChecks(cfg: seq<(string, Yaml)>, root: string, t: Tree): (r: (bool, seq<Finding>))
    ensures NoCritical(r.1)
    ensures r.0 <==> StructurePasses(cfg, root, t)
    ensures r.0 ==> Mild(r.1)
  {
    var dirs := DirectoryStep(root, t);
    var refs := ReferenceStep(cfg, root, t);
    var comps := ComponentStep(ComponentPairs(cfg, root), t);
    (dirs.0 && refs.0 && comps.ok, dirs.1 + refs.1 + comps.findings)
  }

  /** the priority, dependency and best-practice checks; `None` where one
      of them raises */
  function LaterChecks(cfg: seq<(string, Yaml)>, root: string, t: Tree): (r: Option<(bool, seq<Finding>)>)
    ensures r.Some? ==> NoCritical(r.value.1)
    ensures r.Some? ==> (r.value.0 <==> !DependencyGraph.HasCycle(DependenciesOf(ComponentPairs(cfg, root), t, [])))
    ensures r.Some? && r.value.0 ==> Mild(r.value.1)
  {
    var pairs := ComponentPairs(cfg, root);
    var prio := PriorityStep(pairs, t, ComponentStep(pairs, t).registers);
    var deps := DependencyStep(pairs, t);
    var best := BestPracticeFindings(cfg);
    if prio.None? || best.None? then None
    else
      assert NoCritical(prio.value) && Mild(prio.value);
      assert NoCritical(best.value) && Mild(best.value);
      assert NoCritical(deps.1) && (deps.0 ==> Mild(deps.1));
      SeveritiesOfConcat(prio.value, deps.1);
      SeveritiesOfConcat(prio.value + deps.1, best.value);
      Some((deps.0, prio.value + deps.1 + best.value))
  }

  /** the checks after a successful load, in `validate_all`'s order */
  function RunChecks(cfg: seq<(string, Yaml)>, root: string, t: Tree): (r: Outcome)
    ensures r.Finished? ==> NoCritical(r.findings)
    ensures r.Finished? ==> (r.passed <==> ChecksPass(cfg, root, t))
    ensures r.Finished? && r.passed ==> Mild(r.findings)
  {
    var early := StructureChecks(cfg, root, t);
    var late := LaterChecks(cfg, root, t);
    if late.None? then Crashed
    else Finished(early.0 && late.value.0, early.1 + late.value.1)
  }

  /** `validate_all`: a missing, unreadable or unparsable config, or one
      whose root is not a mapping, fails at once with one critical finding;
      otherwise the result is the conjunction of the checks, and the final
      critical-error test can no longer change it. */
  function ValidateAll(root: string, c: ConfigFile, t: Tree): (r: Outcome)
    ensures !c.ConfigText? ==> r == Finished(false, ConfigFileFindings(c))
    ensures c.ConfigText? && !(c.load.Loaded? && c.load.doc.YMap?) ==> r == Finished(false, SyntaxFindings(c.load))
    ensures c.ConfigText? && c.load.Loaded? && c.load.doc.YMap? ==> r == RunChecks(c.load.doc.entries, root, t)
  {
    if !c.ConfigText? then Finished(false, ConfigFileFindings(c))
    else if !(c.load.Loaded? && c.load.doc.YMap?) then Finished(false, SyntaxFindings(c.load))
    else
      var r := RunChecks(c.load.doc.entries, root, t);
      if r.Crashed? then r else Finished(r.passed && !HasCritical(r.findings), r.findings)
  }

  // ------------------------------------------------------------- the report

  datatype Summary = Summary(total: nat, critical: nat, errors: nat, warnings: nat, info: nat)

  function SeverityOf(f: Finding): Severity { f.severity }

  /** no finding is critical or an error */
  predicate NoSevereFinding(findings: seq<Finding>) {
    forall f :: f in findings ==> f.severity != Critical && f.severity != Error
  }

  /** `generate_report`'s summary and `validation_passed`: each count is
      the number of findings of that severity */
  function Report(findings: seq<Finding>): (r: (Summary, bool))
    ensures r.0.total == |findings|
    ensures r.0.critical == multiset(Graded(findings, SeverityOf))[Critical]
    ensures r.0.errors == multiset(Graded(findings, SeverityOf))[Error]
    ensures r.0.warnings == multiset(Graded(findings, SeverityOf))[Warning]
    ensures r.0.info == multiset(Graded(findings, SeverityOf))[Info]
    ensures r.0.total == r.0.critical + r.0.errors + r.0.warnings + r.0.info
    ensures r.1 <==> NoSevereFinding(findings)
  {
    var sevs := Graded(findings, SeverityOf);
    SeveritiesPartition(sevs);
    GradedHas(findings, SeverityOf, Critical);
    GradedHas(findings, SeverityOf, Error);
    var s := Summary(|findings|, CountSeverity(sevs, Critical), CountSeverity(sevs, Error),
                     CountSeverity(sevs, Warning), CountSeverity(sevs, Info));
    (s, s.critical == 0 && s.errors == 0)
  }

  /** A passing run always reports `validation_passed`; the report passes a
      failing run only when the configuration is the empty mapping, which
      fails the reference check without a finding. */
  lemma ReportAgreesWithRun(root: string, c: ConfigFile, t: Tree)
    requires ValidateAll(root, c, t).Finished?
    ensures ValidateAll(root, c, t).passed ==> Report(ValidateAll(root, c, t).findings).1
    ensures Report(ValidateAll(root, c, t).findings).1 && !ValidateAll(root, c, t).passed
            ==> c == ConfigText(Loaded(YMap([])))
  {
    RunAgreesWithSeverities(root, c, t);
  }

  lemma RunAgreesWithSeverities(root: string, c: ConfigFile, t: Tree)
    requires ValidateAll(root, c, t).Finished?
    ensures ValidateAll(root, c, t).passed ==> NoSevereFinding(ValidateAll(root, c, t).findings)
    ensures NoSevereFinding(ValidateAll(root, c, t).findings) && !ValidateAll(root, c, t).passed
            ==> c == ConfigText(Loaded(YMap([])))
  {
    var r := ValidateAll(root, c, t);
    if !c.ConfigText? {
      assert r.findings[0] in r.findings && r.findings[0].severity == Critical;
    } else if !(c.load.Loaded? && c.load.doc.YMap?) {
      assert r.findings[0] in r.findings && r.findings[0].severity == Critical;
    } else {
      var cfg := c.load.doc.entries;
      assert r == RunChecks(cfg, root, t);
      if !r.passed && cfg != [] {
        FailingChecksReportAnError(cfg, root, t);
      }
    }
  }

  /** a failing check after the load leaves an error among the findings */
  lemma FailingChecksReportAnError(cfg: seq<(string, Yaml)>, root: string, t: Tree)
    requires cfg != [] && RunChecks(cfg, root, t).Finished? && !RunChecks(cfg, root, t).passed
    ensures exists f :: f in RunChecks(cfg, root, t).findings && f.severity == Error
  {
    var run := RunChecks(cfg, root, t);
    var early := StructureChecks(cfg, root, t);
    var late := LaterChecks(cfg, root, t).value;
    assert run.findings == early.1 + late.1;
    if !early.0 {
      StructureFailureIsError(cfg, root, t);
      var f :| f in early.1 && f.severity == Error;
      assert f in run.findings;
    } else {
      var pairs := ComponentPairs(cfg, root);
      var prio := PriorityStep(pairs, t, ComponentStep(pairs, t).registers).value;
      var deps := DependencyStep(pairs, t);
      assert late.1 == prio + deps.1 + BestPracticeFindings(cfg).value;
      assert deps.1[0] in run.findings;
    }
  }

  lemma StructureFailureIsError(cfg: seq<(string, Yaml)>, root: string, t: Tree)
    requires cfg != [] && !StructureChecks(cfg, root, t).0
    ensures exists f :: f in StructureChecks(cfg, root, t).1 && f.severity == Error
  {
    var dirs := DirectoryStep(root, t);
    var refs := ReferenceStep(cfg, root, t);
    var pairs := ComponentPairs(cfg, root);
    var comps := ComponentStep(pairs, t);
    var all := StructureChecks(cfg, root, t).1;
    assert all == dirs.1 + refs.1 + comps.findings;
    if !dirs.0 {
      var f := RequiredDirFindings(root, t, RequiredDirs)[0];
      assert f in dirs.1;
      assert f in all;
    } else if !refs.0 {
      assert refs.1[0] in all;
    } else {
      var k :| 0 <= k < |pairs| && !ComponentOk(t, pairs[k].1);
      ComponentFailureIsError(pairs, t, k);
      var f :| f in comps.findings && f.severity == Error;
      assert f in all;
    }
  }

  lemma {:induction false} ComponentFailureIsError(pairs: seq<(string, string)>, t: Tree, k: nat)
    requires k < |pairs| && !ComponentOk(t, pairs[k].1)
    ensures exists f :: f in ComponentStep(pairs, t).findings && f.severity == Error
  {
    var c := CheckComponent(pairs[0].0, pairs[0].1, t);
    if k == 0 {
      var f :| f in c.findings && f.severity == Error;
      assert f in ComponentStep(pairs, t).findings;
    } else {
      assert pairs[1..][k - 1] == pairs[k];
      ComponentFailureIsError(pairs[1..], t, k - 1);
      var f :| f in ComponentStep(pairs[1..], t).findings && f.severity == Error;
      assert f in ComponentStep(pairs, t).findings;
    }
  }

  // --------------------------------------------------------------- auto-fix

  /** `text.split(sep)[1]`, or `None` where that raises `IndexError` */
  function SecondPart(text: string, sep: string): (r: Option<string>)
    requires |sep| > 0
  {
    var i := Find(text, sep);
    if i < 0 then None
    else
      var rest := text[i + |sep|..];
      var j := Find(rest, sep);
      Some(if j < 0 then rest else rest[..j])
  }

  /** the directory one finding lets `auto_fix_issues` create */
  function FixTarget(f: Finding): Option<string> {
    if f.category == "missing_directory" && f.fix.Some? && Contains(f.fix.value, "mkdir -p")
    then SecondPart(f.fix.value, MkdirCommand)
    else None
  }

  /** `mkdir(parents=True, exist_ok=True)` fails where a file is in the way
      or the system refuses (`fails`) */
  predicate MkdirSucceeds(t: Tree, d: string, fails: set<string>) {
    d !in fails && !(d in t && t[d].File?)
  }

  /** the finding names a directory to create and creating it succeeds */
  predicate Fixes(t: Tree, fails: set<string>, f: Finding) {
    FixTarget(f).Some? && MkdirSucceeds(t, FixTarget(f).value, fails)
  }

  /** `Fixes` on a given tree, as a test to count findings by */
  function FixesIn(t: Tree, fails: set<string>): Finding -> bool {
    f => Fixes(t, fails, f)
  }

  /** Creating a directory leaves every later creation's outcome as it was,
      so it leaves the number of successful fixes among any findings as it
      was too. */
  lemma MkdirKeepsFixCount(s: seq<Finding>, t: Tree, d: string, fails: set<string>)
    requires !(d in t && t[d].File?)
    ensures CountIf(s, FixesIn(t, fails)) == CountIf(s, FixesIn(t[d := Dir], fails))
  {
    assert forall e :: MkdirSucceeds(t, e, fails) <==> MkdirSucceeds(t[d := Dir], e, fails);
    CountIfAgree(s, FixesIn(t, fails), FixesIn(t[d := Dir], fails));
  }

  /** `auto_fix_issues`: creates the directory each missing-directory
      finding names; the count is of the creations that succeed.  Creating
      a directory never puts a file in the way of a later one, so whether a
      creation succeeds can be read off the tree before the fixes.  The
      findings are taken in list order, as `self.errors` is a list.  A
      directory is one tree entry: the parents `mkdir(parents=True)` would
      also create are not added, and a file standing in the way of a parent
      rather than of the target itself is not a failure here. */
  function AutoFix(findings: seq<Finding>, t: Tree, fails: set<string>): (r: (nat, Tree))
    ensures r.0 <= |findings|
    ensures r.0 == CountIf(findings, FixesIn(t, fails))
    ensures forall p :: p in t && t[p].File? ==> p in r.1 && r.1[p] == t[p]
    ensures forall p :: IsDirAt(t, p) ==> IsDirAt(r.1, p)
    decreases |findings|
  {
    if findings == [] then (0, t)
    else
      var target := FixTarget(findings[0]);
      var made := target.Some? && MkdirSucceeds(t, target.value, fails);
      var t1 := if made then t[target.value := Dir] else t;
      var rest := AutoFix(findings[1..], t1, fails);
      if made then
        MkdirKeepsFixCount(findings[1..], t, target.value, fails);
        (1 + rest.0, rest.1)
      else
        rest
  }

  /** After the auto-fix, the directory of every finding whose creation
      succeeds is there. */
  lemma {:induction false} AutoFixCreatesTargets(findings: seq<Finding>, t: Tree, fails: set<string>)
    ensures forall f :: f in findings && Fixes(t, fails, f) ==> IsDirAt(AutoFix(findings, t, fails).1, FixTarget(f).value)
    decreases |findings|
  {
    if findings != [] {
      var target := FixTarget(findings[0]);
      var made := target.Some? && MkdirSucceeds(t, target.value, fails);
      var t1 := if made then t[target.value := Dir] else t;
      AutoFixCreatesTargets(findings[1..], t1, fails);
      var after := AutoFix(findings, t, fails).1;
      assert after == AutoFix(findings[1..], t1, fails).1;
      forall f | f in findings && Fixes(t, fails, f) ensures IsDirAt(after, FixTarget(f).value) {
        if f == findings[0] {
          assert IsDirAt(t1, target.value);
        } else {
          assert f in findings[1..];
          assert Fixes(t1, fails, f);
        }
      }
    }
  }

  /** the first `mkdir -p ` in a directory finding's suggestion is the one
      before the path */
  lemma {:induction false} FindPastPrefix(prefix: string, s: string, needle: string)
    requires |needle| > 0 && needle[0] !in prefix
    ensures Find(prefix + s, needle) == if Find(s, needle) < 0 then -1 else |prefix| + Find(s, needle)
  {
    if prefix != [] {
      assert !StartsWith(prefix + s, needle) by {
        assert (prefix + s)[0] == prefix[0];
      }
      assert (prefix + s)[1..] == prefix[1..] + s;
      FindPastPrefix(prefix[1..], s, needle);
    } else {
      assert prefix + s == s;
    }
  }

  /** For a directory finding, the auto-fix creates exactly the directory
      the finding is about, as long as its path does not itself contain
      `mkdir -p `. */
  lemma FixTargetOfMissingDirectory(full: string)
    requires !Contains(full, MkdirCommand)
    ensures FixTarget(Finding(Error, "missing_directory", Some(MkdirPrefix + full))) == Some(full)
  {
    var needle := MkdirCommand;
    var lead := "Create directory: ";
    var tail := needle + full;
    var text := MkdirPrefix + full;
    assert text == lead + tail;
    assert StartsWith(tail, needle) by {
      assert tail[..|needle|] == needle;
    }
    assert Find(tail, needle) == 0;
    assert Find(text, needle) == |lead| by {
      FindPastPrefix(lead, tail, needle);
    }
    assert text[|lead| + |needle|..] == full;
    assert Find(full, needle) < 0;
    assert SecondPart(text, needle) == Some(full);
    assert Contains(text, "mkdir -p") by {
      assert text[|lead|..][..8] == "mkdir -p";
      ContainsAt(text, "mkdir -p", |lead|);
    }
  }

  lemma {:induction false} ContainsAt(hay: string, needle: string, i: nat)
    requires i <= |hay| && StartsWith(hay[i..], needle)
    ensures Contains(hay, needle)
  {
    if i > 0 {
      assert hay[1..][i - 1..] == hay[i..];
      ContainsAt(hay[1..], needle, i - 1);
    }
  }

  /** a required directory that is missing has its finding */
  lemma {:induction false} MissingDirectoryReported(root: string, t: Tree, dirs: seq<string>, d: string)
    requires d in dirs && Under(root, d) !in t
    ensures Finding(Error, "missing_directory", Some(MkdirPrefix + Under(root, d))) in RequiredDirFindings(root, t, dirs)
  {
    if dirs[0] != d {
      assert d in dirs[1..];
      MissingDirectoryReported(root, t, dirs[1..], d);
    }
  }

  /** Where nothing refuses the creation and no file stands where a
      required directory belongs, the auto-fix leaves a directory structure
      that passes the directory check. */
  lemma AutoFixRepairsDirectories(root: string, t: Tree)
    requires forall d :: d in RequiredDirs ==> !Contains(Under(root, d), MkdirCommand)
    requires forall d :: d in RequiredDirs ==> !(Under(root, d) in t && t[Under(root, d)].File?)
    ensures DirectoriesOk(root, AutoFix(DirectoryStep(root, t).1, t, {}).1)
  {
    var findings := DirectoryStep(root, t).1;
    var after := AutoFix(findings, t, {}).1;
    AutoFixCreatesTargets(findings, t, {});
    forall d | d in RequiredDirs ensures IsDirAt(after, Under(root, d)) {
      var full := Under(root, d);
      if full !in t {
        MissingDirectoryReported(root, t, RequiredDirs, d);
        var f := Finding(Error, "missing_directory", Some(MkdirPrefix + full));
        assert f in findings;
        FixTargetOfMissingDirectory(full);
        assert MkdirSucceeds(t, full, {});
      }
    }
  }
}

=== FILE: yaml.dfy ===
/** What `yaml.safe_load` hands the validators: a tree of scalars (null,
    booleans, integers, floats, strings), lists and string-keyed mappings
    (in document order), and the few Python operations the validators apply
    to it.  Dates, timestamps and mappings with non-string keys are not
    represented. */
module Yaml {
  import opened Common

  datatype Yaml =
    | YNull
    | YBool(b: bool)
    | YInt(i: int)
    | YFloat(r: real)
    | YStr(s: string)
    | YList(items: seq<Yaml>)
    | YMap(entries: seq<(string, Yaml)>)

  /** `d.get(key)` on a mapping: the first entry under `key`.  A mapping
      that PyYAML builds keeps only the last of repeated keys; the entries
      of a parsed document are taken to be duplicate-free, where first and
      last coincide. */
  function Lookup(entries: seq<(string, Yaml)>, key: string): (r: Option<Yaml>)
    ensures r.None? <==> forall i :: 0 <= i < |entries| ==> entries[i].0 != key
    ensures r.Some? ==> exists i :: 0 <= i < |entries| && entries[i] == (key, r.value)
  {
    if entries == [] then None
    else if entries[0].0 == key then Some(entries[0].1)
    else
      assert entries == [entries[0]] + entries[1..];
      Lookup(entries[1..], key)
  }

  predicate HasKey(entries: seq<(string, Yaml)>, key: string) {
    Lookup(entries, key).Some?
  }

  /** `isinstance(y, int)`, which Python also grants to booleans */
  predicate IsInt(y: Yaml) {
    y.YInt? || y.YBool?
  }

  /** the integer value of an `int` (True is 1, False is 0) */
  function IntValue(y: Yaml): int
    requires IsInt(y)
  {
    if y.YInt? then y.i else if y.b then 1 else 0
  }

  /** Python truthiness */
  predicate Truthy(y: Yaml) {
    match y
    case YNull => false
    case YBool(b) => b
    case YInt(i) => i != 0
    case YFloat(r) => r != 0.0
    case YStr(s) => s != []
    case YList(items) => items != []
    case YMap(entries) => entries != []
  }

  /** a value Python can use as a dictionary key */
  predicate Hashable(y: Yaml) {
    !y.YList? && !y.YMap?
  }

  /** a float with no fractional part */
  predicate IsIntegral(r: real) {
    r.Floor as real == r
  }

  /** the dictionary key a hashable value stands for: `True == 1`,
      `False == 0` and `1.0 == 1` as keys */
  function KeyOf(y: Yaml): Yaml
    requires Hashable(y)
  {
    if y.YBool? then YInt(if y.b then 1 else 0)
    else if y.YFloat? && IsIntegral(y.r) then YInt(y.r.Floor)
    else y
  }

  /** a Python number: `bool`, `int` or `float` */
  predicate IsNumber(y: Yaml) {
    y.YBool? || y.YInt? || y.YFloat?
  }

  /** the value of a number */
  function NumValue(y: Yaml): real
    requires IsNumber(y)
  {
    if y.YFloat? then y.r else IntValue(y) as real
  }

  /** Python's `==` on hashable scalars: numbers compare by value across
      `bool`, `int` and `float`; anything else only equals itself */
  predicate PyEquals(a: Yaml, b: Yaml)
    requires Hashable(a) && Hashable(b)
  {
    if IsNumber(a) && IsNumber(b) then NumValue(a) == NumValue(b) else a == b
  }

  /** Two hashable values fall under the same dictionary key exactly when
      Python finds them equal. */
  lemma KeyOfIsEquality(a: Yaml, b: Yaml)
    requires Hashable(a) && Hashable(b)
    ensures KeyOf(a) == KeyOf(b) <==> PyEquals(a, b)
  {
  }

  /** `key in y` for a string key: key presence in a mapping, membership in
      a list, substring test in a string; `None` where Python raises a
      `TypeError` */
  function ContainsKey(y: Yaml, key: string): (r: Option<bool>)
    ensures r.None? <==> !(y.YMap? || y.YList? || y.YStr?)
    ensures y.YMap? ==> r == Some(HasKey(y.entries, key))
  {
    match y
    case YMap(entries) => Some(HasKey(entries, key))
    case YList(items) => Some(YStr(key) in items)
    case YStr(s) => Some(Contains(s, key))
    case _ => None
  }
}
